=== FILE: README.md ===
# tovo core, modelled in Dafny

tovo is a video-meeting web application. This model covers four parts of it.

1. **Plans and billing.** These are the three plans and their limits, and the
   catalog an admin can override. It also covers the admin trial and plan
   actions, Paystack checkout and payment verification, the Paystack webhook,
   and the trial-fee charge.
2. **Meetings.** These are the meeting rows and the server actions that
   create, retitle and delete them. It also covers the routes that create
   meetings, list upcoming and ended ones, and record call quality, plus the
   admin statistics.
3. **The in-call and pre-join logic.** This is the duration timer with its
   plan gates, chat and raised hands, the pre-join screen selection, the meeting
   lists of the home page, and the routing middleware.
4. **Three form controls.** These are the combobox, the select and the radio
   group.

Each source file becomes one Dafny module with the same structure. Requests,
replies of external services (the auth provider's user metadata, Paystack,
the database, the video SDK), the clock and random identifiers are inputs.
Every route returns its response together with the write it performs, as data.

| module | file | models |
|---|---|---|
| `Basics` | `basics.dfy` | Option/Result, the JavaScript string operations used (`trim`, `startsWith`, `includes`, ASCII `toLowerCase`), number-to-text, `Math.round` |
| `PlanCatalog` | `plan_catalog.dfy` | plan records, default catalog, stored override merge |
| `Accounts` | `accounts.dfy` | user metadata keys, admin user listing, first admin |
| `ConfigStore` | `config_store.dfy` | `getGlobalPlanConfig` / `setGlobalPlanConfig` |
| `Billing` | `billing.dfy` | trial and plan admin actions, checkout, payment verification |
| `PaystackWebhook` | `paystack_webhook.dfy` | the signed webhook |
| `PaystackVerify` | `paystack_verify.dfy` | the verify route |
| `ChargeTrial` | `charge_trial.dfy` | the admin trial-fee charge route |
| `Meetings` | `meetings.dfy` | meeting rows and `createMeeting` / `deleteMeeting` / `updateMeeting` / `deleteStreamCall` |
| `MeetingLists` | `meeting_lists.dfy` | upcoming and ended listing routes |
| `MeetingRoutes` | `meeting_routes.dfy` | create, create-db and quality routes |
| `AdminStats` | `admin_stats.dfy` | the admin statistics route |
| `MeetingRoom` | `meeting_room.dfy` | duration limits and timer, chat, hands, call quality sample |
| `MeetingTypeList` | `meeting_type_list.dfy` | home page feature flags and meeting creation |
| `MeetingSetup` | `meeting_setup.dfy` | pre-join screen selection |
| `Calls` | `calls.dfy` | call classification and the call list |
| `Middleware` | `middleware.dfy` | page protection |
| `EnvDebug` | `env_debug.dfy` | the configuration report |
| `Combobox`, `Select`, `RadioGroup` | `combobox.dfy`, `select.dfy`, `radio_group.dfy` | form controls |

## Model

| member | source | states |
|---|---|---|
| Basics.Round | actions/billing.actions.ts:36 | `Math.round` lands within half a unit of its argument. |
| Basics.RoundInt | actions/billing.actions.ts:36 | `Math.round` leaves a whole number unchanged. |
| Basics.NatToStringRoundTrip | actions/billing.actions.ts:149 | The decimal text of a timestamp reads back as that timestamp. |
| Basics.TrimEmptyIff | app/api/debug/env/route.ts:6-8 | A string trims to empty exactly when every character is JavaScript white space or a line terminator. |
| Basics.TrimIdentity | app/api/meetings/create/route.ts:16-19 | Trimming a string with non-blank ends returns it unchanged. |
| Basics.Includes | components/ui/combobox.tsx:44 | `includes` holds exactly when the needle occurs at some position. |
| Basics.IncludesEmpty | components/ui/combobox.tsx:41-44 | The empty filter occurs in every string. |
| Basics.Lower | components/ui/combobox.tsx:41-44 | Lower-casing keeps the length and maps every character independently. |
| PlanCatalog.DefaultPlanConfig | actions/billing.actions.ts:164-168 | The default catalog has free at 40 min / 100 people and pro and business at 1440 min with 300 / 1000 people. The trial defaults are 14 days with charging off. Recordings and streaming are on exactly for the paid plans, and one-on-one calls are unlimited on every plan. |
| PlanCatalog.MergeOverDefaults | actions/billing.actions.ts:174-179 | A stored override replaces whole plan records key by key; without one the defaults are in force. |
| PlanCatalog.Store | actions/billing.actions.ts:188-192 | Writing a catalog stores all three plan keys. |
| PlanCatalog.StoreThenMerge | actions/billing.actions.ts:174-192 | Reading back a stored catalog gives exactly that catalog. No default leaks into it. |
| PlanCatalog.EmptyStoredIsDefault | actions/billing.actions.ts:176-177 | An empty stored object reads as the defaults. |
| PlanCatalog.PartialOverride | actions/billing.actions.ts:177 | Overriding one plan leaves the other plans at their defaults (a shallow spread). |
| PlanCatalog.TrialSettingDefaults | actions/billing.actions.ts:200-202 | Missing trial settings fall back to 14 days, charging off and 0 NGN. |
| Accounts.ListRow | actions/billing.actions.ts:131-139 | A listed row copies id, email and username. It defaults the subscription to inactive free and the trial to inactive without an end. |
| Accounts.ListUsersAdmin | actions/billing.actions.ts:125-140 | Missing service credentials or a listing error throw. Otherwise there is one row per user, in order. |
| Accounts.FreshUserRow | actions/billing.actions.ts:135-138 | A user with no billing metadata lists as inactive, free and without a trial. |
| Accounts.FindAdmin | actions/billing.actions.ts:174 | The result is the first user whose role is admin, or none when no user has that role. |
| Accounts.FindAdminRoleOnly | actions/billing.actions.ts:174 | The admin found depends only on which users carry the admin role. |
| ConfigStore.GetGlobalPlanConfig | actions/billing.actions.ts:170-180 | The catalog is the first admin's override merged over the defaults. It is the defaults when there is no admin. Missing credentials and listing errors propagate. |
| ConfigStore.SetGlobalPlanConfig | actions/billing.actions.ts:182-195 | It stores the catalog on the first admin only and fails with "No admin user found" when there is none. A failed update fails with its message. It succeeds exactly when the service is configured, the listing succeeds, an admin exists and the update succeeds. |
| ConfigStore.SetThenGet | actions/billing.actions.ts:170-195 | After a successful set, a get returns exactly the catalog written. |
| ConfigStore.FailedSetKeepsConfig | actions/billing.actions.ts:186-187 | Without an admin the set fails and the catalog read stays the default. |
| Billing.StartTrialWrite | actions/billing.actions.ts:200-213 | Starting a trial marks a pro trial ending `days` whole days from now. The charge amount is recorded only when charging is enabled, and no other metadata key changes. |
| Billing.AdminStartProTrial | actions/billing.actions.ts:197-216 | The trial start succeeds exactly when the catalog can be read and the update succeeds, and then performs the trial write. A failed update fails with its message. |
| Billing.StartTrialKeepsSubscription | actions/billing.actions.ts:205-213 | Starting a trial neither grants nor revokes the paid subscription. |
| Billing.DefaultTrial | actions/billing.actions.ts:199-213 | Without an admin override, a trial lasts 14 days and records no charge. |
| Billing.RestartTrialOverwrites | actions/billing.actions.ts:205-213 | A second trial start overwrites the first instead of extending it. |
| Billing.AdminEndTrial | actions/billing.actions.ts:218-227 | Ending a trial succeeds exactly when the service is configured and the update succeeds; a failed update fails with its message. It clears only the trial's active flag, keeping the trial's plan, end and charge settings and every other key. |
| Billing.EndTrialIdempotent | actions/billing.actions.ts:220-224 | Ending a trial twice is the same as ending it once. |
| Billing.EndTrialKeepsSubscription | actions/billing.actions.ts:220-224 | Ending a trial keeps the paid plan and the active flag. |
| Billing.AdminSetUserPlan | actions/billing.actions.ts:142-156 | It succeeds exactly when the service is configured and the update succeeds; a failed update fails with its message. It sets plan and active flag. Provider "admin" and an `admin-` reference are set exactly for an active paid plan and cleared otherwise. Pending and activation time are kept. |
| Billing.AdminReferenceEncodesTime | actions/billing.actions.ts:149 | The admin reference is `admin-` followed by digits that read back as the time of the override. |
| Billing.KoboForUsd | actions/billing.actions.ts:36-37 | The charge in kobo is a whole number of naira, within 50 kobo of 150000 times the USD price. |
| Billing.KoboForWholeUsd | actions/billing.actions.ts:36-37 | A whole-dollar price converts exactly at 1500 NGN per dollar. |
| Billing.CheckoutRequestFor | actions/billing.actions.ts:39-50 | The checkout request is in NGN, returns to `/dashboard` and carries the user id and plan in its metadata, without a payment type. |
| Billing.PendingWrite | actions/billing.actions.ts:67-72 | Checkout marks the chosen plan as pending and changes nothing else. |
| Billing.InitializePaystackCheckout | actions/billing.actions.ts:11-78 | The missing secret, missing base URL and signed-out user errors come in that order. A refused initialisation fails. Otherwise it returns the provider's URL and reference with the pending write. |
| Billing.CheckoutNeverActivates | actions/billing.actions.ts:67-72 | Starting a checkout never changes whether the subscription is active. |
| Billing.ActivationWrite | actions/billing.actions.ts:101-110 | Activation sets the subscription active and not pending, on the given plan. The provider is paystack, with the reference and time recorded, and keys outside the subscription are untouched. |
| Billing.ActivationReplay | app/api/paystack/webhook/route.ts:48-57 | Activating twice for one payment equals the later activation. The two activations differ only in the activation time. |
| Billing.VerifyPaystackPayment | actions/billing.actions.ts:80-114 | Verification succeeds exactly for a configured, signed-in, accepted reply with status `success`. It then activates the metadata plan, or pro when the metadata has none. A non-success status fails with "Payment not successful". |
| Billing.TrialFeeWrite | app/api/paystack/webhook/route.ts:40-46 | A paid trial fee records the reference and the amount in naira (kobo / 100). It changes nothing outside the fee keys. |
| PaystackWebhook.FloorPlan | app/api/paystack/webhook/route.ts:52 | A free plan in the payment metadata is raised to pro. Paid plans are kept. |
| PaystackWebhook.WriteFor | app/api/paystack/webhook/route.ts:27-58 | A successful charge asks for a write exactly when its metadata names a user and a plan. |
| PaystackWebhook.Post | app/api/paystack/webhook/route.ts:11-66 | Any write is acknowledged with 200 `{received: true}`, and 200 always carries that body. The answer is 401 exactly when a secret is set and the signature does not match. |
| PaystackWebhook.MissingSecret | app/api/paystack/webhook/route.ts:13-15 | Without a secret the answer is 500 and nothing is written. |
| PaystackWebhook.BadSignatureRejected | app/api/paystack/webhook/route.ts:17-23 | A header that differs from the HMAC of the raw body gets 401 and no write. |
| PaystackWebhook.WriteRequiresChargeSuccess | app/api/paystack/webhook/route.ts:13-35 | A write happens only for a signed `charge.success` with data status success, with service credentials and a metadata user and plan. It targets that user. |
| PaystackWebhook.OtherEventsAcknowledged | app/api/paystack/webhook/route.ts:26-62 | Every other signed event is acknowledged with no write. |
| PaystackWebhook.ValidChargeWritten | app/api/paystack/webhook/route.ts:26-62 | A signed `charge.success` naming a user and a plan, with the service configured, gets 200 `{received: true}` and exactly the write its payment type calls for. |
| PaystackWebhook.UnparsableBodyFails | app/api/paystack/webhook/route.ts:25-64 | A signed body that does not parse gets 500 "Webhook error" and no write. |
| PaystackWebhook.MissingServiceEnvFails | app/api/paystack/webhook/route.ts:32-35 | A charge that would be written gets 500 "Missing supabase service role env" when the service configuration is missing, and nothing is written. |
| PaystackWebhook.IncompleteMetadataAcknowledged | app/api/paystack/webhook/route.ts:27-62 | A charge without a user id or plan is acknowledged with no write. |
| PaystackWebhook.TrialFeeRouting | app/api/paystack/webhook/route.ts:30-46 | A `trial_fee` payment records only the fee, leaving the subscription untouched. Any other type activates. |
| PaystackWebhook.SubscriptionActivation | app/api/paystack/webhook/route.ts:47-57 | A subscription payment activates the user on a paid plan, with trial and fee keys untouched. |
| PaystackWebhook.Replay | app/api/paystack/webhook/route.ts:11-66 | A replayed delivery targets the same user. Applying it again equals applying the later one, and only the activation time differs. |
| PaystackVerify.Get | app/api/paystack/verify/route.ts:9-49 | The errors are 500 with no secret, 400 with no reference and 401 when signed out. The user is written exactly on a 200, and only for a successful payment, with the action's activation. |
| PaystackVerify.FailuresWriteNothing | app/api/paystack/verify/route.ts:27-45 | A provider failure gives 500, and a payment that did not succeed gives 400. Neither writes anything. |
| PaystackVerify.RouteAgreesWithAction | app/api/paystack/verify/route.ts:31-43 | The route activates exactly when `verifyPaystackPayment` does, with the same plan and write. |
| PaystackVerify.AgreesWithWebhook | app/api/paystack/verify/route.ts:33-42 | For a paid plan, the route and the webhook write the same subscription. |
| PaystackVerify.NoFreeFloor | app/api/paystack/verify/route.ts:32 | The route keeps a metadata plan of free, where the webhook writes pro. |
| ChargeTrial.TrialKobo | app/api/admin/charge-trial/route.ts:57 | The trial fee in kobo is a whole number of naira, within 50 kobo of the configured amount. |
| ChargeTrial.TrialFeeRequest | app/api/admin/charge-trial/route.ts:52-70 | The provider request charges the target's email in NGN, marked as a `trial_fee` payment on pro for the requested user. |
| ChargeTrial.Post | app/api/admin/charge-trial/route.ts:22-91 | Missing config gives 500 and a non-admin caller 401. A provider request is made exactly when the caller is an admin, the body has `userId`, the service env is set, the catalog can be read with charging enabled at a positive amount, and the target is found with an email. An unreadable body or catalog gives 500 "Failed to initialize trial charge". A failed target lookup gives 500 with its message, and a target without email gives 400. An accepted request answers 200 with the provider's authorization URL and reference. A refused one answers 500 with the provider's message, else "Failed to init trial charge". |
| ChargeTrial.ValidRequestAuthorized | app/api/admin/charge-trial/route.ts:38-87 | For an admin request that passes every check, with the provider accepting, the whole outcome is 200 with the provider's URL and reference, and the request charges the target for the configured fee. |
| ChargeTrial.DisabledChargeRejected | app/api/admin/charge-trial/route.ts:38-43 | A disabled or non-positive trial charge answers 400 without contacting the provider. |
| ChargeTrial.DefaultCatalogDisablesCharge | app/api/admin/charge-trial/route.ts:39-41 | The default catalog disables the trial charge. |
| ChargeTrial.MissingUserId | app/api/admin/charge-trial/route.ts:33-36 | A body without `userId` answers 400 before the catalog is read. |
| ChargeTrial.RequestRoutesToFee | app/api/admin/charge-trial/route.ts:63-69 | The webhook routes a payment started here to the fee write. |
| Meetings.CreateMeeting | actions/meeting.actions.ts:10-44 | A signed-out caller gets "User not authenticated". A taken id fails with "Failed to create meeting". Otherwise exactly one row is appended, owned by the caller and not ended, and the existing rows stay as they were. |
| Meetings.Remove | actions/meeting.actions.ts:56-61 | The rows left after removal are never more than before. |
| Meetings.RemoveSpec | actions/meeting.actions.ts:56-61 | A row survives `deleteMany` exactly when it is not the caller's row of that call. Surviving rows keep their multiplicity. |
| Meetings.DeleteMeeting | actions/meeting.actions.ts:46-68 | Signed-out callers are refused, and a failing store gives "Failed to delete meeting". It succeeds exactly for a signed-in caller and a working store, and then removes the caller's rows of the call. |
| Meetings.DeleteOnlyOwnRows | actions/meeting.actions.ts:56-60 | Other users' rows, and the caller's rows of other calls, are never removed. |
| Meetings.NonOwnerDeleteIsNoop | actions/meeting.actions.ts:56-63 | A caller who owns no row of the call leaves the table unchanged, yet the action still succeeds. |
| Meetings.DeleteIdempotent | actions/meeting.actions.ts:56-61 | Deleting twice is the same as deleting once. |
| Meetings.RemoveAppend | actions/meeting.actions.ts:56-61 | Removal distributes over concatenated tables. |
| Meetings.CreateThenDelete | actions/meeting.actions.ts:29-61 | Creating a meeting and then deleting its call gives the same table as deleting alone. |
| Meetings.Retitle | actions/meeting.actions.ts:114-123 | `updateMany` changes title and start of exactly the caller's rows of the call. Every other row is kept as it was. |
| Meetings.UpdateMeeting | actions/meeting.actions.ts:96-130 | Signed-out callers are refused, and a failing store gives "Failed to update meeting". It succeeds exactly for a signed-in caller and a working store, and then retitles the caller's rows. |
| Meetings.UpdateKeepsIdentity | actions/meeting.actions.ts:119-122 | An update keeps every row's id, call, owner and end time. |
| Meetings.UpdateThenDelete | actions/meeting.actions.ts:114-125 | An update followed by a delete gives the same table as the delete alone. |
| Meetings.FirstOfCall | actions/meeting.actions.ts:82-84 | The result is the first row of the call, or none when the call has no row. |
| Meetings.DeleteStreamCall | actions/meeting.actions.ts:70-94 | The sign-in and credential errors come first. The video call is deleted exactly when the first row of the call is the caller's. Otherwise the error is "Not authorized to delete this meeting". |
| Meetings.StreamDeleteImpliesRowDelete | actions/meeting.actions.ts:46-94 | Whoever may delete the video call also removes at least one row with `deleteMeeting`. |
| Meetings.RemoveShrinks | actions/meeting.actions.ts:56-61 | Removal with one addressed row strictly shrinks the table. |
| Meetings.FirstRowDecides | actions/meeting.actions.ts:82-87 | Owning a later row of the call does not authorise deleting it when another user owns its first row. |
| MeetingLists.UpcomingEndedDisjoint | app/api/meetings/upcoming/route.ts:17-21 | At one instant no row satisfies both the upcoming and the ended filter. |
| MeetingLists.HourBoundaryInNeither | app/api/meetings/ended/route.ts:16-26 | An unended row starting exactly one hour ago is in neither listing (strict `gt` and `lt`). |
| MeetingLists.Upcoming | app/api/meetings/upcoming/route.ts:17-21 | Every kept row passes the upcoming filter. Each row that passes is kept as often as it occurs, and nothing else is added. |
| MeetingLists.Ended | app/api/meetings/ended/route.ts:17-26 | Every kept row passes the ended filter. Each row that passes is kept as often as it occurs, and nothing else is added. |
| MeetingLists.AtLeastAfterInsert | app/api/meetings/upcoming/route.ts:22 | Adding an element no smaller than a bound keeps every key at or above the bound. |
| MeetingLists.ConsSorted | app/api/meetings/upcoming/route.ts:22 | A head no larger than a sorted tail gives a sorted sequence. |
| MeetingLists.Insert | app/api/meetings/upcoming/route.ts:22 | Inserting into a sorted sequence keeps it sorted and adds exactly that element. |
| MeetingLists.Sort | app/api/meetings/upcoming/route.ts:22 | `orderBy` yields a sorted permutation of its input. |
| Basics.Take | app/api/meetings/upcoming/route.ts:23 | `take: n`, like `substring(0, n)`, keeps the first min(n, length) entries and nothing else. |
| MeetingLists.SortedPrefix | app/api/meetings/ended/route.ts:25-26 | A prefix of a sorted sequence is sorted, and no dropped element precedes a kept one. |
| MeetingLists.TopRows | app/api/meetings/ended/route.ts:17-26 | The result has min(n, size) rows drawn from the selection, in order. No row left out comes earlier than a listed one. |
| MeetingLists.ToUpcomingItems | app/api/meetings/upcoming/route.ts:26-31 | Each listed row becomes one item with its id, title, start and call id, in order. |
| MeetingLists.ToEndedItems | app/api/meetings/ended/route.ts:28-35 | Each listed row becomes one item that also carries its end time, in order. |
| MeetingLists.UpcomingRows | app/api/meetings/upcoming/route.ts:16-24 | The caller's unended rows that started less than an hour ago, earliest first: exactly min(5, n) of the n such rows, and no left-out one starts earlier than a listed one. |
| MeetingLists.EndedRows | app/api/meetings/ended/route.ts:17-27 | The caller's rows that ended or started over an hour ago, latest first: exactly min(10, n) of the n such rows, and no left-out one starts later than a listed one. |
| MeetingLists.GetUpcoming | app/api/meetings/upcoming/route.ts:7-43 | A signed-out caller or a failed read gets an empty list. Otherwise the items are the public fields of the listed upcoming rows, in order: at most five, each starting later than one hour ago, earliest first. |
| MeetingLists.GetEnded | app/api/meetings/ended/route.ts:7-46 | A signed-out caller or a failed read gets an empty list. Otherwise the items are the public fields of the listed ended rows, in order: at most ten, each ended or started over an hour ago, latest first. |
| MeetingLists.UpcomingItemsAreOwnOpenRows | app/api/meetings/upcoming/route.ts:16-35 | Every upcoming item shows a stored row of the caller's that has not ended and started less than an hour ago. |
| MeetingLists.EndedItemsAreOwnRows | app/api/meetings/ended/route.ts:17-38 | Every ended item shows a stored row of the caller's that ended or started over an hour ago, with that row's end. |
| MeetingLists.ListingsDisjoint | app/api/meetings/ended/route.ts:17-27 | A row listed as upcoming is not listed as ended at the same instant. |
| MeetingLists.FewUpcomingAllListed | app/api/meetings/upcoming/route.ts:22-23 | With five or fewer upcoming rows, all of them are listed. |
| MeetingRoutes.UpsertUser | app/api/meetings/create/route.ts:48-56 | An existing user row is left as it is. A new user gets a row with their email (or '') and a username only when it is non-empty. No other row changes. |
| MeetingRoutes.UpsertIdempotent | app/api/meetings/create-db/route.ts:19-27 | Upserting the same user twice is the same as once. |
| MeetingRoutes.TemplateKeyRefused | app/api/meetings/create/route.ts:14-16 | The template value `your_stream_api_key` is refused as a credential. |
| MeetingRoutes.TemplateKeyMatches | app/api/meetings/create/route.ts:16 | `/your.*key/i` matches `your_stream_api_key`. |
| MeetingRoutes.LowerKeepsLowerCase | app/api/meetings/create/route.ts:16 | Case-insensitive matching leaves text without capitals unchanged. |
| MeetingRoutes.NoYNoPlaceholder | app/api/meetings/create/route.ts:16 | A value without the letter y never looks like a placeholder. |
| MeetingRoutes.MeetingTitle | app/api/meetings/create/route.ts:41-70 | The title is the description when non-empty, else "Instant Meeting" or "Scheduled Meeting". It is never empty. |
| MeetingRoutes.StartOrNow | app/api/meetings/create/route.ts:33 | A start that is absent or 0 becomes the current time. Any other start is kept. |
| MeetingRoutes.PostCreate | app/api/meetings/create/route.ts:12-77 | Unusable credentials give 500 and a signed-out caller 401, both without writes. An unreadable body gives 500 "Failed to create meeting". A video-service failure gives 500 with its message, and no user or row is written. A taken id gives 500 after the user upsert, with the table unchanged. In every other case the answer is 200. On 200 the same id, title and start go to the response, the video call and the appended row, with the user upserted and the link `BASE_URL/meeting/id`. The start is the current time when the body's start is absent or 0. The table changes only on 200. |
| MeetingRoutes.CreatedRowDeletableByCreator | app/api/meetings/create/route.ts:57-65 | The row the route writes lets its creator pass the owner check of `deleteStreamCall`. |
| MeetingRoutes.TitleFromPageRequest | app/api/meetings/create/route.ts:41-70 | A non-empty description is the title of the response, the video call and the row alike. |
| MeetingRoutes.PostCreateDb | app/api/meetings/create-db/route.ts:7-41 | Signed-out callers get 401. A missing id or call id, or a start that is absent or 0, gets 400. An unreadable body gives 500. A complete body answers 200 exactly when its id is free. On 200 one row is appended, with "Meeting" as the default title, and the user is upserted. Any failure leaves the meeting table unchanged. |
| MeetingRoutes.FailedInsertKeepsUpsert | app/api/meetings/create-db/route.ts:19-40 | An insert that fails on a taken id answers 500 but keeps the user upserted before it. |
| MeetingRoutes.CreateDbAgreesWithAction | app/api/meetings/create-db/route.ts:15-36 | The route and `createMeeting` write the same table. The route accepts exactly the rows the action accepts, except a start of 0, which only the route refuses. |
| MeetingRoutes.NumberOrNull | app/api/meetings/quality/route.ts:18-20 | A sample field is kept exactly when it is a number. |
| MeetingRoutes.PostQuality | app/api/meetings/quality/route.ts:6-30 | Unparseable input gives 400 "Invalid payload", and a missing or falsy `meetingId` gives 400. Otherwise the answer is 200, whether or not the row could be stored. A stored row keeps only numeric fields. |
| MeetingRoutes.NonNumericStoredAsNull | app/api/meetings/quality/route.ts:18 | A numeric string is stored as null, not rejected. |
| AdminStats.CountIf | app/api/admin/stats/route.ts:47-52 | A filtered count never exceeds the number of elements. |
| AdminStats.CountMonotone | app/api/admin/stats/route.ts:47-52 | Counting a stronger condition never gives more. |
| AdminStats.CountDisjoint | app/api/admin/stats/route.ts:47-52 | Counts of two exclusive conditions add up to at most the count of a condition both imply. |
| AdminStats.Mrr | app/api/admin/stats/route.ts:86-87 | Revenue is non-negative, and zero exactly when there are no active paid subscriptions. |
| AdminStats.ExpiredTrialNotCounted | app/api/admin/stats/route.ts:89 | A trial whose end has passed is not counted, even with its flag still set. |
| AdminStats.EndedTrialNotCounted | app/api/admin/stats/route.ts:89 | A trial an admin ended is not counted. |
| AdminStats.StartedTrialCounted | app/api/admin/stats/route.ts:89 | A trial an admin starts counts at every instant of its length. |
| AdminStats.RecentMeetings | app/api/admin/stats/route.ts:59-63 | A meeting is in the window exactly when it was created at or after `weekAgo`. Each window meeting appears as often as it is stored, and the window's size is the count of such meetings. |
| AdminStats.CreatedOn | app/api/admin/stats/route.ts:79-82 | A day's count never exceeds the meetings in the window. |
| AdminStats.PerDay | app/api/admin/stats/route.ts:71-84 | There are exactly seven buckets, the day of `weekAgo` and the six following days, each counting the window's meetings created that day. |
| AdminStats.SumDaysStep | app/api/admin/stats/route.ts:79-82 | Each meeting adds one to the bucket sum when its day is a bucket and nothing otherwise. |
| AdminStats.SumDaysAtMostMeetings | app/api/admin/stats/route.ts:79-82 | No meeting is counted in two buckets. |
| AdminStats.SumDaysEmpty | app/api/admin/stats/route.ts:77-78 | With no meetings every bucket is zero. |
| AdminStats.TotalIsSumDays | app/api/admin/stats/route.ts:83 | The bucket total is the sum of the per-day counts. |
| AdminStats.BucketTotalBounded | app/api/admin/stats/route.ts:71-84 | The buckets together hold at most the meetings of the window. |
| AdminStats.TodayNotBucketed | app/api/admin/stats/route.ts:57-76 | Meetings created today fall in no bucket: the seven buckets end yesterday. |
| AdminStats.Durations | app/api/admin/stats/route.ts:65-67 | There is one duration per ended meeting. Each length in minutes appears exactly as often as ended meetings lasted it. |
| AdminStats.AvgDurationMin | app/api/admin/stats/route.ts:64-70 | Without ended meetings the average is 0. |
| AdminStats.SumBounds | app/api/admin/stats/route.ts:69 | A sum of values within a range lies between count times the bounds. |
| AdminStats.DivBounds | app/api/admin/stats/route.ts:69 | A mean of values within a range lies within the range. |
| AdminStats.RoundedMeanWithin | app/api/admin/stats/route.ts:68-69 | The rounded mean of values within a range lies within it, up to rounding. |
| AdminStats.AverageWithinRange | app/api/admin/stats/route.ts:64-70 | If some meeting has ended and every ended meeting lasted between two bounds, the average lies between them, up to rounding. |
| AdminStats.Compute | app/api/admin/stats/route.ts:35-102 | Each figure is the count its name promises. Users: all, active, active on pro, active on business, created in the window, activated in the window, running trials. Meetings: unended. Pro plus business is at most the active count, which is at most all users. Revenue is 15 and 35 USD per paid subscription. The average and the seven buckets are taken over the meetings created in the window. |
| AdminStats.Get | app/api/admin/stats/route.ts:20-106 | Non-admin callers are refused. Missing service configuration, listing errors and failed meeting reads are reported. An admin with a configured service, a listing and the meetings gets exactly the computed report. |
| MeetingRoom.LoadLimits | components/MeetingRoom.tsx:140-152 | Without a user, or when the catalog cannot be read, the room settings stay as they were. Otherwise the plan (free when unset) gives a limit of `maxDurationMin` minutes and its one-on-one exemption. Streaming is on exactly for an active subscriber whose plan enables it. |
| MeetingRoom.MembersTick | components/MeetingRoom.tsx:154-161 | With a call, the group flag is set exactly when there are more than two members. Without a call nothing changes. |
| MeetingRoom.StreamingNeedsActive | components/MeetingRoom.tsx:145-148 | A lapsed or never-active subscription never gets streaming. |
| MeetingRoom.UnsetPlanIsFree | components/MeetingRoom.tsx:144-149 | A user without a plan gets the free limits: 40 minutes and no streaming. |
| MeetingRoom.GoLive | components/MeetingRoom.tsx:338-345 | Go Live gives only an upgrade prompt unless streaming is enabled. |
| MeetingRoom.ExemptOneOnOne | components/MeetingRoom.tsx:190-192 | An exempt one-on-one call is never timed. |
| MeetingRoom.DefaultCatalogNeverTimesOneOnOne | components/MeetingRoom.tsx:140-192 | Under the default catalog, a call of at most two members is never timed, whatever the plan. |
| MeetingRoom.FreeGroupCallTimed | components/MeetingRoom.tsx:140-192 | Under the default catalog, a free group call is timed at 40 minutes. |
| MeetingRoom.LeaveTick | components/MeetingRoom.tsx:193-202 | Counting from the latest arming, the user is made to leave at the first 5-second tick at which no time remains, and at no earlier tick. |
| MeetingRoom.Arm | components/MeetingRoom.tsx:190-194 | The effect starts a count exactly when the limit is set and non-zero and the call is not an exempt one-on-one call. A count starts at the current time, with the current limit. |
| MeetingRoom.Rearm | components/MeetingRoom.tsx:190-204 | A render that keeps the limit, the group flag and the exemption keeps the running interval. A change of any of them discards it and runs the effect again. |
| MeetingRoom.Tick | components/MeetingRoom.tsx:194-202 | A callback makes the user leave, and stops the interval, exactly when a running count has no time remaining. Otherwise nothing changes. |
| MeetingRoom.RearmRestartsCount | components/MeetingRoom.tsx:190-204 | After a change of the timer inputs that leaves the timer armed, the user leaves exactly when a full limit has passed since the change, whatever was counted before. |
| MeetingRoom.GroupDipRestartsLimit | components/MeetingRoom.tsx:154-204 | A timed group call that drops to two members, which disarms the timer, and then returns to three is timed afresh. At the first deadline the user is not made to leave, and at a full limit after the return they are. |
| MeetingRoom.SteadyReloadKeepsCount | components/MeetingRoom.tsx:140-204 | Loading the same plan again sets the same values, so a running count keeps its start. |
| MeetingRoom.Receive | components/MeetingRoom.tsx:95-101 | A message is appended in arrival order. It counts as unread exactly when the panel is hidden. |
| MeetingRoom.ToggleChat | components/MeetingRoom.tsx:318-322 | Toggling flips the panel. Opening it clears the unread count, and closing it keeps the count. |
| MeetingRoom.RaiseHand | components/MeetingRoom.tsx:103-107 | A raise is keyed by user, so a repeat raise overwrites. Other users' hands, the messages and the unread count are untouched. |
| MeetingRoom.RunKeepsOrderAndOneHandPerUser | components/MeetingRoom.tsx:92-112 | Over any interleaving, the messages are the earlier ones followed by every incoming message in order. There is exactly one hand entry per raising user. |
| MeetingRoom.HiddenCountsEveryMessage | components/MeetingRoom.tsx:95-101 | While the panel stays hidden, every incoming message adds one unread. |
| MeetingRoom.DisplayName | components/MeetingRoom.tsx:120-133 | The display name is the username, else the email, else "Guest". It is never empty. |
| MeetingRoom.SendMessage | components/MeetingRoom.tsx:114-127 | A message is sent exactly when the trimmed text is non-empty and there is a call and a user. It carries the trimmed text and the sender. Its id is `userId-` followed by the first clock reading, and its `ts` is the second reading. |
| MeetingRoom.BlankNotSent | components/MeetingRoom.tsx:115-116 | White-space-only text is never sent. |
| MeetingRoom.RaiseHandPayload | components/MeetingRoom.tsx:129-138 | A hand is raised exactly when there is a call and a user, under their id and display name. |
| MeetingRoom.Jitter | components/MeetingRoom.tsx:170 | Jitter is known exactly when both round-trip times are, and is their absolute difference. |
| MeetingRoom.Sample | components/MeetingRoom.tsx:163-188 | A sample reports the call id, round-trip time, downlink and jitter. Only a present round-trip time replaces the remembered one. |
| MeetingTypeList.LoadFeatures | components/MeetingTypeList.tsx:48-61 | With a readable catalog, the flags are the plan's own. When the read fails, a paid plan gets recordings and streaming, a free plan gets neither, and every plan keeps the one-on-one exemption. |
| MeetingTypeList.UserPlan | components/MeetingTypeList.tsx:43 | The plan is the user's recorded plan, else free. Without a user it is free. |
| MeetingTypeList.RecordingsDestination | components/MeetingTypeList.tsx:138-145 | The recordings card leads to `/recordings` exactly when the subscription is active and the loaded flags enable recordings. Otherwise it leads to `/pricing`. |
| MeetingTypeList.FallbackMatchesDefaults | components/MeetingTypeList.tsx:52-58 | For every plan, the fallback flags equal the default catalog's flags. |
| MeetingTypeList.RecordingsNeedActive | components/MeetingTypeList.tsx:138-145 | An inactive user, or anyone before the flags load, is sent to `/pricing`. |
| MeetingTypeList.FreeHintIffFree | components/MeetingTypeList.tsx:180-182 | The free-plan hint shows exactly when there is no user, the user has no plan, or their plan is free. |
| MeetingTypeList.CreateRequest | components/MeetingTypeList.tsx:63-81 | A request is made exactly when someone is signed in and the meeting is instant or has a date. An empty description becomes "Instant Meeting" or "Scheduled Meeting". An instant meeting starts now, and a scheduled one at the chosen date. |
| MeetingTypeList.RequestDescriptionNonEmpty | components/MeetingTypeList.tsx:78 | The description posted is never empty. |
| MeetingTypeList.HandleReply | components/MeetingTypeList.tsx:84-96 | A failed reply reports the server's error, else "Failed to create meeting". A successful instant meeting opens `/meeting/<id>`, and a scheduled one is recorded as created. |
| Calls.EndedNotUpcoming | hooks/useGetCalls.ts:45-52 | No call is both ended and upcoming, and a call with an end time is never upcoming. |
| Calls.CustomStartOnly | hooks/useGetCalls.ts:45-52 | A call with only a custom start and no end is never ended. It is upcoming exactly when that start is later than an hour ago. |
| Calls.EndedCalls | hooks/useGetCalls.ts:45-47 | The ended list holds exactly the calls that started over an hour ago or have an end time, each as often as in the input. |
| Calls.UpcomingCalls | hooks/useGetCalls.ts:49-52 | The upcoming list holds exactly the calls whose start (scheduled, else custom) is later than an hour ago and that have no end, each as often as in the input. |
| Calls.EndedCallsKeepOrder | hooks/useGetCalls.ts:45-47 | The ended list keeps the service's order. |
| Calls.UpcomingCallsKeepOrder | hooks/useGetCalls.ts:49-52 | The upcoming list keeps the service's order. |
| Calls.ClientListsDisjoint | hooks/useGetCalls.ts:45-52 | No call appears on both client lists. |
| Calls.IsLoading | hooks/useGetCalls.ts:54 | The hook is loading whenever the user is not yet loaded. Once the user is loaded, it is loading exactly while a query is in flight. |
| Calls.GetCalls | components/CallList.tsx:20-32 | Non-empty server items are shown as they are. Otherwise the client list of the page's type is shown. |
| Calls.FetchFailureFallsBack | components/CallList.tsx:87-89 | A failed server fetch shows the same list as no server answer. |
| Calls.NoCallsMessagesDistinct | components/CallList.tsx:34-45 | Each list type has its own non-empty empty-list message. |
| Calls.Title | components/CallList.tsx:131-135 | A card's title is the call's description, else the first 20 characters (Unicode code points) of the recording's file name, else "No Description". It is never empty. |
| Calls.CardFor | components/CallList.tsx:131-162 | A card plays recordings and starts calls. Only upcoming call cards carry the call id and can be hosted, and hosting means the creator is the viewer. Only the ended list marks cards as previous. |
| Calls.NoCreatorSignedOutIsHost | components/CallList.tsx:161 | A call without a creator id counts as hosted for a signed-out viewer, because both sides are undefined. |
| Calls.Render | components/CallList.tsx:112-165 | The loader shows exactly while loading with no server answer. Otherwise the type's message shows exactly when there are no items, and there is one card per item, in order, when there are some. |
| Calls.ServerUpcomingIsUpcoming | components/CallList.tsx:60-72 | A row the upcoming route lists becomes a call that the client classifies as upcoming and not ended, hosted by the viewer. |
| Calls.ServerEndedIsEnded | components/CallList.tsx:73-85 | A row the ended route lists becomes a call that the client classifies as ended and not upcoming. |
| MeetingSetup.SelectScreen | components/MeetingSetup.tsx:30-162 | Without a call or client, the component fails with the StreamCall error. A guest early for an empty call waits, shown the scheduled start. Otherwise an ended call shows the ended screen, then denied media access shows the device error, and otherwise the set-up screen shows. |
| MeetingSetup.HostNeverWaits | components/MeetingSetup.tsx:112-139 | The creator of the call is never made to wait. |
| MeetingSetup.WaitingBeatsEnded | components/MeetingSetup.tsx:112-147 | A guest early for an empty call waits, even when the call has ended. |
| MeetingSetup.SignedOutNeverHost | components/MeetingSetup.tsx:54 | A signed-out viewer is never the host. |
| MeetingSetup.SetupReachable | components/MeetingSetup.tsx:112-164 | The set-up screen shows exactly when no waiting, ended or device-error screen applies. |
| MeetingSetup.DeviceRequest | components/MeetingSetup.tsx:76-94 | Devices are left alone exactly when access is denied. Otherwise they are turned on exactly when "join with mic and camera off" is unticked. |
| MeetingSetup.Join | components/MeetingSetup.tsx:181-185 | Joining marks the component as joining and set-up as complete. |
| MeetingSetup.JoinKeepsDevices | components/MeetingSetup.tsx:96-110 | After the join button, unmounting keeps the devices on. Without a join, unmounting turns them off. |
| Middleware.Route | utils/supabase/middleware.ts:59-93 | A signed-out request for a protected page goes to `/sign-in`. A non-admin request for an admin page goes home. A signed-in request for the sign-in or sign-up pages goes home. A request passes exactly when none of these applies. |
| Middleware.AnonymousAdminGoesHome | utils/supabase/middleware.ts:67-84 | A signed-out request for an admin page goes home, not to sign-in. |
| Middleware.AdminPagesNeedAdmin | utils/supabase/middleware.ts:76-84 | Only a signed-in admin passes an admin page. |
| Middleware.MeetingPagesNeedSignIn | utils/supabase/middleware.ts:67-73 | Inside `updateSession`, every path starting with `/meeting` sends a signed-out request to sign-in, `/meetings` included. Whether such a request reaches `updateSession` is the matcher's decision (`Middleware.Proxy`). |
| Middleware.ProtectedListIsExact | utils/supabase/middleware.ts:60-67 | The protected list matches whole paths only, so `updateSession` does not protect a sub-path such as `/upcoming/x`. |
| Middleware.UnderMeetingIsProtected | utils/supabase/middleware.ts:60-67 | Every matched path under `/meeting` passes `updateSession`'s prefix test. |
| Middleware.AdminNotProtected | utils/supabase/middleware.ts:60-84 | A path under `/admin` takes the admin branch. It is neither a sign-in protected page nor a sign-in or sign-up page. |
| Middleware.Proxy | proxy.ts:4-19 | Requests the matcher does not list pass untouched. Signed-out requests for a listed page or a page under `/meeting` go to sign-in. A page under `/admin` passes exactly for a signed-in admin. Signed-in requests for the sign-in and sign-up pages go home. |
| Middleware.MeetingsPathNotGuarded | proxy.ts:8-19 | `/meetings` is not matched, so a signed-out request for it passes. |
| Middleware.UpcomingSubpathNotGuarded | proxy.ts:8-19 | `/upcoming/x` is not matched, so a signed-out request for it passes. |
| EnvDebug.PresentIff | app/api/debug/env/route.ts:6-8 | A variable is present exactly when it is set and has a non-white-space character. |
| EnvDebug.MissingLooksNothing | app/api/debug/env/route.ts:6-21 | An unset variable is neither present nor well-shaped. |
| EnvDebug.PkIsPresent | app/api/debug/env/route.ts:6-19 | A key that looks like `pk_...` is present. |
| EnvDebug.GetEnv | app/api/debug/env/route.ts:23-41 | Each reported flag is the presence or shape check of its own variable. |
| EnvDebug.ReportDependsOnlyOnPredicates | app/api/debug/env/route.ts:23-41 | Two environments that agree on every check get the same report, so no configured value leaks. |
| Combobox.Filtered | components/ui/combobox.tsx:40-46 | The filtered list is never longer than the options. |
| Combobox.FilteredSpec | components/ui/combobox.tsx:40-46 | An option is listed exactly when it matches the typed text, case-insensitively, in its label or value. It is listed as many times as it occurs. |
| Combobox.FilteredKeepsOrder | components/ui/combobox.tsx:42-45 | The filtered list keeps the options' order. |
| Combobox.EmptyFilterListsAll | components/ui/combobox.tsx:40-46 | With nothing typed, every option is listed. |
| Combobox.FilterIdempotent | components/ui/combobox.tsx:40-46 | Filtering the filtered list again by the same text changes nothing. |
| Combobox.Init | components/ui/combobox.tsx:33-36 | The menu starts closed, with an empty filter, the `value` prop as current value and the first entry active. |
| Combobox.SelectValue | components/ui/combobox.tsx:52-56 | Selecting makes the value current, reports it once and closes the menu. |
| Combobox.Pickable | components/ui/combobox.tsx:66-69 | An entry can be picked exactly when its index is inside the filtered list and the entry is enabled. The pick is that entry's value. |
| Combobox.HandleKey | components/ui/combobox.tsx:58-73 | A closed menu ignores keys. Down moves to the next entry but not past the last. Up moves back but not before the first. Both arrows keep the menu open and the value unchanged. Enter picks the active entry when it can be picked: it becomes the value, is reported, and the menu closes. Enter on an entry that cannot be picked, and any other key, change nothing. Escape closes without changing the value or the index. Only Enter reports a value. |
| Combobox.Clamp | components/ui/combobox.tsx:48-50 | An index at or past the end of the list goes back to the first entry, and an index inside it is kept. Nothing else changes. |
| Combobox.StepKeepsIndexInvariant | components/ui/combobox.tsx:48-73 | After any event and the clamping effect, the active index is at least -1, and is inside the filtered list unless it is 0. |
| Combobox.NotifiedIsEnabledMatch | components/ui/combobox.tsx:66-120 | Every reported value belongs to an enabled option that matches the filter. |
| Combobox.RunKeepsIndexInvariant | components/ui/combobox.tsx:48-73 | The index invariant survives any sequence of events. |
| Combobox.InitSatisfiesInvariant | components/ui/combobox.tsx:33-36 | The initial state satisfies the index invariant. |
| Combobox.ClosedIgnoresKeys | components/ui/combobox.tsx:59 | While the menu is closed, a key press changes nothing and reports nothing. |
| Combobox.DisabledNeverPicked | components/ui/combobox.tsx:69-120 | A disabled entry is picked neither by click nor by Enter. |
| Combobox.Find | components/ui/combobox.tsx:76 | A found option carries the current value. When none is found, no option has that value. |
| Combobox.FindIsFirst | components/ui/combobox.tsx:76 | The option found is the first one with the current value. |
| Combobox.CurrentLabel | components/ui/combobox.tsx:75-78 | The trigger shows the found option's non-empty label, else the placeholder, else "Select...". It is never empty. |
| Combobox.NothingSelectedShowsPlaceholder | components/ui/combobox.tsx:75-78 | With no current value, the trigger shows the placeholder, else "Select...". |
| Combobox.PickIsFound | components/ui/combobox.tsx:52-78 | After a pick, the current value is the reported one, and the trigger finds an option for it. |
| Select.Register | components/ui/select.tsx:44-46 | After registering, the value maps to the label, the keys are the old keys plus that value, and other labels are kept. An unchanged pair leaves the map as it was. |
| Select.RegisterIdempotent | components/ui/select.tsx:44-46 | Registering the same pair twice equals registering it once. |
| Select.RegisterCommutes | components/ui/select.tsx:44-46 | Items with different values can register in either order. |
| Select.ItemLabel | components/ui/select.tsx:97-100 | A string child is its own label. Any other child registers its string rendering. |
| Select.Init | components/ui/select.tsx:37-39 | The select starts with the `value` prop and no labels. |
| Select.HandleChange | components/ui/select.tsx:40-43 | A change sets the value and reports it exactly once. The labels are untouched. |
| Select.Step | components/ui/select.tsx:37-105 | A click sets the value and reports it. A changed `value` prop overwrites the value, undefined included, and an unchanged prop does nothing. A registration only touches the labels. |
| Select.Shown | components/ui/select.tsx:121-125 | A set value shows its registered non-empty label, else the raw value when it has no label. With no value, or with an empty registered label, the placeholder shows, else nothing. The text is empty exactly when there is no placeholder and either no value or an empty registered label. |
| Select.ChosenItemShowsItsLabel | components/ui/select.tsx:97-125 | Once an item has registered a non-empty label, clicking it shows that label. |
| Select.ClickNotifiesOnce | components/ui/select.tsx:40-43 | A click reports exactly one value and does not touch the labels. |
| Select.ClickOverridesUnchangedProp | components/ui/select.tsx:39-43 | In a controlled select, a click changes the shown value even when the parent keeps its prop, because the prop is copied only when it changes. |
| RadioGroup.Mount | components/ui/radio-group.tsx:24-30 | The group starts at its default value, unless a controlled value is given, which wins. |
| RadioGroup.PropChange | components/ui/radio-group.tsx:26-30 | A changed, defined controlled value replaces the group value. Becoming undefined, or staying the same, leaves the value alone. |
| RadioGroup.AtMostOneChecked | components/ui/radio-group.tsx:57 | Two items with different values are never both checked. |
| RadioGroup.HandleChange | components/ui/radio-group.tsx:32-35 | A change checks the new item and reports its value. |
| RadioGroup.ItemChange | components/ui/radio-group.tsx:59-63 | Only a change that leaves the input checked selects the item. Otherwise nothing happens. |
| RadioGroup.ChangeChecksOnlyThatItem | components/ui/radio-group.tsx:57-63 | After a checked change, exactly that item is checked, and its value is the one reported. |
| RadioGroup.ControlledDecides | components/ui/radio-group.tsx:26-57 | A new defined controlled value decides which single item is checked. |
| RadioGroup.DefaultChecked | components/ui/radio-group.tsx:24-57 | An uncontrolled group starts with exactly its default item checked. |

## Left out

- External services are not modelled. The auth provider, Paystack's HTTP API, the video SDK, Prisma and fetch are inputs: a reply value, or a function parameter for the HMAC-SHA512 digest (section 2 of RFC 2104) and for JSON parsing. Their failures enter as inputs wherever the code tests or catches them. These are listing results, `updateError` for an auth-admin update whose error the action throws, `storeFails` for a Prisma delete or update the action catches, and a missing meeting read in the stats route.
- A thrown `updateUserById` in the webhook (caught as 500 "Webhook error") and a thrown user upsert in the create-db route (caught as 500) are not modelled. Nor are the create route's upsert and insert failing for any reason other than a taken id (`app/api/meetings/create/route.ts:48-65`), or its `new Date(startsAt)` throwing on an out-of-range start. The provider client reports failures in its reply rather than by throwing, and the upsert fails only when the store is down. The updates in checkout and verification ignore their error replies, as the code does.
- Error messages of thrown store or parser errors are not modelled. A route that forwards such a message answers with its own default text instead.
- Cookie handling and session refresh in `utils/supabase/middleware.ts` are not modelled. The signed-in user after `getUser` is an input.
- Concurrency is not modelled. The verify route and webhook deliveries are each one sequential transition on the metadata record.
- Pagination of the auth provider's user listing is not modelled. The listing is one input sequence, as the code reads a single page.
- Plan strings outside free, pro and business are not modelled. The plan is an enum, and an absent plan reads as free.
- Amounts and durations are exact reals, not IEEE doubles. NaN and infinities, which JavaScript numbers allow, are not modelled.
- Wall-clock arithmetic is not modelled. Times are integer milliseconds, days are UTC day indices (`t / DayMs`), and `setDate` is a shift by whole days, so time zones and daylight-saving changes are left out.
- React mechanics are not modelled. Effects, intervals and the five-second timer are explicit steps and ticks, and rendering, toasts, router pushes and console output are left out.
- MeetingRoom.LeaveTick: elapsed time counts from the latest change of `durationLimitMs`, `isGroup` or `unlimitedOneOnOne`, so the limit applies per arming, not per call. `MeetingRoom.Rearm` and `MeetingRoom.GroupDipRestartsLimit` state the restart. Ticks are taken as exact 5-second steps after the arming, so timer drift is not modelled.
- Calls.Title: `substring(0, 20)` counts UTF-16 code units, while the model counts Unicode code points. A file name with characters outside the Basic Multilingual Plane, such as emoji, gives a longer title in the model, and the source may split a surrogate pair.
- Case folding is ASCII only, so `toLowerCase` of non-ASCII letters is not modelled.
- Database constraints other than the unique row id are not modelled. Rows with equal start times keep their storage order. The order of the table's sequence stands for the order in which the store returns rows. Without an `orderBy` that order is unspecified, so `findFirst` (`Meetings.FirstOfCall`) may return any row of the call.
- The recordings fetch and the video SDK's call query are not modelled. Recording items, and the calls the hook receives, are inputs.
- A participant cap and trial-aware entitlement are not modelled because the code has neither. The catalog stores `maxParticipants`, but no modelled path reads it, and no gate consults the trial fields.
- Webhook replays are not byte-for-byte idempotent, because the code does not make them so. A replay rewrites `subscription_activated_at` with the current time (`PaystackWebhook.Replay`), and the verify route stores a free plan from the metadata without raising it to pro.
- The webhook compares signatures with `!==`, which is not constant-time. The model states only equality and claims no constant-time behaviour.
- The meeting room's call-presence guard for samples is not modelled. A sample exists only with a call.
- The rendering of dates (`toLocaleString`) on cards and the waiting screen is not modelled.
- Combobox.Filtered: its own contract states only the length bound. Membership, multiplicity and order are stated by `Combobox.FilteredSpec` and `Combobox.FilteredKeepsOrder`, so that proofs using the filter stay small.
- Meetings.Remove: its own contract states only the length bound. What survives is stated by `Meetings.RemoveSpec`.
- PaystackWebhook.Post: its own contract states acknowledgement of writes and the 401 branch. Each other branch has its own lemma: missing secret, unparsable body, other events, incomplete metadata, missing service configuration and a valid charge written. Trial-fee routing, activation and replay have lemmas too.
- MeetingRoutes.PostCreateDb: the start is an integer instant, so of JavaScript's falsy values only a missing start and the number 0 are refused. An empty-string start arrives as a missing one.
- The matcher's `:path*` is read as "the base path or anything below it". Trailing-slash normalisation and other path-to-regexp details are not modelled.
- The combobox `value` prop event stands for the effect firing after the prop changed. A re-render with an unchanged prop is not an event.

=== FILE: accounts.dfy ===
/** The identity provider's per-user metadata, as a typed record. The source
    keeps it as a dynamically typed key/value bag; here each key the
    application reads or writes is a field, and a key that is absent (or was
    written as `null`) is `None`. Updates through the provider merge only the
    keys they name, which is what `m.(field := …)` expresses. */
module Accounts {
  import opened Basics
  import opened PlanCatalog

  /** `subscription_*` keys. */
  datatype Subscription = Subscription(
    active: Option<bool>,
    plan: Option<Plan>,
    pending: Option<bool>,
    provider: Option<string>,
    reference: Option<string>,
    activatedAt: Option<int>)

  /** `subscription_trial_*` keys. */
  datatype Trial = Trial(
    active: Option<bool>,
    plan: Option<Plan>,
    end: Option<int>,
    chargeEnabled: Option<bool>,
    chargeNgn: Option<real>)

  /** `subscription_trial_fee_*` keys. */
  datatype TrialFee = TrialFee(
    paid: Option<bool>,
    reference: Option<string>,
    amountNgn: Option<real>)

  datatype UserMeta = UserMeta(
    role: Option<string>,
    username: Option<string>,
    sub: Subscription,
    trial: Trial,
    fee: TrialFee,
    planConfig: Option<StoredConfig>)

  /** A user as the auth provider returns it. Timestamps are milliseconds. */
  datatype AuthUser = AuthUser(
    id: string,
    email: Option<string>,
    createdAt: Option<int>,
    meta: UserMeta)

  /** The metadata of a freshly signed-up user: no key set. */
  function EmptyMeta(): UserMeta {
    UserMeta(None, None,
      Subscription(None, None, None, None, None, None),
      Trial(None, None, None, None, None),
      TrialFee(None, None, None),
      None)
  }

  predicate IsAdmin(m: UserMeta) {
    m.role == Some("admin")
  }

  /** `!!user_metadata.subscription_active` */
  predicate SubscriptionActive(m: UserMeta) {
    m.sub.active == Some(true)
  }

  /** `user_metadata.subscription_plan || 'free'` */
  function PlanOrFree(m: UserMeta): Plan {
    m.sub.plan.GetOr(Free)
  }

  /** One row of the admin user listing. */
  datatype AdminRow = AdminRow(
    id: string,
    email: Option<string>,
    username: Option<string>,
    active: bool,
    plan: Plan,
    trialActive: bool,
    trialEnd: Option<int>)

  /** The row `listUsersAdmin` derives from a user: absent keys default to an
      inactive free subscription and an inactive trial without an end. */
  function ListRow(u: AuthUser): (r: AdminRow)
    ensures r.id == u.id && r.email == u.email && r.username == u.meta.username
    ensures r.active <==> SubscriptionActive(u.meta)
    ensures u.meta.sub.plan.None? ==> r.plan == Free
    ensures u.meta.sub.plan.Some? ==> r.plan == u.meta.sub.plan.value
    ensures r.trialActive <==> u.meta.trial.active == Some(true)
    ensures r.trialEnd == u.meta.trial.end
  {
    AdminRow(u.id, u.email, u.meta.username,
      u.meta.sub.active.GetOr(false), u.meta.sub.plan.GetOr(Free),
      u.meta.trial.active.GetOr(false), u.meta.trial.end)
  }

  /** `listUsersAdmin`: the listing mapped row by row, in order. */
  function ListUsersAdmin(serviceEnv: bool, listing: Result<seq<AuthUser>>): (r: Result<seq<AdminRow>>)
    ensures !serviceEnv ==> r == Err("Missing SUPABASE service role configuration")
    ensures serviceEnv && listing.Err? ==> r == Err(listing.error)
    ensures r.Ok? ==> listing.Ok? && |r.value| == |listing.value|
    ensures r.Ok? ==> forall i :: 0 <= i < |r.value| ==> r.value[i] == ListRow(listing.value[i])
  {
    if !serviceEnv then Err("Missing SUPABASE service role configuration")
    else if listing.Err? then Err(listing.error)
    else Ok(seq(|listing.value|, i requires 0 <= i < |listing.value| => ListRow(listing.value[i])))
  }

  /** A user who never touched billing lists as inactive, free, without trial. */
  lemma FreshUserRow(id: string, email: Option<string>, created: Option<int>)
    ensures ListRow(AuthUser(id, email, created, EmptyMeta())) ==
      AdminRow(id, email, None, false, Free, false, None)
  {
  }

  /** Index of the first user whose role is admin (`users.find(...)`). */
  function FindAdmin(users: seq<AuthUser>): (r: Option<nat>)
    ensures r.Some? ==> r.value < |users| && IsAdmin(users[r.value].meta)
    ensures r.Some? ==> forall j :: 0 <= j < r.value ==> !IsAdmin(users[j].meta)
    ensures r.None? ==> forall j :: 0 <= j < |users| ==> !IsAdmin(users[j].meta)
  {
    if |users| == 0 then None
    else if IsAdmin(users[0].meta) then Some(0)
    else match FindAdmin(users[1..])
      case None => None
      case Some(k) => Some(k + 1)
  }

  /** The first admin depends only on which users are admins: two listings that
      agree on that agree on the first admin. */
  lemma FindAdminRoleOnly(a: seq<AuthUser>, b: seq<AuthUser>)
    requires |a| == |b|
    requires forall j :: 0 <= j < |a| ==> (IsAdmin(a[j].meta) <==> IsAdmin(b[j].meta))
    ensures FindAdmin(a) == FindAdmin(b)
  {
  }
}

=== FILE: admin_stats.dfy ===
/** `GET /api/admin/stats`: user and subscription counts, revenue, active
    trials and a seven-day meeting summary for the admin dashboard. The user
    listing, the meeting columns it selects and the clock are inputs. Days are
    UTC calendar days (`t / DayMs`), which is what slicing an ISO timestamp to
    ten characters yields. */
module AdminStats {
  import opened Basics
  import opened PlanCatalog
  import opened Accounts
  import opened Billing

  /** Monthly list prices in USD. */
  const ProPriceUsd := 15
  const BusinessPriceUsd := 35

  /** The meeting columns the route selects. */
  datatype StatMeeting = StatMeeting(startsAt: int, endedAt: Option<int>, createdAt: int)

  datatype DayCount = DayCount(day: int, count: nat)

  datatype Stats = Stats(
    totalUsers: nat,
    activeUsers: nat,
    activeMeetings: nat,
    mrrUsd: int,
    proCount: nat,
    businessCount: nat,
    newUsersLast7d: nat,
    newSubsLast7d: nat,
    trialsActive: nat,
    avgDurationMin: int,
    meetingsPerDay: seq<DayCount>)

  // ----- counting -----

  function CountIf<T>(s: seq<T>, p: T -> bool): (n: nat)
    ensures n <= |s|
    decreases |s|
  {
    if |s| == 0 then 0 else (if p(s[0]) then 1 else 0) + CountIf(s[1..], p)
  }

  /** Counting a stronger predicate never gives more. */
  lemma {:induction false} CountMonotone<T>(s: seq<T>, p: T -> bool, q: T -> bool)
    requires forall x :: p(x) ==> q(x)
    ensures CountIf(s, p) <= CountIf(s, q)
    decreases |s|
  {
    if |s| > 0 {
      CountMonotone(s[1..], p, q);
    }
  }

  /** Counts of two exclusive predicates add up to at most the count of a
      predicate implied by both. */
  lemma {:induction false} CountDisjoint<T>(s: seq<T>, p: T -> bool, q: T -> bool, r: T -> bool)
    requires forall x :: !(p(x) && q(x))
    requires forall x :: p(x) || q(x) ==> r(x)
    ensures CountIf(s, p) + CountIf(s, q) <= CountIf(s, r)
    decreases |s|
  {
    if |s| > 0 {
      CountDisjoint(s[1..], p, q, r);
    }
  }

  // ----- per-user predicates -----

  predicate Active(u: AuthUser) {
    SubscriptionActive(u.meta)
  }

  predicate ActiveOn(u: AuthUser, p: Plan) {
    SubscriptionActive(u.meta) && PlanOrFree(u.meta) == p
  }

  /** A trial counts while its flag is set and its end is still ahead. */
  predicate TrialRunning(u: AuthUser, now: int) {
    u.meta.trial.active == Some(true) && u.meta.trial.end.Some? && u.meta.trial.end.value > now
  }

  predicate NewUser(u: AuthUser, since: int) {
    u.createdAt.Some? && u.createdAt.value >= since
  }

  predicate NewSub(u: AuthUser, since: int) {
    u.meta.sub.activatedAt.Some? && u.meta.sub.activatedAt.value >= since
  }

  /** Monthly recurring revenue of the active paid subscriptions. */
  function Mrr(pro: nat, business: nat): (usd: int)
    ensures usd >= 0
    ensures usd == 0 <==> pro == 0 && business == 0
  {
    pro * ProPriceUsd + business * BusinessPriceUsd
  }

  /** An expired trial whose flag was never cleared is not counted. */
  lemma ExpiredTrialNotCounted(u: AuthUser, now: int)
    requires u.meta.trial.end.Some? && u.meta.trial.end.value <= now
    ensures !TrialRunning(u, now)
  {
  }

  /** Ending a trial stops it counting. */
  lemma EndedTrialNotCounted(u: AuthUser, now: int)
    ensures !TrialRunning(u.(meta := AdminEndTrial(true, None, u.meta).value), now)
  {
  }

  /** A trial started now by an admin counts for its whole length. */
  lemma StartedTrialCounted(u: AuthUser, cfg: PlanConfig, now: int, t: int)
    requires TrialDays(cfg) > 0
    requires now <= t < now + TrialDays(cfg) * DayMs
    ensures TrialRunning(u.(meta := StartTrialWrite(cfg, now, u.meta)), t)
  {
  }

  // ----- the seven-day meeting summary -----

  /** The day (UTC) of an instant. */
  function Day(t: int): int {
    t / DayMs
  }

  predicate CreatedSince(m: StatMeeting, since: int) {
    m.createdAt >= since
  }

  /** The `createdAt >= weekAgo` read: exactly the meetings created in the
      window, each as often as it is stored. */
  function RecentMeetings(ms: seq<StatMeeting>, weekAgo: int): (r: seq<StatMeeting>)
    ensures forall i :: 0 <= i < |r| ==> r[i].createdAt >= weekAgo
    ensures forall m :: m in r <==> m in ms && m.createdAt >= weekAgo
    ensures multiset(r) <= multiset(ms)
    ensures |r| == CountIf(ms, (m: StatMeeting) => CreatedSince(m, weekAgo))
    decreases |ms|
  {
    if |ms| == 0 then []
    else
      var rest := RecentMeetings(ms[1..], weekAgo);
      assert ms == [ms[0]] + ms[1..];
      if ms[0].createdAt >= weekAgo then [ms[0]] + rest else rest
  }

  /** The meetings created on `day`. */
  function CreatedOn(ms: seq<StatMeeting>, day: int): (n: nat)
    ensures n <= |ms|
  {
    CountIf(ms, (m: StatMeeting) => Day(m.createdAt) == day)
  }

  /** The seven buckets: the day of `weekAgo` and the six days after it. */
  function PerDay(recent: seq<StatMeeting>, weekAgo: int): (r: seq<DayCount>)
    ensures |r| == 7
    ensures forall i :: 0 <= i < 7 ==> r[i].day == Day(weekAgo) + i && r[i].count == CreatedOn(recent, Day(weekAgo) + i)
  {
    seq(7, i requires 0 <= i < 7 => DayCount(Day(weekAgo) + i, CreatedOn(recent, Day(weekAgo) + i)))
  }

  function Total(r: seq<DayCount>): nat
    decreases |r|
  {
    if |r| == 0 then 0 else r[0].count + Total(r[1..])
  }

  /** The meetings created on the `k` days from `first`. */
  function SumDays(ms: seq<StatMeeting>, first: int, k: nat): nat
    decreases k
  {
    if k == 0 then 0 else CreatedOn(ms, first) + SumDays(ms, first + 1, k - 1)
  }

  /** Peeling the first meeting off: it is counted once if its day is among
      the `k` days and not at all otherwise. */
  lemma {:induction false} SumDaysStep(ms: seq<StatMeeting>, first: int, k: nat)
    requires |ms| > 0
    ensures SumDays(ms, first, k) ==
      SumDays(ms[1..], first, k) + if first <= Day(ms[0].createdAt) < first + k then 1 else 0
    decreases k
  {
    if k > 0 {
      SumDaysStep(ms, first + 1, k - 1);
    }
  }

  /** However many days are summed, no meeting is counted twice. */
  lemma {:induction false} SumDaysAtMostMeetings(ms: seq<StatMeeting>, first: int, k: nat)
    ensures SumDays(ms, first, k) <= |ms|
    decreases |ms|
  {
    if |ms| == 0 {
      SumDaysEmpty(ms, first, k);
    } else {
      SumDaysAtMostMeetings(ms[1..], first, k);
      SumDaysStep(ms, first, k);
    }
  }

  lemma {:induction false} SumDaysEmpty(ms: seq<StatMeeting>, first: int, k: nat)
    requires ms == []
    ensures SumDays(ms, first, k) == 0
    decreases k
  {
    if k > 0 {
      SumDaysEmpty(ms, first + 1, k - 1);
    }
  }

  /** The bucket total is the sum of the per-day counts. */
  lemma {:induction false} TotalIsSumDays(r: seq<DayCount>, ms: seq<StatMeeting>, first: int)
    requires forall i :: 0 <= i < |r| ==> r[i].count == CreatedOn(ms, first + i)
    ensures Total(r) == SumDays(ms, first, |r|)
    decreases |r|
  {
    if |r| > 0 {
      TotalIsSumDays(r[1..], ms, first + 1);
    }
  }

  /** The buckets never hold more meetings than were created in the window. */
  lemma BucketTotalBounded(recent: seq<StatMeeting>, weekAgo: int)
    ensures Total(PerDay(recent, weekAgo)) <= |recent|
  {
    TotalIsSumDays(PerDay(recent, weekAgo), recent, Day(weekAgo));
    SumDaysAtMostMeetings(recent, Day(weekAgo), 7);
  }

  /** With the window starting exactly seven days before now, today's meetings
      fall in no bucket. */
  lemma TodayNotBucketed(now: int, i: nat)
    requires i < 7
    ensures Day(now) != Day(now - 7 * DayMs) + i
  {
    assert Day(now) == Day(now - 7 * DayMs) + 7;
  }

  // ----- average duration -----

  predicate HasEnded(m: StatMeeting) {
    m.endedAt.Some?
  }

  /** The length of an ended meeting in (fractional) minutes. */
  function Minutes(m: StatMeeting): real
    requires HasEnded(m)
  {
    (m.endedAt.value - m.startsAt) as real / 60000.0
  }

  /** `x` is the length in minutes of some ended meeting of `ms`. */
  predicate LengthOfEnded(ms: seq<StatMeeting>, x: real) {
    exists m :: m in ms && HasEnded(m) && x == Minutes(m)
  }

  /** A duration taken from the meetings after the first is one of `ms`. */
  lemma DurationsOfTail(ms: seq<StatMeeting>, rest: seq<real>)
    requires |ms| > 0
    requires forall i :: 0 <= i < |rest| ==> LengthOfEnded(ms[1..], rest[i])
    ensures forall i :: 0 <= i < |rest| ==> LengthOfEnded(ms, rest[i])
  {
    forall i | 0 <= i < |rest|
      ensures LengthOfEnded(ms, rest[i])
    {
      assert LengthOfEnded(ms[1..], rest[i]);
      var m :| m in ms[1..] && HasEnded(m) && rest[i] == Minutes(m);
      assert m in ms;
    }
  }

  /** `m` has ended and lasted `x` minutes. */
  predicate EndedAfter(m: StatMeeting, x: real) {
    HasEnded(m) && Minutes(m) == x
  }

  /** The durations in minutes of the ended meetings: one entry per ended
      meeting, each the length of an ended meeting of `ms`, and each length
      as often as that many ended meetings lasted it. */
  function Durations(ms: seq<StatMeeting>): (d: seq<real>)
    ensures |d| <= |ms|
    ensures |d| == CountIf(ms, HasEnded)
    ensures forall i :: 0 <= i < |d| ==> LengthOfEnded(ms, d[i])
    ensures forall m :: m in ms && HasEnded(m) ==> Minutes(m) in d
    ensures forall x :: multiset(d)[x] == CountIf(ms, (m: StatMeeting) => EndedAfter(m, x))
    decreases |ms|
  {
    if |ms| == 0 then []
    else
      var rest := Durations(ms[1..]);
      assert ms == [ms[0]] + ms[1..];
      DurationsOfTail(ms, rest);
      if HasEnded(ms[0]) then [Minutes(ms[0])] + rest else rest
  }

  function Sum(d: seq<real>): real
    decreases |d|
  {
    if |d| == 0 then 0.0 else d[0] + Sum(d[1..])
  }

  /** `Math.round(sum / count)`, or 0 without ended meetings. */
  function AvgDurationMin(ms: seq<StatMeeting>): (avg: int)
    ensures Durations(ms) == [] ==> avg == 0
  {
    var d := Durations(ms);
    if |d| == 0 then 0 else Round(Sum(d) / |d| as real)
  }

  lemma {:induction false} SumBounds(d: seq<real>, lo: real, hi: real)
    requires forall i :: 0 <= i < |d| ==> lo <= d[i] <= hi
    ensures |d| as real * lo <= Sum(d) <= |d| as real * hi
    decreases |d|
  {
    if |d| > 0 {
      SumBounds(d[1..], lo, hi);
    }
  }

  lemma DivBounds(total: real, n: real, lo: real, hi: real)
    requires n > 0.0 && n * lo <= total <= n * hi
    ensures lo <= total / n <= hi
  {
    var q := total / n;
    assert (q - lo) * n == total - n * lo >= 0.0;
    assert (hi - q) * n == n * hi - total >= 0.0;
  }

  /** The rounded mean of bounded values is bounded, up to rounding. */
  lemma RoundedMeanWithin(d: seq<real>, lo: real, hi: real)
    requires d != []
    requires forall i :: 0 <= i < |d| ==> lo <= d[i] <= hi
    ensures lo - 0.5 < Round(Sum(d) / |d| as real) as real <= hi + 0.5
  {
    SumBounds(d, lo, hi);
    DivBounds(Sum(d), |d| as real, lo, hi);
  }

  /** When some meeting has ended and every ended meeting lasted between `lo`
      and `hi` minutes, the average lies, up to rounding, between them. */
  lemma AverageWithinRange(ms: seq<StatMeeting>, lo: real, hi: real)
    requires exists m :: m in ms && HasEnded(m)
    requires forall m :: m in ms && HasEnded(m) ==> lo <= Minutes(m) <= hi
    ensures lo - 0.5 < AvgDurationMin(ms) as real <= hi + 0.5
  {
    var d := Durations(ms);
    var m0 :| m0 in ms && HasEnded(m0);
    assert Minutes(m0) in d;
    forall i | 0 <= i < |d|
      ensures lo <= d[i] <= hi
    {
      assert LengthOfEnded(ms, d[i]);
    }
    RoundedMeanWithin(d, lo, hi);
  }

  // ----- the route -----

  datatype Outcome = Report(stats: Stats) | Unauthorized | Failed(message: string)

  /** The dashboard figures over the listed users and the stored meetings,
      with the window starting seven days before `now`. */
  function Compute(users: seq<AuthUser>, meetings: seq<StatMeeting>, now: int): (s: Stats)
    ensures s.totalUsers == |users|
    ensures s.activeUsers == CountIf(users, Active)
    ensures s.proCount == CountIf(users, (u: AuthUser) => ActiveOn(u, Pro))
    ensures s.businessCount == CountIf(users, (u: AuthUser) => ActiveOn(u, Business))
    ensures s.proCount + s.businessCount <= s.activeUsers <= s.totalUsers
    ensures s.activeMeetings == CountIf(meetings, (m: StatMeeting) => !HasEnded(m))
    ensures s.newUsersLast7d == CountIf(users, (u: AuthUser) => NewUser(u, now - 7 * DayMs))
    ensures s.newSubsLast7d == CountIf(users, (u: AuthUser) => NewSub(u, now - 7 * DayMs))
    ensures s.avgDurationMin == AvgDurationMin(RecentMeetings(meetings, now - 7 * DayMs))
    ensures s.meetingsPerDay == PerDay(RecentMeetings(meetings, now - 7 * DayMs), now - 7 * DayMs)
    ensures s.mrrUsd == Mrr(s.proCount, s.businessCount)
    ensures s.trialsActive == CountIf(users, (u: AuthUser) => TrialRunning(u, now))
    ensures |s.meetingsPerDay| == 7
    ensures Total(s.meetingsPerDay) <= |RecentMeetings(meetings, now - 7 * DayMs)|
  {
    var weekAgo := now - 7 * DayMs;
    var active := CountIf(users, Active);
    var pro := CountIf(users, (u: AuthUser) => ActiveOn(u, Pro));
    var biz := CountIf(users, (u: AuthUser) => ActiveOn(u, Business));
    CountDisjoint(users, (u: AuthUser) => ActiveOn(u, Pro), (u: AuthUser) => ActiveOn(u, Business), Active);
    var recent := RecentMeetings(meetings, weekAgo);
    BucketTotalBounded(recent, weekAgo);
    Stats(
      |users|,
      active,
      CountIf(meetings, (m: StatMeeting) => !HasEnded(m)),
      Mrr(pro, biz),
      pro,
      biz,
      CountIf(users, (u: AuthUser) => NewUser(u, weekAgo)),
      CountIf(users, (u: AuthUser) => NewSub(u, weekAgo)),
      CountIf(users, (u: AuthUser) => TrialRunning(u, now)),
      AvgDurationMin(recent),
      PerDay(recent, weekAgo))
  }

  /** The route: admins only; a missing service configuration or a failed
      listing is an error, and so is a failed meeting read (`None`), which the
      route's catch reports with its fixed message. */
  function Get(caller: Option<AuthUser>, serviceEnv: bool, listing: Result<seq<AuthUser>>,
    meetings: Option<seq<StatMeeting>>, now: int): (o: Outcome)
    ensures caller.None? || !IsAdmin(caller.value.meta) ==> o == Unauthorized
    ensures o.Report? ==> serviceEnv && listing.Ok? && meetings.Some? && o.stats == Compute(listing.value, meetings.value, now)
    ensures caller.Some? && IsAdmin(caller.value.meta) && !serviceEnv ==> o == Failed("Failed to fetch admin stats")
    ensures caller.Some? && IsAdmin(caller.value.meta) && serviceEnv && listing.Err? ==> o == Failed(listing.error)
    ensures caller.Some? && IsAdmin(caller.value.meta) && serviceEnv && listing.Ok? && meetings.None?
      ==> o == Failed("Failed to fetch admin stats")
    ensures caller.Some? && IsAdmin(caller.value.meta) && serviceEnv && listing.Ok? && meetings.Some?
      ==> o == Report(Compute(listing.value, meetings.value, now))
  {
    if caller.None? || !IsAdmin(caller.value.meta) then Unauthorized
    else if !serviceEnv then Failed("Failed to fetch admin stats")
    else match listing
      case Err(e) => Failed(e)
      case Ok(users) =>
        if meetings.None? then Failed("Failed to fetch admin stats")
        else Report(Compute(users, meetings.value, now))
  }
}

=== FILE: basics.dfy ===
/** Shared building blocks: optional values, results carrying an error message,
    and the few JavaScript string operations the application relies on
    (`trim`, `startsWith`, `includes`, `toLowerCase`, number-to-text). */
module Basics {

  /** A value that may be absent (`undefined` / `null` in the source). */
  datatype Option<+T> = None | Some(value: T) {
    function GetOr(default: T): T {
      match this
      case Some(v) => v
      case None => default
    }
  }

  /** The outcome of an operation that either returns a value or throws an
      `Error` whose message is `error`. */
  datatype Result<+T> = Ok(value: T) | Err(error: string)

  /** A JavaScript string is truthy iff it is non-empty. */
  predicate Truthy(s: string) {
    |s| > 0
  }

  /** An environment variable or optional string read with JavaScript
      truthiness (`if (!v)` fails for `undefined` and for `''`). */
  predicate IsSet(v: Option<string>) {
    v.Some? && Truthy(v.value)
  }

  /** `a || b` on two optional strings: the first one that is present and non-empty. */
  function OrElse(a: Option<string>, b: string): string {
    if a.Some? && Truthy(a.value) then a.value else b
  }

  /** The characters `String.prototype.trim` removes: the ECMAScript WhiteSpace
      (tab, vertical tab, form feed, space, no-break space, byte-order mark and
      the Unicode Zs category) and LineTerminator code points. */
  predicate IsTrimmable(c: char) {
    || c == '\t' || c == '\n' || c == '\U{000B}' || c == '\U{000C}' || c == '\r'
    || c == ' ' || c == '\U{00A0}' || c == '\U{1680}'
    || ('\U{2000}' <= c <= '\U{200A}')
    || c == '\U{2028}' || c == '\U{2029}' || c == '\U{202F}' || c == '\U{205F}'
    || c == '\U{3000}' || c == '\U{FEFF}'
  }

  function TrimStart(s: string): (r: string)
    ensures |r| <= |s| && r == s[|s| - |r|..]
    ensures |r| > 0 ==> !IsTrimmable(r[0])
    ensures forall i :: 0 <= i < |s| - |r| ==> IsTrimmable(s[i])
  {
    if |s| > 0 && IsTrimmable(s[0]) then TrimStart(s[1..]) else s
  }

  function TrimEnd(s: string): (r: string)
    ensures |r| <= |s| && r == s[..|r|]
    ensures |r| > 0 ==> !IsTrimmable(r[|r| - 1])
    ensures forall i :: |r| <= i < |s| ==> IsTrimmable(s[i])
  {
    if |s| > 0 && IsTrimmable(s[|s| - 1]) then TrimEnd(s[..|s| - 1]) else s
  }

  /** `s.trim()`: `s` with leading and trailing white space removed. */
  function Trim(s: string): (r: string)
    ensures |r| <= |s|
    ensures |r| > 0 ==> !IsTrimmable(r[0]) && !IsTrimmable(r[|r| - 1])
  {
    TrimEnd(TrimStart(s))
  }

  /** A string trims to the empty string exactly when every character of it is
      white space. */
  lemma TrimEmptyIff(s: string)
    ensures Trim(s) == "" <==> forall i :: 0 <= i < |s| ==> IsTrimmable(s[i])
  {
    var t := TrimStart(s);
    if Trim(s) == "" {
      assert t == "";
    } else {
      var r := Trim(s);
      assert r[0] == t[0];
      assert t[0] == s[|s| - |t|];
    }
  }

  /** A string with no white space at either end is its own trim. */
  lemma TrimIdentity(s: string)
    requires |s| > 0 ==> !IsTrimmable(s[0]) && !IsTrimmable(s[|s| - 1])
    ensures Trim(s) == s
  {
  }

  predicate StartsWith(s: string, prefix: string) {
    |prefix| <= |s| && s[..|prefix|] == prefix
  }

  /** `sub` occurs in `s` starting at position `i`. */
  predicate OccursAt(s: string, sub: string, i: int) {
    0 <= i <= |s| - |sub| && s[i..i + |sub|] == sub
  }

  /** Search for `sub` in `s`, starting at position `from`. */
  function IncludesFrom(s: string, sub: string, from: nat): (b: bool)
    requires from <= |s|
    ensures b <==> exists i :: from <= i && OccursAt(s, sub, i)
    decreases |s| - from
  {
    if from + |sub| > |s| then false
    else if s[from..from + |sub|] == sub then assert OccursAt(s, sub, from); true
    else IncludesFrom(s, sub, from + 1)
  }

  /** `s.includes(sub)`: `sub` occurs at some position of `s`. */
  predicate Includes(s: string, sub: string)
    ensures Includes(s, sub) <==> exists i :: OccursAt(s, sub, i)
  {
    IncludesFrom(s, sub, 0)
  }

  /** The empty string is included in every string. */
  lemma IncludesEmpty(s: string)
    ensures Includes(s, "")
  {
    assert OccursAt(s, "", 0);
  }

  /** The first `n` entries, or all of them when there are fewer: Prisma's
      `take: n` and `String.prototype.substring(0, n)`. */
  function Take<T>(s: seq<T>, n: nat): (r: seq<T>)
    ensures |r| == if |s| < n then |s| else n
    ensures r == s[..|r|]
  {
    if |s| <= n then s else s[..n]
  }

  /** `a` is `b` with some entries dropped and the rest kept in order. */
  predicate Subsequence<T(==)>(a: seq<T>, b: seq<T>)
    decreases |b|
  {
    if |a| == 0 then true
    else if |b| == 0 then false
    else (a[0] == b[0] && Subsequence(a[1..], b[1..])) || Subsequence(a, b[1..])
  }

  /** `toLowerCase` restricted to ASCII letters. */
  function LowerChar(c: char): (d: char)
    ensures 'A' <= c <= 'Z' ==> 'a' <= d <= 'z'
    ensures !('A' <= c <= 'Z') ==> d == c
  {
    if 'A' <= c <= 'Z' then (c as int - 'A' as int + 'a' as int) as char else c
  }

  function Lower(s: string): (r: string)
    ensures |r| == |s|
    ensures forall i :: 0 <= i < |s| ==> r[i] == LowerChar(s[i])
  {
    seq(|s|, i requires 0 <= i < |s| => LowerChar(s[i]))
  }

  function DigitChar(d: nat): (c: char)
    requires d < 10
    ensures '0' <= c <= '9'
  {
    ('0' as int + d) as char
  }

  /** The decimal text of a natural number, as `${n}` prints it. */
  function NatToString(n: nat): (r: string)
    ensures |r| > 0
    ensures forall i :: 0 <= i < |r| ==> '0' <= r[i] <= '9'
  {
    if n < 10 then [DigitChar(n)] else NatToString(n / 10) + [DigitChar(n % 10)]
  }

  /** Parsing the decimal text back gives the number: the printing is faithful. */
  function DigitsValue(s: string): int
    requires forall i :: 0 <= i < |s| ==> '0' <= s[i] <= '9'
  {
    if |s| == 0 then 0 else 10 * DigitsValue(s[..|s| - 1]) + (s[|s| - 1] as int - '0' as int)
  }

  lemma {:induction false} NatToStringRoundTrip(n: nat)
    ensures DigitsValue(NatToString(n)) == n
  {
    if n >= 10 {
      var r := NatToString(n);
      assert r[..|r| - 1] == NatToString(n / 10);
      NatToStringRoundTrip(n / 10);
    }
  }

  /** JavaScript `Math.round` on an exact real: the nearest integer, halves rounded up. */
  function Round(x: real): (r: int)
    ensures x - 0.5 < r as real <= x + 0.5
  {
    (x + 0.5).Floor
  }

  lemma RoundInt(n: int)
    ensures Round(n as real) == n
  {
  }
}

=== FILE: billing.dfy ===
/** The billing server actions of `actions/billing.actions.ts`: admin trial and
    plan overrides, checkout initialisation and payment verification. Each
    action is a function from the user's metadata to the metadata after the
    action's write, or to the error it throws; on an error nothing is written.
    The current time (`Date.now()`) and the payment provider's replies are
    inputs. */
module Billing {
  import opened Basics
  import opened PlanCatalog
  import opened Accounts
  import opened ConfigStore

  /** Milliseconds in a day: `setDate(getDate() + days)` moves a date by whole days. */
  const DayMs: int := 86_400_000

  /** Every metadata key outside the subscription group is equal. */
  predicate SameExceptSubscription(m: UserMeta, m': UserMeta) {
    m'.role == m.role && m'.username == m.username && m'.trial == m.trial
    && m'.fee == m.fee && m'.planConfig == m.planConfig
  }

  /** Every metadata key outside the trial group is equal. */
  predicate SameExceptTrial(m: UserMeta, m': UserMeta) {
    m'.role == m.role && m'.username == m.username && m'.sub == m.sub
    && m'.fee == m.fee && m'.planConfig == m.planConfig
  }

  /** Every metadata key outside the trial-fee group is equal. */
  predicate SameExceptFee(m: UserMeta, m': UserMeta) {
    m'.role == m.role && m'.username == m.username && m'.sub == m.sub
    && m'.trial == m.trial && m'.planConfig == m.planConfig
  }

  // ----- adminStartProTrial -----

  /** The write of `adminStartProTrial` under catalog `cfg` at time `now`. */
  function StartTrialWrite(cfg: PlanConfig, now: int, m: UserMeta): (m': UserMeta)
    ensures m'.trial.active == Some(true) && m'.trial.plan == Some(Pro)
    ensures m'.trial.end == Some(now + TrialDays(cfg) * DayMs)
    ensures m'.trial.chargeEnabled == Some(TrialChargeEnabled(cfg))
    ensures TrialChargeEnabled(cfg) ==> m'.trial.chargeNgn == Some(TrialChargeNgn(cfg))
    ensures !TrialChargeEnabled(cfg) ==> m'.trial.chargeNgn == Some(0.0)
    ensures SameExceptTrial(m, m')
  {
    var enabled := TrialChargeEnabled(cfg);
    m.(trial := Trial(Some(true), Some(Pro), Some(now + TrialDays(cfg) * DayMs),
                      Some(enabled), Some(if enabled then TrialChargeNgn(cfg) else 0.0)))
  }

  /** `updateError` is the provider's reply to the metadata update: `None`
      when it succeeded, otherwise the message the action throws. */
  function AdminStartProTrial(serviceEnv: bool, listing: Result<seq<AuthUser>>, updateError: Option<string>,
    now: int, m: UserMeta): (r: Result<UserMeta>)
    ensures !serviceEnv ==> r == Err(MissingServiceRole)
    ensures GetGlobalPlanConfig(serviceEnv, listing).Err? ==> r == Err(GetGlobalPlanConfig(serviceEnv, listing).error)
    ensures GetGlobalPlanConfig(serviceEnv, listing).Ok? && updateError.Some? ==> r == Err(updateError.value)
    ensures r.Ok? <==> GetGlobalPlanConfig(serviceEnv, listing).Ok? && updateError.None?
    ensures r.Ok? ==> r.value == StartTrialWrite(GetGlobalPlanConfig(serviceEnv, listing).value, now, m)
  {
    if !serviceEnv then Err(MissingServiceRole)
    else match GetGlobalPlanConfig(serviceEnv, listing)
      case Err(e) => Err(e)
      case Ok(cfg) => if updateError.Some? then Err(updateError.value) else Ok(StartTrialWrite(cfg, now, m))
  }

  /** Starting a trial never grants or revokes a subscription: the plan and the
      active flag read afterwards are those read before. */
  lemma StartTrialKeepsSubscription(serviceEnv: bool, listing: Result<seq<AuthUser>>, now: int, m: UserMeta)
    requires AdminStartProTrial(serviceEnv, listing, None, now, m).Ok?
    ensures var m' := AdminStartProTrial(serviceEnv, listing, None, now, m).value;
      m'.sub == m.sub && PlanOrFree(m') == PlanOrFree(m)
      && (SubscriptionActive(m') <==> SubscriptionActive(m))
  {
  }

  /** With no admin override the trial lasts 14 days and records no charge. */
  lemma DefaultTrial(users: seq<AuthUser>, now: int, m: UserMeta)
    requires FindAdmin(users).None?
    ensures AdminStartProTrial(true, Ok(users), None, now, m) ==
      Ok(m.(trial := Trial(Some(true), Some(Pro), Some(now + 14 * DayMs), Some(false), Some(0.0))))
  {
  }

  /** Restarting a trial overwrites it rather than stacking: the second start
      alone determines the result. */
  lemma RestartTrialOverwrites(cfg: PlanConfig, t1: int, t2: int, m: UserMeta)
    ensures StartTrialWrite(cfg, t2, StartTrialWrite(cfg, t1, m)) == StartTrialWrite(cfg, t2, m)
  {
  }

  // ----- adminEndTrial -----

  function AdminEndTrial(serviceEnv: bool, updateError: Option<string>, m: UserMeta): (r: Result<UserMeta>)
    ensures !serviceEnv ==> r == Err(MissingServiceRole)
    ensures serviceEnv && updateError.Some? ==> r == Err(updateError.value)
    ensures r.Ok? <==> serviceEnv && updateError.None?
    ensures r.Ok? ==> r.value.trial.active == Some(false)
    ensures r.Ok? ==> SameExceptTrial(m, r.value)
    ensures r.Ok? ==> r.value.trial.plan == m.trial.plan && r.value.trial.end == m.trial.end
    ensures r.Ok? ==> r.value.trial.chargeEnabled == m.trial.chargeEnabled && r.value.trial.chargeNgn == m.trial.chargeNgn
  {
    if !serviceEnv then Err(MissingServiceRole)
    else if updateError.Some? then Err(updateError.value)
    else Ok(m.(trial := m.trial.(active := Some(false))))
  }

  /** Ending a trial twice is the same as ending it once. */
  lemma EndTrialIdempotent(m: UserMeta)
    ensures AdminEndTrial(true, None, AdminEndTrial(true, None, m).value) == AdminEndTrial(true, None, m)
  {
  }

  /** Ending a trial keeps whatever paid subscription the user has. */
  lemma EndTrialKeepsSubscription(m: UserMeta)
    ensures var m' := AdminEndTrial(true, None, m).value;
      PlanOrFree(m') == PlanOrFree(m) && (SubscriptionActive(m') <==> SubscriptionActive(m))
  {
  }

  // ----- adminSetUserPlan -----

  /** Provider and reference are set exactly for an active paid plan. */
  predicate AdminGrant(plan: Plan, active: bool) {
    active && plan != Free
  }

  function AdminSetUserPlan(serviceEnv: bool, updateError: Option<string>, userPlan: Plan, active: bool, now: nat, m: UserMeta): (r: Result<UserMeta>)
    ensures !serviceEnv ==> r == Err(MissingServiceRole)
    ensures serviceEnv && updateError.Some? ==> r == Err(updateError.value)
    ensures r.Ok? <==> serviceEnv && updateError.None?
    ensures r.Ok? ==> r.value.sub.plan == Some(userPlan) && r.value.sub.active == Some(active)
    ensures r.Ok? ==> (r.value.sub.provider.Some? <==> AdminGrant(userPlan, active))
    ensures r.Ok? ==> (r.value.sub.reference.Some? <==> AdminGrant(userPlan, active))
    ensures r.Ok? && AdminGrant(userPlan, active) ==>
      r.value.sub.provider == Some("admin") && StartsWith(r.value.sub.reference.value, "admin-")
    ensures r.Ok? ==> r.value.sub.pending == m.sub.pending && r.value.sub.activatedAt == m.sub.activatedAt
    ensures r.Ok? ==> SameExceptSubscription(m, r.value)
  {
    if !serviceEnv then Err(MissingServiceRole)
    else if updateError.Some? then Err(updateError.value)
    else
      var grant := AdminGrant(userPlan, active);
      Ok(m.(sub := m.sub.(
        active := Some(active),
        plan := Some(userPlan),
        provider := if grant then Some("admin") else None,
        reference := if grant then Some("admin-" + NatToString(now)) else None)))
  }

  /** The admin reference carries the time of the override: its digits read
      back as `now`. */
  lemma AdminReferenceEncodesTime(userPlan: Plan, now: nat, m: UserMeta)
    requires userPlan != Free
    ensures var ref := AdminSetUserPlan(true, None, userPlan, true, now, m).value.sub.reference.value;
      |ref| > 6 && ref[..6] == "admin-" && DigitsValue(ref[6..]) == now
  {
    var ref := AdminSetUserPlan(true, None, userPlan, true, now, m).value.sub.reference.value;
    assert ref[6..] == NatToString(now);
    NatToStringRoundTrip(now);
  }

  // ----- initializePaystackCheckout -----

  /** The metadata attached to a payment: what the webhook reads back. */
  datatype PaymentMetadata = PaymentMetadata(
    userId: Option<string>,
    plan: Option<Plan>,
    kind: Option<string>,
    name: Option<string>,
    email: Option<string>)

  datatype CheckoutRequest = CheckoutRequest(
    amountKobo: int,
    email: string,
    currency: string,
    callbackUrl: string,
    metadata: PaymentMetadata)

  /** The provider's answer to `transaction/initialize`. */
  datatype InitReply = InitReply(
    ok: bool,
    status: bool,
    message: Option<string>,
    authorizationUrl: string,
    reference: string)

  datatype CheckoutStarted = CheckoutStarted(
    request: CheckoutRequest,
    authorizationUrl: string,
    reference: string,
    meta: UserMeta)

  /** `Math.round(amountUsd * 1500) * 100`: the NGN price in kobo. */
  function KoboForUsd(amountUsd: real): (k: int)
    ensures k % 100 == 0
    ensures amountUsd * 150000.0 - 50.0 < k as real <= amountUsd * 150000.0 + 50.0
  {
    Round(amountUsd * 1500.0) * 100
  }

  /** A whole-dollar price converts exactly at 1500 NGN per USD. */
  lemma KoboForWholeUsd(usd: int)
    ensures KoboForUsd(usd as real) == usd * 150000
  {
    RoundInt(usd * 1500);
  }

  function CheckoutRequestFor(userId: string, amountUsd: real, planKey: Plan, name: string, email: string, baseUrl: string): (q: CheckoutRequest)
    ensures q.amountKobo == KoboForUsd(amountUsd) && q.currency == "NGN" && q.email == email
    ensures q.metadata.userId == Some(userId) && q.metadata.plan == Some(planKey)
    ensures q.metadata.kind.None?
    ensures q.callbackUrl == baseUrl + "/dashboard"
  {
    CheckoutRequest(KoboForUsd(amountUsd), email, "NGN", baseUrl + "/dashboard",
      PaymentMetadata(Some(userId), Some(planKey), None, Some(name), Some(email)))
  }

  /** The pending mark written once the provider accepted the checkout. */
  function PendingWrite(m: UserMeta, planKey: Plan): (m': UserMeta)
    ensures m'.sub.pending == Some(true) && m'.sub.plan == Some(planKey)
    ensures m'.sub.active == m.sub.active && m'.sub.provider == m.sub.provider
    ensures m'.sub.reference == m.sub.reference && m'.sub.activatedAt == m.sub.activatedAt
    ensures SameExceptSubscription(m, m')
  {
    m.(sub := m.sub.(pending := Some(true), plan := Some(planKey)))
  }

  function InitializePaystackCheckout(
    secret: Option<string>, baseUrl: Option<string>, user: Option<AuthUser>,
    amountUsd: real, planKey: Plan, name: string, email: string, reply: InitReply): (r: Result<CheckoutStarted>)
    ensures !IsSet(secret) ==> r == Err("Missing PAYSTACK_SECRET_KEY")
    ensures IsSet(secret) && !IsSet(baseUrl) ==> r == Err("Missing NEXT_PUBLIC_BASE_URL")
    ensures IsSet(secret) && IsSet(baseUrl) && user.None? ==> r == Err("User not authenticated")
    ensures (!reply.ok || !reply.status) ==> r.Err?
    ensures r.Ok? <==> IsSet(secret) && IsSet(baseUrl) && user.Some? && reply.ok && reply.status
    ensures r.Ok? ==> r.value.request == CheckoutRequestFor(user.value.id, amountUsd, planKey, name, email, baseUrl.value)
    ensures r.Ok? ==> r.value.meta == PendingWrite(user.value.meta, planKey)
    ensures r.Ok? ==> r.value.reference == reply.reference && r.value.authorizationUrl == reply.authorizationUrl
  {
    if !IsSet(secret) then Err("Missing PAYSTACK_SECRET_KEY")
    else if !IsSet(baseUrl) then Err("Missing NEXT_PUBLIC_BASE_URL")
    else if user.None? then Err("User not authenticated")
    else
      var request := CheckoutRequestFor(user.value.id, amountUsd, planKey, name, email, baseUrl.value);
      if !reply.ok || !reply.status then Err(OrElse(reply.message, "Failed to initialize Paystack transaction"))
      else Ok(CheckoutStarted(request, reply.authorizationUrl, reply.reference, PendingWrite(user.value.meta, planKey)))
  }

  /** Starting a checkout never activates a subscription. */
  lemma CheckoutNeverActivates(
    secret: Option<string>, baseUrl: Option<string>, user: Option<AuthUser>,
    amountUsd: real, planKey: Plan, name: string, email: string, reply: InitReply)
    requires InitializePaystackCheckout(secret, baseUrl, user, amountUsd, planKey, name, email, reply).Ok?
    ensures var m' := InitializePaystackCheckout(secret, baseUrl, user, amountUsd, planKey, name, email, reply).value.meta;
      SubscriptionActive(m') <==> SubscriptionActive(user.value.meta)
  {
  }

  // ----- payment verification and the activation write -----

  /** The activation write shared by the verify action, the verify route and
      the webhook. */
  function ActivationWrite(m: UserMeta, userPlan: Plan, reference: string, at: int): (m': UserMeta)
    ensures SubscriptionActive(m') && m'.sub.pending == Some(false)
    ensures m'.sub.plan == Some(userPlan) && PlanOrFree(m') == userPlan
    ensures m'.sub.provider == Some("paystack") && m'.sub.reference == Some(reference)
    ensures m'.sub.activatedAt == Some(at)
    ensures SameExceptSubscription(m, m')
  {
    m.(sub := Subscription(Some(true), Some(userPlan), Some(false), Some("paystack"), Some(reference), Some(at)))
  }

  /** Activating twice for the same payment leaves the state of the later
      activation: only the activation time can differ from a single delivery. */
  lemma ActivationReplay(m: UserMeta, userPlan: Plan, reference: string, t1: int, t2: int)
    ensures ActivationWrite(ActivationWrite(m, userPlan, reference, t1), userPlan, reference, t2)
         == ActivationWrite(m, userPlan, reference, t2)
    ensures ActivationWrite(m, userPlan, reference, t1).sub.(activatedAt := None)
         == ActivationWrite(m, userPlan, reference, t2).sub.(activatedAt := None)
  {
  }

  /** The provider's answer to `transaction/verify/{reference}`. */
  datatype VerifyReply = VerifyReply(
    ok: bool,
    status: bool,
    message: Option<string>,
    paymentStatus: string,
    metadataPlan: Option<Plan>)

  /** `(data.metadata?.plan) || 'pro'`: no floor, a metadata plan of free is kept. */
  function VerifiedPlan(reply: VerifyReply): Plan {
    reply.metadataPlan.GetOr(Pro)
  }

  datatype Verified = Verified(plan: Plan, meta: UserMeta)

  function VerifyPaystackPayment(secret: Option<string>, user: Option<AuthUser>, reference: string, reply: VerifyReply, now: int): (r: Result<Verified>)
    ensures !IsSet(secret) ==> r == Err("Missing PAYSTACK_SECRET_KEY")
    ensures IsSet(secret) && user.None? ==> r == Err("User not authenticated")
    ensures r.Ok? <==> IsSet(secret) && user.Some? && reply.ok && reply.status && reply.paymentStatus == "success"
    ensures IsSet(secret) && user.Some? && reply.ok && reply.status && reply.paymentStatus != "success" ==>
      r == Err("Payment not successful")
    ensures r.Ok? ==> r.value.plan == VerifiedPlan(reply)
    ensures r.Ok? ==> r.value.meta == ActivationWrite(user.value.meta, VerifiedPlan(reply), reference, now)
  {
    if !IsSet(secret) then Err("Missing PAYSTACK_SECRET_KEY")
    else if user.None? then Err("User not authenticated")
    else if !reply.ok || !reply.status then Err(OrElse(reply.message, "Verification failed"))
    else if reply.paymentStatus == "success" then
      var p := VerifiedPlan(reply);
      Ok(Verified(p, ActivationWrite(user.value.meta, p, reference, now)))
    else Err("Payment not successful")
  }

  // ----- the trial-fee write -----

  /** The write for a paid trial fee: `amount / 100` NGN from an amount in kobo. */
  function TrialFeeWrite(m: UserMeta, reference: string, amountKobo: int): (m': UserMeta)
    ensures m'.fee.paid == Some(true) && m'.fee.reference == Some(reference)
    ensures m'.fee.amountNgn == Some(amountKobo as real / 100.0)
    ensures SameExceptFee(m, m')
  {
    m.(fee := TrialFee(Some(true), Some(reference), Some(amountKobo as real / 100.0)))
  }
}

=== FILE: calls.dfy ===
/** Client-side call lists: the ended / upcoming classification of
    `hooks/useGetCalls.ts` over call snapshots from the video service, and the
    list selection and card fields of `components/CallList.tsx`. The service
    query and the recordings fetch are inputs. */
module Calls {
  import opened Basics
  import opened MeetingLists

  /** The parts of a video-service call the lists read. `createdById` is `None`
      when the call has no creator or the creator has no id: both read as
      `undefined`. */
  datatype CallSnapshot = CallSnapshot(
    id: string,
    startsAt: Option<int>,
    endedAt: Option<int>,
    customStartsAt: Option<int>,
    description: Option<string>,
    createdById: Option<string>)

  /** A call that started more than an hour ago, or that has an end time. */
  predicate IsEnded(c: CallSnapshot, now: int) {
    (c.startsAt.Some? && c.startsAt.value < now - HourMs) || c.endedAt.Some?
  }

  /** The start shown for a call: the scheduled start, else the custom one. */
  function StartOf(c: CallSnapshot): Option<int> {
    if c.startsAt.Some? then c.startsAt else c.customStartsAt
  }

  /** A call with a start later than an hour ago and no end time. */
  predicate IsUpcoming(c: CallSnapshot, now: int) {
    StartOf(c).Some? && c.endedAt.None? && StartOf(c).value > now - HourMs
  }

  /** No call is both ended and upcoming, and a call with an end is never
      upcoming. */
  lemma EndedNotUpcoming(c: CallSnapshot, now: int)
    ensures !(IsEnded(c, now) && IsUpcoming(c, now))
    ensures c.endedAt.Some? ==> !IsUpcoming(c, now)
  {
  }

  /** A call known only by its custom start and without an end can be upcoming
      but is never ended. */
  lemma CustomStartOnly(c: CallSnapshot, now: int)
    requires c.startsAt.None? && c.endedAt.None? && c.customStartsAt.Some?
    ensures !IsEnded(c, now)
    ensures IsUpcoming(c, now) <==> c.customStartsAt.value > now - HourMs
  {
  }

  /** The hook's `endedCalls`: the ended calls, each as often as the service
      returned it. */
  function EndedCalls(calls: seq<CallSnapshot>, now: int): (r: seq<CallSnapshot>)
    ensures forall c :: c in r <==> c in calls && IsEnded(c, now)
    ensures forall c :: c in calls && IsEnded(c, now) ==> multiset(r)[c] == multiset(calls)[c]
    ensures multiset(r) <= multiset(calls)
    ensures |r| <= |calls|
    decreases |calls|
  {
    if |calls| == 0 then []
    else
      var rest := EndedCalls(calls[1..], now);
      assert calls == [calls[0]] + calls[1..];
      if IsEnded(calls[0], now) then [calls[0]] + rest else rest
  }

  /** The hook's `upcomingCalls`, likewise. */
  function UpcomingCalls(calls: seq<CallSnapshot>, now: int): (r: seq<CallSnapshot>)
    ensures forall c :: c in r <==> c in calls && IsUpcoming(c, now)
    ensures forall c :: c in calls && IsUpcoming(c, now) ==> multiset(r)[c] == multiset(calls)[c]
    ensures multiset(r) <= multiset(calls)
    ensures |r| <= |calls|
    decreases |calls|
  {
    if |calls| == 0 then []
    else
      var rest := UpcomingCalls(calls[1..], now);
      assert calls == [calls[0]] + calls[1..];
      if IsUpcoming(calls[0], now) then [calls[0]] + rest else rest
  }

  /** `filter` keeps the service's order (newest start first). */
  lemma {:induction false} EndedCallsKeepOrder(calls: seq<CallSnapshot>, now: int)
    ensures Subsequence(EndedCalls(calls, now), calls)
    decreases |calls|
  {
    if |calls| > 0 {
      EndedCallsKeepOrder(calls[1..], now);
      var rest := EndedCalls(calls[1..], now);
      if IsEnded(calls[0], now) {
        var r := [calls[0]] + rest;
        assert r[0] == calls[0] && r[1..] == rest;
      }
    }
  }

  lemma {:induction false} UpcomingCallsKeepOrder(calls: seq<CallSnapshot>, now: int)
    ensures Subsequence(UpcomingCalls(calls, now), calls)
    decreases |calls|
  {
    if |calls| > 0 {
      UpcomingCallsKeepOrder(calls[1..], now);
      var rest := UpcomingCalls(calls[1..], now);
      if IsUpcoming(calls[0], now) {
        var r := [calls[0]] + rest;
        assert r[0] == calls[0] && r[1..] == rest;
      }
    }
  }

  /** The two client lists share no call. */
  lemma ClientListsDisjoint(calls: seq<CallSnapshot>, now: int, c: CallSnapshot)
    ensures !(c in EndedCalls(calls, now) && c in UpcomingCalls(calls, now))
  {
    EndedNotUpcoming(c, now);
  }

  /** `loadCalls` queries the service only with a client and a user id. */
  predicate LoadCallsQueries(hasClient: bool, userId: Option<string>) {
    hasClient && IsSet(userId)
  }

  /** The hook's `isLoading`: a query in flight, or the user not yet loaded. */
  function IsLoading(querying: bool, userLoaded: bool): (b: bool)
    ensures !userLoaded ==> b
    ensures userLoaded ==> (b <==> querying)
  {
    querying || !userLoaded
  }

  // ----- CallList -----

  datatype ListType = EndedList | UpcomingList | RecordingsList

  /** A card source: a call, or a recording with an optional file name. */
  datatype Item =
    | CallItem(call: CallSnapshot)
    | RecordingItem(filename: Option<string>, url: string, startTime: Option<int>)

  /** `getCalls`: non-empty server items win; otherwise the list of the type. */
  function GetCalls(serverItems: Option<seq<Item>>, t: ListType,
    ended: seq<Item>, recordings: seq<Item>, upcoming: seq<Item>): (r: seq<Item>)
    ensures serverItems.Some? && |serverItems.value| > 0 ==> r == serverItems.value
    ensures (serverItems.None? || |serverItems.value| == 0) ==> (
      r == match t
        case EndedList => ended
        case RecordingsList => recordings
        case UpcomingList => upcoming)
  {
    if serverItems.Some? && |serverItems.value| > 0 then serverItems.value
    else match t
      case EndedList => ended
      case RecordingsList => recordings
      case UpcomingList => upcoming
  }

  /** A failed server fetch leaves an empty server list, so the client list of
      the type is shown. */
  lemma FetchFailureFallsBack(t: ListType, ended: seq<Item>, recordings: seq<Item>, upcoming: seq<Item>)
    ensures GetCalls(Some([]), t, ended, recordings, upcoming) == GetCalls(None, t, ended, recordings, upcoming)
  {
  }

  function NoCallsMessage(t: ListType): string {
    match t
    case EndedList => "No Previous Calls"
    case UpcomingList => "No Upcoming Calls"
    case RecordingsList => "No Recordings"
  }

  lemma NoCallsMessagesDistinct(t1: ListType, t2: ListType)
    ensures NoCallsMessage(t1) == NoCallsMessage(t2) <==> t1 == t2
    ensures NoCallsMessage(t1) != ""
  {
  }

  /** The card title: the call's description, else the first 20 characters of
      a recording's file name, else 'No Description'. */
  function Title(it: Item): (title: string)
    ensures it.CallItem? && IsSet(it.call.description) ==> title == it.call.description.value
    ensures it.RecordingItem? && IsSet(it.filename) ==> |title| == if |it.filename.value| < 20 then |it.filename.value| else 20
    ensures it.RecordingItem? && IsSet(it.filename) ==> title == it.filename.value[..|title|]
    ensures (it.CallItem? && !IsSet(it.call.description)) || (it.RecordingItem? && !IsSet(it.filename)) ==>
      title == "No Description"
    ensures title != ""
  {
    match it
    case CallItem(c) => OrElse(c.description, "No Description")
    case RecordingItem(f, _, _) =>
      if IsSet(f) then Take(f.value, 20) else "No Description"
  }

  /** The fields of a meeting card that the list derives. */
  datatype Card = Card(title: string, buttonText: string, isHost: bool, callId: Option<string>, isPrevious: bool)

  function CardFor(t: ListType, it: Item, userId: Option<string>): (c: Card)
    ensures c.title == Title(it)
    ensures c.buttonText == if t == RecordingsList then "Play" else "Start"
    ensures c.isHost <==> t == UpcomingList && it.CallItem? && it.call.createdById == userId
    ensures c.callId.Some? <==> t == UpcomingList && it.CallItem?
    ensures c.callId.Some? ==> c.callId.value == it.call.id
    ensures c.isPrevious <==> t == EndedList
  {
    var isCall := it.CallItem?;
    Card(Title(it),
      if t == RecordingsList then "Play" else "Start",
      t == UpcomingList && isCall && it.call.createdById == userId,
      if t == UpcomingList && isCall then Some(it.call.id) else None,
      t == EndedList)
  }

  /** A call with no creator id counts as hosted by a signed-out viewer, since
      both sides of the comparison are undefined. */
  lemma NoCreatorSignedOutIsHost(c: CallSnapshot)
    requires c.createdById.None?
    ensures CardFor(UpcomingList, CallItem(c), None).isHost
  {
  }

  /** What the list renders. */
  datatype View = Loading | Empty(message: string) | Cards(cards: seq<Card>)

  function Render(isLoading: bool, serverItems: Option<seq<Item>>, t: ListType,
    ended: seq<Item>, recordings: seq<Item>, upcoming: seq<Item>, userId: Option<string>): (v: View)
    ensures v.Loading? <==> isLoading && serverItems.None?
    ensures v.Empty? ==> v.message == NoCallsMessage(t)
    ensures !v.Loading? ==> (v.Empty? <==> |GetCalls(serverItems, t, ended, recordings, upcoming)| == 0)
    ensures v.Cards? ==> (
      var items := GetCalls(serverItems, t, ended, recordings, upcoming);
      |v.cards| == |items| > 0 && forall i :: 0 <= i < |items| ==> v.cards[i] == CardFor(t, items[i], userId))
  {
    if isLoading && serverItems.None? then Loading
    else
      var items := GetCalls(serverItems, t, ended, recordings, upcoming);
      if |items| == 0 then Empty(NoCallsMessage(t))
      else Cards(seq(|items|, i requires 0 <= i < |items| => CardFor(t, items[i], userId)))
  }

  // ----- server items -----

  /** An upcoming-route item as the list turns it into a call: the creator is
      the viewer. */
  function FromUpcoming(m: UpcomingItem, userId: Option<string>): CallSnapshot {
    CallSnapshot(m.streamCallId, Some(m.startsAt), None, Some(m.startsAt), Some(m.title), userId)
  }

  /** An ended-route item as the list turns it into a call, without a creator. */
  function FromEnded(m: EndedItem): CallSnapshot {
    CallSnapshot(m.streamCallId, Some(m.startsAt), m.endedAt, Some(m.startsAt), Some(m.title), None)
  }

  /** The server and the client agree: a row the upcoming route lists becomes
      a call the client classifies as upcoming, shown as hosted by the viewer. */
  lemma ServerUpcomingIsUpcoming(m: Meetings.Meeting, user: string, now: int)
    requires UpcomingRow(m, user, now)
    ensures var c := FromUpcoming(UpcomingItem(m.id, m.title, m.startsAt, m.streamCallId), Some(user));
      IsUpcoming(c, now) && !IsEnded(c, now) && CardFor(UpcomingList, CallItem(c), Some(user)).isHost
  {
  }

  /** A row the ended route lists becomes a call the client classifies as
      ended and never as upcoming. */
  lemma ServerEndedIsEnded(m: Meetings.Meeting, user: string, now: int)
    requires EndedRow(m, user, now)
    ensures var c := FromEnded(EndedItem(m.id, m.title, m.startsAt, m.streamCallId, m.endedAt));
      IsEnded(c, now) && !IsUpcoming(c, now)
  {
  }
}

=== FILE: charge_trial.dfy ===
/** `POST /api/admin/charge-trial` (app/api/admin/charge-trial/route.ts): an
    admin starts a payment of the configured trial fee for a user. The catalog
    comes from `getGlobalPlanConfig`; the request body, the target-user lookup
    and the provider reply are inputs. */
module ChargeTrial {
  import opened Basics
  import opened PlanCatalog
  import opened Accounts
  import opened ConfigStore
  import opened Billing

  /** The JSON body: unparseable, or an object whose `userId` may be missing. */
  datatype RequestBody = Unparseable | RequestBody(userId: Option<string>)

  datatype Body = Authorization(url: string, reference: string) | Error(message: string)

  /** The response and the initialisation request sent to the provider, if any. */
  datatype Outcome = Outcome(status: int, body: Body, request: Option<CheckoutRequest>)

  const Failed := "Failed to initialize trial charge"

  /** `Math.round(chargeNgn) * 100` */
  function TrialKobo(chargeNgn: real): (k: int)
    ensures k % 100 == 0
    ensures chargeNgn * 100.0 - 50.0 < k as real <= chargeNgn * 100.0 + 50.0
  {
    Round(chargeNgn) * 100
  }

  /** The provider request for the trial fee of `target`. */
  function TrialFeeRequest(userId: string, target: AuthUser, chargeNgn: real, baseUrl: string): (q: CheckoutRequest)
    requires IsSet(target.email)
    ensures q.amountKobo == TrialKobo(chargeNgn) && q.currency == "NGN"
    ensures q.metadata.kind == Some("trial_fee") && q.metadata.plan == Some(Pro)
    ensures q.metadata.userId == Some(userId) && q.email == target.email.value
  {
    var email := target.email.value;
    var name := OrElse(target.meta.username, OrElse(target.email, "User"));
    CheckoutRequest(TrialKobo(chargeNgn), email, "NGN", baseUrl + "/profile",
      PaymentMetadata(Some(userId), Some(Pro), Some("trial_fee"), Some(name), Some(email)))
  }

  /** The trial charge is enabled with a positive amount. */
  predicate ChargeAllowed(cfg: PlanConfig) {
    TrialChargeEnabled(cfg) && TrialChargeNgn(cfg) > 0.0
  }

  /** Both settings are present and the caller is an admin. */
  predicate AdminCall(secret: Option<string>, baseUrl: Option<string>, caller: Option<AuthUser>) {
    IsSet(secret) && IsSet(baseUrl) && caller.Some? && IsAdmin(caller.value.meta)
  }

  /** An admin call naming a user, with the catalog read, the charge enabled
      and the service configured: the target user is looked up next. */
  predicate ReadyToLookUp(secret: Option<string>, baseUrl: Option<string>, caller: Option<AuthUser>,
    body: RequestBody, serviceEnv: bool, listing: Result<seq<AuthUser>>)
  {
    && AdminCall(secret, baseUrl, caller) && body.RequestBody? && IsSet(body.userId) && serviceEnv
    && GetGlobalPlanConfig(serviceEnv, listing).Ok? && ChargeAllowed(GetGlobalPlanConfig(serviceEnv, listing).value)
  }

  function Post(secret: Option<string>, baseUrl: Option<string>, caller: Option<AuthUser>,
    body: RequestBody, serviceEnv: bool, listing: Result<seq<AuthUser>>,
    target: Result<AuthUser>, reply: InitReply): (o: Outcome)
    ensures !IsSet(secret) || !IsSet(baseUrl) ==> o == Outcome(500, Error("Missing Paystack/BASE_URL config"), None)
    ensures IsSet(secret) && IsSet(baseUrl) && (caller.None? || !IsAdmin(caller.value.meta)) ==>
      o == Outcome(401, Error("Unauthorized"), None)
    ensures o.request.Some? ==> IsSet(secret) && IsSet(baseUrl) && caller.Some? && IsAdmin(caller.value.meta)
    ensures o.request.Some? ==> (
      && body.RequestBody? && IsSet(body.userId) && serviceEnv && target.Ok?
      && GetGlobalPlanConfig(serviceEnv, listing).Ok? && ChargeAllowed(GetGlobalPlanConfig(serviceEnv, listing).value)
      && IsSet(target.value.email))
    ensures o.request.Some? ==> (o.request.value ==
      TrialFeeRequest(body.userId.value, target.value, TrialChargeNgn(GetGlobalPlanConfig(serviceEnv, listing).value), baseUrl.value))
    ensures o.status == 200 <==> o.request.Some? && reply.ok && reply.status
    ensures AdminCall(secret, baseUrl, caller) && body.Unparseable? ==> o == Outcome(500, Error(Failed), None)
    ensures (AdminCall(secret, baseUrl, caller) && body.RequestBody? && IsSet(body.userId)
      && GetGlobalPlanConfig(serviceEnv, listing).Err?) ==> o == Outcome(500, Error(Failed), None)
    ensures ReadyToLookUp(secret, baseUrl, caller, body, serviceEnv, listing) && target.Err? ==>
      o == Outcome(500, Error(target.error), None)
    ensures ReadyToLookUp(secret, baseUrl, caller, body, serviceEnv, listing) && target.Ok? && !IsSet(target.value.email) ==>
      o == Outcome(400, Error("User email not found"), None)
    ensures ReadyToLookUp(secret, baseUrl, caller, body, serviceEnv, listing) && target.Ok? && IsSet(target.value.email) ==>
      o.request.Some?
    ensures o.request.Some? && reply.ok && reply.status ==> o.body == Authorization(reply.authorizationUrl, reply.reference)
    ensures o.request.Some? && (!reply.ok || !reply.status) ==>
      o.status == 500 && o.body == Error(OrElse(reply.message, "Failed to init trial charge"))
  {
    if !IsSet(secret) || !IsSet(baseUrl) then Outcome(500, Error("Missing Paystack/BASE_URL config"), None)
    else if caller.None? || !IsAdmin(caller.value.meta) then Outcome(401, Error("Unauthorized"), None)
    else if body.Unparseable? then Outcome(500, Error(Failed), None)
    else if !IsSet(body.userId) then Outcome(400, Error("Missing userId"), None)
    else match GetGlobalPlanConfig(serviceEnv, listing)
      case Err(_) => Outcome(500, Error(Failed), None)
      case Ok(cfg) =>
        if !ChargeAllowed(cfg) then Outcome(400, Error("Trial charge disabled or zero amount"), None)
        else if !serviceEnv then Outcome(500, Error(Failed), None)
        else match target
          case Err(e) => Outcome(500, Error(e), None)
          case Ok(t) =>
            if !IsSet(t.email) then Outcome(400, Error("User email not found"), None)
            else
              var request := TrialFeeRequest(body.userId.value, t, TrialChargeNgn(cfg), baseUrl.value);
              if !reply.ok || !reply.status then
                Outcome(500, Error(OrElse(reply.message, "Failed to init trial charge")), Some(request))
              else Outcome(200, Authorization(reply.authorizationUrl, reply.reference), Some(request))
  }

  /** A ready admin request for a user with an email, accepted by the
      provider, answers 200 with the provider's authorization URL and
      reference, after sending the trial-fee request for the configured amount. */
  lemma ValidRequestAuthorized(secret: Option<string>, baseUrl: Option<string>, caller: Option<AuthUser>,
    body: RequestBody, serviceEnv: bool, listing: Result<seq<AuthUser>>, target: Result<AuthUser>, reply: InitReply)
    requires ReadyToLookUp(secret, baseUrl, caller, body, serviceEnv, listing)
    requires target.Ok? && IsSet(target.value.email) && reply.ok && reply.status
    ensures Post(secret, baseUrl, caller, body, serviceEnv, listing, target, reply) ==
      Outcome(200, Authorization(reply.authorizationUrl, reply.reference),
        Some(TrialFeeRequest(body.userId.value, target.value,
          TrialChargeNgn(GetGlobalPlanConfig(serviceEnv, listing).value), baseUrl.value)))
  {
  }

  /** With charging disabled (the default) or a non-positive amount the route
      answers 400 and never contacts the provider. */
  lemma DisabledChargeRejected(secret: Option<string>, baseUrl: Option<string>, caller: Option<AuthUser>,
    userId: string, serviceEnv: bool, listing: Result<seq<AuthUser>>, target: Result<AuthUser>, reply: InitReply)
    requires IsSet(secret) && IsSet(baseUrl) && caller.Some? && IsAdmin(caller.value.meta) && userId != ""
    requires GetGlobalPlanConfig(serviceEnv, listing).Ok? && !ChargeAllowed(GetGlobalPlanConfig(serviceEnv, listing).value)
    ensures Post(secret, baseUrl, caller, RequestBody(Some(userId)), serviceEnv, listing, target, reply) ==
      Outcome(400, Error("Trial charge disabled or zero amount"), None)
  {
  }

  /** The default catalog disables the trial charge, so without an admin
      override no trial fee can be requested. */
  lemma DefaultCatalogDisablesCharge()
    ensures !ChargeAllowed(DefaultPlanConfig())
  {
  }

  /** A missing `userId` answers 400 before the catalog is read. */
  lemma MissingUserId(secret: Option<string>, baseUrl: Option<string>, caller: Option<AuthUser>,
    serviceEnv: bool, listing: Result<seq<AuthUser>>, target: Result<AuthUser>, reply: InitReply)
    requires IsSet(secret) && IsSet(baseUrl) && caller.Some? && IsAdmin(caller.value.meta)
    ensures Post(secret, baseUrl, caller, RequestBody(None), serviceEnv, listing, target, reply) ==
      Outcome(400, Error("Missing userId"), None)
  {
  }

  /** A trial-fee payment started here is routed by the webhook to the fee
      write, never to a subscription activation. */
  lemma RequestRoutesToFee(userId: string, target: AuthUser, chargeNgn: real, baseUrl: string)
    requires IsSet(target.email)
    ensures OrElse(TrialFeeRequest(userId, target, chargeNgn, baseUrl).metadata.kind, "subscription") == "trial_fee"
  {
  }
}

=== FILE: combobox.dfy ===
/** The searchable drop-down of `components/ui/combobox.tsx`: the filtered
    option list, keyboard navigation over it, selection, and the label shown on
    the closed trigger. The component's state is a record stepped by events;
    every event is followed by the clamping effect on the active index. */
module Combobox {
  import opened Basics

  /** One entry of the `options` prop. */
  datatype Item = Item(value: string, labelText: string, disabled: bool)

  /** Case-insensitive match of the typed filter against label or value. */
  predicate Matches(o: Item, filter: string) {
    Includes(Lower(o.labelText), Lower(filter)) || Includes(Lower(o.value), Lower(filter))
  }

  /** `filtered`: the options that match the filter, in their original order. */
  function Filtered(options: seq<Item>, filter: string): (r: seq<Item>)
    ensures |r| <= |options|
    decreases |options|
  {
    if |options| == 0 then []
    else (if Matches(options[0], filter) then [options[0]] else []) + Filtered(options[1..], filter)
  }

  /** An option is kept exactly when it matches, as often as it occurs. */
  lemma {:induction false} FilteredSpec(options: seq<Item>, filter: string, o: Item)
    ensures o in Filtered(options, filter) <==> o in options && Matches(o, filter)
    ensures multiset(Filtered(options, filter))[o] == if Matches(o, filter) then multiset(options)[o] else 0
    decreases |options|
  {
    if |options| > 0 {
      FilteredSpec(options[1..], filter, o);
      assert options == [options[0]] + options[1..];
    }
  }

  lemma {:induction false} FilteredKeepsOrder(options: seq<Item>, filter: string)
    ensures Subsequence(Filtered(options, filter), options)
    decreases |options|
  {
    if |options| > 0 {
      FilteredKeepsOrder(options[1..], filter);
      var rest := Filtered(options[1..], filter);
      if Matches(options[0], filter) {
        var r := [options[0]] + rest;
        assert Filtered(options, filter) == r;
        assert r[0] == options[0] && r[1..] == rest;
        assert Subsequence(r[1..], options[1..]);
      } else {
        assert Filtered(options, filter) == rest;
      }
    }
  }

  /** An empty filter lists every option. */
  lemma {:induction false} EmptyFilterListsAll(options: seq<Item>)
    ensures Filtered(options, "") == options
    decreases |options|
  {
    if |options| > 0 {
      assert Lower("") == "";
      IncludesEmpty(Lower(options[0].labelText));
      EmptyFilterListsAll(options[1..]);
      assert options == [options[0]] + options[1..];
    }
  }

  /** Filtering twice by the same text changes nothing. */
  lemma {:induction false} FilterIdempotent(options: seq<Item>, filter: string)
    ensures Filtered(Filtered(options, filter), filter) == Filtered(options, filter)
    decreases |options|
  {
    if |options| > 0 {
      FilterIdempotent(options[1..], filter);
      var rest := Filtered(options[1..], filter);
      if Matches(options[0], filter) {
        var r := [options[0]] + rest;
        assert r[0] == options[0] && r[1..] == rest;
      } else {
        assert Filtered(options, filter) == rest;
      }
    }
  }

  // ----- state and events -----

  datatype State = State(isOpen: bool, filter: string, current: Option<string>, activeIndex: int)

  /** The initial state for a `value` prop. */
  function Init(value: Option<string>): (s: State)
    ensures !s.isOpen && s.filter == "" && s.current == value && s.activeIndex == 0
  {
    State(false, "", value, 0)
  }

  datatype Key = ArrowDown | ArrowUp | Enter | Escape | OtherKey

  /** An event and the value reported through `onValueChange`, if any. */
  datatype Event =
    | OpenChange(open: bool)
    | Typed(text: string)
    | KeyDown(key: Key)
    | Click(index: int)
    | ValueProp(value: Option<string>)

  datatype Stepped = Stepped(state: State, notified: Option<string>)

  /** `selectValue`: make `v` current, report it, close the menu. */
  function SelectValue(s: State, v: string): (r: Stepped)
    ensures r.state.current == Some(v) && r.notified == Some(v) && !r.state.isOpen
    ensures r.state.filter == s.filter && r.state.activeIndex == s.activeIndex
  {
    Stepped(s.(current := Some(v), isOpen := false), Some(v))
  }

  /** The option that pressing Enter on `i` (or clicking it) would pick, if it
      exists and is enabled. */
  function Pickable(filtered: seq<Item>, i: int): (r: Option<string>)
    ensures r.Some? <==> 0 <= i < |filtered| && !filtered[i].disabled
    ensures r.Some? ==> r.value == filtered[i].value
  {
    if 0 <= i < |filtered| && !filtered[i].disabled then Some(filtered[i].value) else None
  }

  function Min(a: int, b: int): int { if a <= b then a else b }
  function Max(a: int, b: int): int { if a >= b then a else b }

  /** `handleKeyDown` on the current filtered list. */
  function HandleKey(s: State, filtered: seq<Item>, k: Key): (r: Stepped)
    ensures !s.isOpen ==> r == Stepped(s, None)
    ensures r.notified.Some? ==> k == Enter && r.notified == Pickable(filtered, s.activeIndex)
    ensures s.isOpen && k == Enter && Pickable(filtered, s.activeIndex).Some? ==>
      r.notified.Some? && !r.state.isOpen
    ensures s.isOpen && k == Enter && Pickable(filtered, s.activeIndex).Some? ==>
      r.state.current == Pickable(filtered, s.activeIndex) && r.state.activeIndex == s.activeIndex
    ensures s.isOpen && k == Enter && Pickable(filtered, s.activeIndex).None? ==> r == Stepped(s, None)
    ensures s.isOpen && k == ArrowDown ==> r.state.activeIndex == Min(s.activeIndex + 1, |filtered| - 1)
    ensures s.isOpen && k == ArrowUp ==> r.state.activeIndex == Max(s.activeIndex - 1, 0)
    ensures s.isOpen && (k == ArrowDown || k == ArrowUp) ==>
      r.state.isOpen && r.state.current == s.current && r.notified.None?
    ensures s.isOpen && k == Escape ==>
      !r.state.isOpen && r.state.current == s.current && r.state.activeIndex == s.activeIndex && r.notified.None?
    ensures k == OtherKey ==> r == Stepped(s, None)
    ensures r.state.filter == s.filter
  {
    if !s.isOpen then Stepped(s, None)
    else match k
      case ArrowDown => Stepped(s.(activeIndex := Min(s.activeIndex + 1, |filtered| - 1)), None)
      case ArrowUp => Stepped(s.(activeIndex := Max(s.activeIndex - 1, 0)), None)
      case Enter =>
        var p := Pickable(filtered, s.activeIndex);
        if p.Some? then SelectValue(s, p.value) else Stepped(s, None)
      case Escape => Stepped(s.(isOpen := false), None)
      case OtherKey => Stepped(s, None)
  }

  /** The clamping effect: an index at or past the end goes back to the first entry. */
  function Clamp(s: State, len: nat): (r: State)
    ensures r.activeIndex < len || r.activeIndex == 0
    ensures s.activeIndex < len ==> r == s
    ensures r.isOpen == s.isOpen && r.filter == s.filter && r.current == s.current
  {
    if s.activeIndex >= len then s.(activeIndex := 0) else s
  }

  /** One event followed by the clamping effect. */
  function Step(options: seq<Item>, s: State, e: Event): Stepped {
    var filtered := Filtered(options, s.filter);
    var r: Stepped := match e
      case OpenChange(o) => Stepped(s.(isOpen := o), None)
      case Typed(t) => Stepped(s.(filter := t), None)
      case KeyDown(k) => HandleKey(s, filtered, k)
      case Click(i) =>
        var p := Pickable(filtered, i);
        if p.Some? then SelectValue(s, p.value) else Stepped(s, None)
      case ValueProp(v) => Stepped(s.(current := v), None);
    r.(state := Clamp(r.state, |Filtered(options, r.state.filter)|))
  }

  /** The index kept by the component: never below -1 (ArrowDown on an empty
      list), and inside the list unless it is 0 or -1. */
  predicate IndexInvariant(options: seq<Item>, s: State) {
    -1 <= s.activeIndex && (s.activeIndex < |Filtered(options, s.filter)| || s.activeIndex == 0)
  }

  lemma StepKeepsIndexInvariant(options: seq<Item>, s: State, e: Event)
    requires IndexInvariant(options, s)
    ensures IndexInvariant(options, Step(options, s, e).state)
  {
  }

  /** Every value reported by a step is the value of an enabled option that
      matches the current filter. */
  lemma NotifiedIsEnabledMatch(options: seq<Item>, s: State, e: Event)
    ensures Step(options, s, e).notified.Some? ==>
      exists o :: o in options && Matches(o, s.filter) && !o.disabled && o.value == Step(options, s, e).notified.value
  {
    var filtered := Filtered(options, s.filter);
    var r := Step(options, s, e);
    if r.notified.Some? {
      var i := if e.KeyDown? then s.activeIndex else e.index;
      assert Pickable(filtered, i) == r.notified;
      FilteredSpec(options, s.filter, filtered[i]);
    }
  }

  /** Runs events from a state, collecting the reported values in order. */
  function Run(options: seq<Item>, s: State, es: seq<Event>): (r: (State, seq<string>))
    decreases |es|
  {
    if |es| == 0 then (s, [])
    else
      var st := Step(options, s, es[0]);
      var rest := Run(options, st.state, es[1..]);
      (rest.0, (if st.notified.Some? then [st.notified.value] else []) + rest.1)
  }

  /** From the initial state, the index invariant holds after any events, so
      Enter never reads past the list. */
  lemma {:induction false} RunKeepsIndexInvariant(options: seq<Item>, s: State, es: seq<Event>)
    requires IndexInvariant(options, s)
    ensures IndexInvariant(options, Run(options, s, es).0)
    decreases |es|
  {
    if |es| > 0 {
      StepKeepsIndexInvariant(options, s, es[0]);
      RunKeepsIndexInvariant(options, Step(options, s, es[0]).state, es[1..]);
    }
  }

  lemma InitSatisfiesInvariant(options: seq<Item>, value: Option<string>)
    ensures IndexInvariant(options, Init(value))
  {
  }

  /** A closed menu ignores the keyboard entirely. */
  lemma ClosedIgnoresKeys(options: seq<Item>, s: State, k: Key)
    requires !s.isOpen && IndexInvariant(options, s)
    ensures Step(options, s, KeyDown(k)) == Stepped(s, None)
  {
  }

  /** A disabled entry can never be picked, by keyboard or by mouse. */
  lemma DisabledNeverPicked(options: seq<Item>, s: State, i: int)
    requires 0 <= i < |Filtered(options, s.filter)| && Filtered(options, s.filter)[i].disabled
    ensures Step(options, s, Click(i)).notified.None?
    ensures s.activeIndex == i ==> Step(options, s, KeyDown(Enter)).notified.None?
  {
    assert Pickable(Filtered(options, s.filter), i).None?;
  }

  // ----- trigger label -----

  /** `options.find(o => o.value === current)`: the first option with that value. */
  function Find(options: seq<Item>, current: Option<string>): (r: Option<Item>)
    ensures r.Some? ==> r.value in options && Some(r.value.value) == current
    ensures r.None? ==> forall o :: o in options ==> Some(o.value) != current
    decreases |options|
  {
    if |options| == 0 then None
    else if Some(options[0].value) == current then Some(options[0])
    else Find(options[1..], current)
  }

  /** The option found is the first one with that value. */
  lemma {:induction false} FindIsFirst(options: seq<Item>, current: Option<string>)
    requires Find(options, current).Some?
    ensures exists i :: (0 <= i < |options| && options[i] == Find(options, current).value
                         && forall j :: 0 <= j < i ==> Some(options[j].value) != current)
    decreases |options|
  {
    if Some(options[0].value) != current {
      FindIsFirst(options[1..], current);
      var i :| 0 <= i < |options[1..]| && options[1..][i] == Find(options, current).value
        && forall j :: 0 <= j < i ==> Some(options[1..][j].value) != current;
      assert options[i + 1] == Find(options, current).value;
      forall j | 0 <= j < i + 1
        ensures Some(options[j].value) != current
      {
        if j > 0 { assert options[j] == options[1..][j - 1]; }
      }
    } else {
      assert options[0] == Find(options, current).value;
    }
  }

  /** The trigger text: the found option's label, else the placeholder, else
      `'Select...'` (empty strings skipped at each step). */
  function CurrentLabel(options: seq<Item>, current: Option<string>, placeholder: Option<string>): (r: string)
    ensures r != ""
    ensures var f := Find(options, current);
      (f.Some? && f.value.labelText != "" ==> r == f.value.labelText)
      && (!(f.Some? && f.value.labelText != "") && IsSet(placeholder) ==> r == placeholder.value)
      && (!(f.Some? && f.value.labelText != "") && !IsSet(placeholder) ==> r == "Select...")
  {
    var f := Find(options, current);
    if f.Some? && f.value.labelText != "" then f.value.labelText else OrElse(placeholder, "Select...")
  }

  /** With nothing selected, the trigger shows the placeholder or the default. */
  lemma NothingSelectedShowsPlaceholder(options: seq<Item>, placeholder: Option<string>)
    ensures CurrentLabel(options, None, placeholder) == OrElse(placeholder, "Select...")
  {
  }

  /** After a pick the value made current is one the trigger can find among the
      options, so the trigger shows an option label rather than the placeholder
      whenever that label is non-empty. */
  lemma PickIsFound(options: seq<Item>, s: State, e: Event)
    requires Step(options, s, e).notified.Some?
    ensures Find(options, Step(options, s, e).state.current).Some?
    ensures Step(options, s, e).state.current == Step(options, s, e).notified
  {
    NotifiedIsEnabledMatch(options, s, e);
    var v := Step(options, s, e).notified.value;
    var o :| o in options && Matches(o, s.filter) && !o.disabled && o.value == v;
    assert Some(o.value) == Step(options, s, e).state.current;
  }
}

=== FILE: config_store.dfy ===
/** `getGlobalPlanConfig` / `setGlobalPlanConfig`: the catalog override lives in
    the metadata of the first user whose role is admin. The user listing and
    the presence of the service-role credentials are inputs. */
module ConfigStore {
  import opened Basics
  import opened PlanCatalog
  import opened Accounts

  const MissingServiceRole := "Missing SUPABASE service role configuration"
  const NoAdminUser := "No admin user found"

  /** The catalog in force: the first admin's stored override merged over the
      defaults, or the defaults when there is no admin or no override. */
  function GetGlobalPlanConfig(serviceEnv: bool, listing: Result<seq<AuthUser>>): (r: Result<PlanConfig>)
    ensures !serviceEnv ==> r == Err(MissingServiceRole)
    ensures serviceEnv && listing.Err? ==> r == Err(listing.error)
    ensures serviceEnv && listing.Ok? ==> r.Ok?
    ensures serviceEnv && listing.Ok? && FindAdmin(listing.value).None? ==>
      r == Ok(DefaultPlanConfig())
    ensures serviceEnv && listing.Ok? && FindAdmin(listing.value).Some? ==>
      r == Ok(MergeOverDefaults(listing.value[FindAdmin(listing.value).value].meta.planConfig))
  {
    if !serviceEnv then Err(MissingServiceRole)
    else if listing.Err? then Err(listing.error)
    else
      var users := listing.value;
      match FindAdmin(users)
      case None => Ok(DefaultPlanConfig())
      case Some(i) => Ok(MergeOverDefaults(users[i].meta.planConfig))
  }

  /** Stores `config` verbatim on the first admin and returns the new listing.
      `updateError` is the provider's reply to the metadata update: `None`
      when it succeeded, otherwise the message the action throws. */
  function SetGlobalPlanConfig(serviceEnv: bool, listing: Result<seq<AuthUser>>, config: PlanConfig,
    updateError: Option<string>): (r: Result<seq<AuthUser>>)
    ensures !serviceEnv ==> r == Err(MissingServiceRole)
    ensures serviceEnv && listing.Err? ==> r == Err(listing.error)
    ensures serviceEnv && listing.Ok? && FindAdmin(listing.value).None? ==> r == Err(NoAdminUser)
    ensures serviceEnv && listing.Ok? && FindAdmin(listing.value).Some? && updateError.Some? ==>
      r == Err(updateError.value)
    ensures r.Ok? <==> serviceEnv && listing.Ok? && FindAdmin(listing.value).Some? && updateError.None?
    ensures r.Ok? ==> |r.value| == |listing.value|
    ensures r.Ok? ==> var i := FindAdmin(listing.value).value;
      && r.value[i] == listing.value[i].(meta := listing.value[i].meta.(planConfig := Some(Store(config))))
      && forall j :: 0 <= j < |r.value| && j != i ==> r.value[j] == listing.value[j]
  {
    if !serviceEnv then Err(MissingServiceRole)
    else if listing.Err? then Err(listing.error)
    else
      var users := listing.value;
      match FindAdmin(users)
      case None => Err(NoAdminUser)
      case Some(i) =>
        if updateError.Some? then Err(updateError.value)
        else
          var u := users[i];
          Ok(users[i := u.(meta := u.meta.(planConfig := Some(Store(config))))])
  }

  /** Writing a catalog and reading it back gives exactly that catalog. */
  lemma SetThenGet(serviceEnv: bool, listing: Result<seq<AuthUser>>, config: PlanConfig, updateError: Option<string>)
    requires SetGlobalPlanConfig(serviceEnv, listing, config, updateError).Ok?
    ensures GetGlobalPlanConfig(serviceEnv, SetGlobalPlanConfig(serviceEnv, listing, config, updateError)) == Ok(config)
  {
    var users := listing.value;
    var users' := SetGlobalPlanConfig(serviceEnv, listing, config, updateError).value;
    var i := FindAdmin(users).value;
    forall j | 0 <= j < |users| ensures IsAdmin(users[j].meta) <==> IsAdmin(users'[j].meta) {
      if j == i {
        assert users'[j].meta.role == users[j].meta.role;
      } else {
        assert users'[j] == users[j];
      }
    }
    FindAdminRoleOnly(users, users');
    StoreThenMerge(config);
  }

  /** A failed write changes nothing that a later read can see: without an
      admin the set fails and the read stays at the defaults. */
  lemma FailedSetKeepsConfig(serviceEnv: bool, listing: Result<seq<AuthUser>>, config: PlanConfig, updateError: Option<string>)
    requires serviceEnv && listing.Ok? && FindAdmin(listing.value).None?
    ensures SetGlobalPlanConfig(serviceEnv, listing, config, updateError) == Err(NoAdminUser)
    ensures GetGlobalPlanConfig(serviceEnv, listing) == Ok(DefaultPlanConfig())
  {
  }
}

=== FILE: env_debug.dfy ===
/** `GET /api/debug/env`: which configuration variables are set and whether
    they look well-formed, reported as booleans only. */
module EnvDebug {
  import opened Basics

  /** `!!(v && v.trim().length > 0)` */
  predicate Present(v: Option<string>) {
    v.Some? && Trim(v.value) != ""
  }

  lemma PresentIff(v: Option<string>)
    ensures Present(v) <==> v.Some? && exists i :: 0 <= i < |v.value| && !IsTrimmable(v.value[i])
  {
    if v.Some? {
      TrimEmptyIff(v.value);
    }
  }

  predicate LooksPk(key: Option<string>) {
    StartsWith(key.GetOr(""), "pk_")
  }

  predicate LooksSk(secret: Option<string>) {
    StartsWith(secret.GetOr(""), "sk_")
  }

  /** `/^https?:\/\//` on a non-empty value. */
  predicate LooksUrl(url: Option<string>) {
    IsSet(url) && (StartsWith(url.value, "http://") || StartsWith(url.value, "https://"))
  }

  lemma MissingLooksNothing()
    ensures !LooksPk(None) && !LooksSk(None) && !LooksUrl(None) && !Present(None)
  {
  }

  /** A well-shaped key is present: it has a non-blank first character. */
  lemma PkIsPresent(key: Option<string>)
    requires LooksPk(key)
    ensures Present(key)
  {
    PresentIff(key);
    assert key.value[0] == 'p';
  }

  datatype Env = Env(
    streamKey: Option<string>,
    streamSecret: Option<string>,
    supabaseUrl: Option<string>,
    supabaseAnon: Option<string>,
    paystackSecret: Option<string>,
    baseUrl: Option<string>)

  /** The response: booleans only, so no configured value can appear in it. */
  datatype Report = Report(
    hasPublicKey: bool, hasSecretKey: bool, looksPk: bool, looksSk: bool,
    hasUrl: bool, hasAnon: bool, hasPaystackSecret: bool, hasBaseUrl: bool, looksUrl: bool)

  function GetEnv(e: Env): (r: Report)
    ensures r.hasPublicKey == Present(e.streamKey) && r.hasSecretKey == Present(e.streamSecret)
    ensures r.looksPk == LooksPk(e.streamKey) && r.looksSk == LooksSk(e.streamSecret)
    ensures r.hasUrl == Present(e.supabaseUrl) && r.hasAnon == Present(e.supabaseAnon)
    ensures r.hasPaystackSecret == Present(e.paystackSecret)
    ensures r.hasBaseUrl == Present(e.baseUrl) && r.looksUrl == LooksUrl(e.baseUrl)
  {
    Report(Present(e.streamKey), Present(e.streamSecret), LooksPk(e.streamKey), LooksSk(e.streamSecret),
      Present(e.supabaseUrl), Present(e.supabaseAnon), Present(e.paystackSecret), Present(e.baseUrl), LooksUrl(e.baseUrl))
  }

  /** Two environments that agree on every predicate give the same report, so
      the report reveals nothing beyond the predicates. */
  lemma ReportDependsOnlyOnPredicates(a: Env, b: Env)
    requires Present(a.streamKey) == Present(b.streamKey) && Present(a.streamSecret) == Present(b.streamSecret)
    requires LooksPk(a.streamKey) == LooksPk(b.streamKey) && LooksSk(a.streamSecret) == LooksSk(b.streamSecret)
    requires Present(a.supabaseUrl) == Present(b.supabaseUrl) && Present(a.supabaseAnon) == Present(b.supabaseAnon)
    requires Present(a.paystackSecret) == Present(b.paystackSecret)
    requires Present(a.baseUrl) == Present(b.baseUrl) && LooksUrl(a.baseUrl) == LooksUrl(b.baseUrl)
    ensures GetEnv(a) == GetEnv(b)
  {
  }
}

=== FILE: meeting_lists.dfy ===
/** The dashboard listings `GET /api/meetings/upcoming` and
    `GET /api/meetings/ended`: a filter on the caller's rows, an order by start
    time and a `take`. The storage order of rows with equal start times is not
    fixed by the store, so the contracts only ask for some sorted permutation. */
module MeetingLists {
  import opened Basics
  import opened Meetings

  const HourMs: int := 3_600_000

  /** The upcoming route's `where`. */
  predicate UpcomingRow(m: Meeting, user: string, now: int) {
    m.createdBy == user && m.startsAt > now - HourMs && m.endedAt.None?
  }

  /** The ended route's `where`. */
  predicate EndedRow(m: Meeting, user: string, now: int) {
    m.createdBy == user && (m.endedAt.Some? || m.startsAt < now - HourMs)
  }

  /** At the same instant no row is listed by both routes. */
  lemma UpcomingEndedDisjoint(m: Meeting, user: string, now: int)
    ensures !(UpcomingRow(m, user, now) && EndedRow(m, user, now))
  {
  }

  /** A row of the caller that has not ended and starts exactly one hour ago is
      in neither listing. */
  lemma HourBoundaryInNeither(m: Meeting, user: string, now: int)
    requires m.createdBy == user && m.endedAt.None? && m.startsAt == now - HourMs
    ensures !UpcomingRow(m, user, now) && !EndedRow(m, user, now)
  {
  }

  // ----- filtering -----

  function Upcoming(db: Db, user: string, now: int): (r: Db)
    ensures forall i :: 0 <= i < |r| ==> UpcomingRow(r[i], user, now)
    ensures forall m :: m in db && UpcomingRow(m, user, now) ==> multiset(r)[m] == multiset(db)[m]
    ensures multiset(r) <= multiset(db)
    decreases |db|
  {
    if |db| == 0 then []
    else
      assert db == [db[0]] + db[1..];
      var rest := Upcoming(db[1..], user, now);
      if UpcomingRow(db[0], user, now) then [db[0]] + rest else rest
  }

  function Ended(db: Db, user: string, now: int): (r: Db)
    ensures forall i :: 0 <= i < |r| ==> EndedRow(r[i], user, now)
    ensures forall m :: m in db && EndedRow(m, user, now) ==> multiset(r)[m] == multiset(db)[m]
    ensures multiset(r) <= multiset(db)
    decreases |db|
  {
    if |db| == 0 then []
    else
      assert db == [db[0]] + db[1..];
      var rest := Ended(db[1..], user, now);
      if EndedRow(db[0], user, now) then [db[0]] + rest else rest
  }

  // ----- ordering -----

  /** The sort key: the start time, negated for a descending order. */
  function Key(m: Meeting, asc: bool): int {
    if asc then m.startsAt else -m.startsAt
  }

  predicate Sorted(s: Db, asc: bool) {
    forall i, j :: 0 <= i < j < |s| ==> Key(s[i], asc) <= Key(s[j], asc)
  }

  /** Every key of `s` is at least `k`. */
  predicate AllAtLeast(s: Db, asc: bool, k: int) {
    forall i :: 0 <= i < |s| ==> k <= Key(s[i], asc)
  }

  /** Growing a multiset by an element no smaller than `k` keeps every key at
      least `k`. */
  lemma {:induction false} AtLeastAfterInsert(r: Db, t: Db, x: Meeting, asc: bool, k: int)
    requires multiset(r) == multiset(t) + multiset{x}
    requires AllAtLeast(t, asc, k) && k <= Key(x, asc)
    ensures AllAtLeast(r, asc, k)
  {
    forall i | 0 <= i < |r|
      ensures k <= Key(r[i], asc)
    {
      assert r[i] in multiset(r);
      if r[i] != x {
        assert r[i] in multiset(t);
        var j :| 0 <= j < |t| && t[j] == r[i];
      }
    }
  }

  /** A head no larger than every key of a sorted tail gives a sorted sequence. */
  lemma {:induction false} ConsSorted(h: Meeting, t: Db, asc: bool)
    requires Sorted(t, asc) && AllAtLeast(t, asc, Key(h, asc))
    ensures Sorted([h] + t, asc)
  {
    var s := [h] + t;
    forall i, j | 0 <= i < j < |s|
      ensures Key(s[i], asc) <= Key(s[j], asc)
    {
      assert s[j] == t[j - 1];
      if i > 0 {
        assert s[i] == t[i - 1];
      }
    }
  }

  function Insert(x: Meeting, s: Db, asc: bool): (r: Db)
    requires Sorted(s, asc)
    ensures Sorted(r, asc)
    ensures multiset(r) == multiset(s) + multiset{x}
    ensures |r| == |s| + 1
    decreases |s|
  {
    if |s| == 0 then [x]
    else if Key(x, asc) <= Key(s[0], asc) then
      assert AllAtLeast(s, asc, Key(x, asc));
      ConsSorted(x, s, asc);
      [x] + s
    else
      var t := s[1..];
      assert s == [s[0]] + t;
      assert Sorted(t, asc);
      assert AllAtLeast(t, asc, Key(s[0], asc));
      var rest := Insert(x, t, asc);
      AtLeastAfterInsert(rest, t, x, asc, Key(s[0], asc));
      ConsSorted(s[0], rest, asc);
      [s[0]] + rest
  }

  /** Insertion sort on the sort key. */
  function Sort(s: Db, asc: bool): (r: Db)
    ensures Sorted(r, asc)
    ensures multiset(r) == multiset(s)
    ensures |r| == |s|
    decreases |s|
  {
    if |s| == 0 then []
    else
      assert s == [s[0]] + s[1..];
      Insert(s[0], Sort(s[1..], asc), asc)
  }

  /** A prefix of a sorted sequence is sorted, and no later element comes
      before any of its elements in the order. */
  lemma {:induction false} SortedPrefix(s: Db, k: nat, asc: bool)
    requires k <= |s| && Sorted(s, asc)
    ensures Sorted(s[..k], asc)
    ensures multiset(s) == multiset(s[..k]) + multiset(s[k..])
    ensures forall m, i :: m in multiset(s[k..]) && 0 <= i < k ==> Key(s[i], asc) <= Key(m, asc)
  {
    assert s == s[..k] + s[k..];
    forall m, i | m in multiset(s[k..]) && 0 <= i < k
      ensures Key(s[i], asc) <= Key(m, asc)
    {
      var j :| 0 <= j < |s[k..]| && s[k..][j] == m;
      assert s[k + j] == m;
    }
  }

  /** The first `n` rows of the selection `sel` in `asc` order: as many as
      exist up to `n`, drawn from the selection, sorted, and no left-out row
      comes earlier in the order than a listed one. */
  function TopRows(sel: Db, asc: bool, n: nat): (r: Db)
    ensures |r| == if |sel| < n then |sel| else n
    ensures multiset(r) <= multiset(sel)
    ensures Sorted(r, asc)
    ensures forall m, i :: m in multiset(sel) - multiset(r) && 0 <= i < |r| ==> Key(r[i], asc) <= Key(m, asc)
  {
    var s := Sort(sel, asc);
    var k := if |s| < n then |s| else n;
    SortedPrefix(s, k, asc);
    assert multiset(sel) - multiset(s[..k]) == multiset(s[k..]);
    Take(s, n)
  }

  // ----- the routes -----

  datatype UpcomingItem = UpcomingItem(id: string, title: string, startsAt: int, streamCallId: string)

  datatype EndedItem = EndedItem(id: string, title: string, startsAt: int, streamCallId: string, endedAt: Option<int>)

  function ToUpcomingItems(rows: Db): (items: seq<UpcomingItem>)
    ensures |items| == |rows|
    ensures forall i :: 0 <= i < |rows| ==>
      items[i] == UpcomingItem(rows[i].id, rows[i].title, rows[i].startsAt, rows[i].streamCallId)
  {
    seq(|rows|, i requires 0 <= i < |rows| => UpcomingItem(rows[i].id, rows[i].title, rows[i].startsAt, rows[i].streamCallId))
  }

  function ToEndedItems(rows: Db): (items: seq<EndedItem>)
    ensures |items| == |rows|
    ensures forall i :: 0 <= i < |rows| ==>
      items[i] == EndedItem(rows[i].id, rows[i].title, rows[i].startsAt, rows[i].streamCallId, rows[i].endedAt)
  {
    seq(|rows|, i requires 0 <= i < |rows| => EndedItem(rows[i].id, rows[i].title, rows[i].startsAt, rows[i].streamCallId, rows[i].endedAt))
  }

  /** The rows the upcoming route lists. */
  function UpcomingRows(db: Db, user: string, now: int): (r: Db)
    ensures |r| == if |Upcoming(db, user, now)| < 5 then |Upcoming(db, user, now)| else 5
    ensures forall i :: 0 <= i < |r| ==> UpcomingRow(r[i], user, now)
    ensures multiset(r) <= multiset(db)
    ensures Sorted(r, true)
    ensures forall m, i :: m in multiset(Upcoming(db, user, now)) - multiset(r) && 0 <= i < |r| ==> r[i].startsAt <= m.startsAt
  {
    var r := TopRows(Upcoming(db, user, now), true, 5);
    forall i | 0 <= i < |r|
      ensures UpcomingRow(r[i], user, now)
    {
      assert r[i] in multiset(r);
      assert r[i] in multiset(Upcoming(db, user, now));
    }
    r
  }

  /** The rows the ended route lists. */
  function EndedRows(db: Db, user: string, now: int): (r: Db)
    ensures |r| == if |Ended(db, user, now)| < 10 then |Ended(db, user, now)| else 10
    ensures forall i :: 0 <= i < |r| ==> EndedRow(r[i], user, now)
    ensures multiset(r) <= multiset(db)
    ensures Sorted(r, false)
    ensures forall m, i :: m in multiset(Ended(db, user, now)) - multiset(r) && 0 <= i < |r| ==> r[i].startsAt >= m.startsAt
  {
    var r := TopRows(Ended(db, user, now), false, 10);
    forall i | 0 <= i < |r|
      ensures EndedRow(r[i], user, now)
    {
      assert r[i] in multiset(r);
      assert r[i] in multiset(Ended(db, user, now));
    }
    r
  }

  /** `GET /api/meetings/upcoming`: always status 200; an empty list for a
      signed-out caller or when the read fails, otherwise the listed rows'
      public fields. */
  function GetUpcoming(user: Option<string>, db: Result<Db>, now: int): (items: seq<UpcomingItem>)
    ensures user.None? || db.Err? ==> items == []
    ensures user.Some? && db.Ok? ==> items == ToUpcomingItems(UpcomingRows(db.value, user.value, now))
    ensures |items| <= 5
    ensures forall i :: 0 <= i < |items| ==> items[i].startsAt > now - HourMs
    ensures forall i, j :: 0 <= i < j < |items| ==> items[i].startsAt <= items[j].startsAt
  {
    if user.None? || db.Err? then []
    else
      var rows := UpcomingRows(db.value, user.value, now);
      var items := ToUpcomingItems(rows);
      assert forall i :: 0 <= i < |items| ==> items[i].startsAt == Key(rows[i], true);
      items
  }

  /** `GET /api/meetings/ended`, with the same fallbacks. */
  function GetEnded(user: Option<string>, db: Result<Db>, now: int): (items: seq<EndedItem>)
    ensures user.None? || db.Err? ==> items == []
    ensures user.Some? && db.Ok? ==> items == ToEndedItems(EndedRows(db.value, user.value, now))
    ensures |items| <= 10
    ensures forall i :: 0 <= i < |items| ==> items[i].endedAt.Some? || items[i].startsAt < now - HourMs
    ensures forall i, j :: 0 <= i < j < |items| ==> items[i].startsAt >= items[j].startsAt
  {
    if user.None? || db.Err? then []
    else
      var rows := EndedRows(db.value, user.value, now);
      var items := ToEndedItems(rows);
      assert forall i :: 0 <= i < |items| ==> items[i].startsAt == -Key(rows[i], false);
      items
  }

  /** Every upcoming item shows a row of the caller's that has not ended. */
  lemma UpcomingItemsAreOwnOpenRows(user: string, db: Db, now: int, i: nat)
    requires i < |GetUpcoming(Some(user), Ok(db), now)|
    ensures exists m :: (m in db && m.createdBy == user && m.endedAt.None? && m.startsAt > now - HourMs
      && GetUpcoming(Some(user), Ok(db), now)[i] == UpcomingItem(m.id, m.title, m.startsAt, m.streamCallId))
  {
    var rows := UpcomingRows(db, user, now);
    var m := rows[i];
    assert m in multiset(rows);
    assert m in multiset(db);
    assert UpcomingRow(m, user, now);
  }

  /** Every ended item shows a row of the caller's, with that row's end. */
  lemma EndedItemsAreOwnRows(user: string, db: Db, now: int, i: nat)
    requires i < |GetEnded(Some(user), Ok(db), now)|
    ensures exists m :: (m in db && m.createdBy == user && (m.endedAt.Some? || m.startsAt < now - HourMs)
      && GetEnded(Some(user), Ok(db), now)[i] == EndedItem(m.id, m.title, m.startsAt, m.streamCallId, m.endedAt))
  {
    var rows := EndedRows(db, user, now);
    var m := rows[i];
    assert m in multiset(rows);
    assert m in multiset(db);
    assert EndedRow(m, user, now);
  }

  /** No meeting row is listed by both routes at the same instant. */
  lemma ListingsDisjoint(db: Db, user: string, now: int, m: Meeting)
    ensures m in UpcomingRows(db, user, now) ==> m !in EndedRows(db, user, now)
  {
    UpcomingEndedDisjoint(m, user, now);
  }

  /** When the caller has five or fewer upcoming rows, all of them are listed. */
  lemma FewUpcomingAllListed(db: Db, user: string, now: int)
    requires |Upcoming(db, user, now)| <= 5
    ensures multiset(UpcomingRows(db, user, now)) == multiset(Upcoming(db, user, now))
  {
    var sel := Upcoming(db, user, now);
    var s := Sort(sel, true);
    assert Take(s, 5) == s;
  }
}

=== FILE: meeting_room.dfy ===
/** The in-call rules of `components/MeetingRoom.tsx`: plan resolution, the
    streaming gate, the duration-limit timer, the chat / unread / raised-hands
    state, outgoing messages and the network-quality sample. React effects and
    intervals are modelled as explicit steps; clocks are inputs. */
module MeetingRoom {
  import opened Basics
  import opened PlanCatalog
  import opened Accounts

  // ----- plan and limit resolution -----

  /** The plan-derived room settings. Before they load the component starts
      with no duration limit, a one-on-one exemption and streaming off. */
  datatype Gates = Gates(
    durationLimitMs: Option<int>,
    isGroup: bool,
    unlimitedOneOnOne: bool,
    streamingEnabled: bool)

  function InitialGates(): Gates {
    Gates(None, false, true, false)
  }

  /** The `setLimit` effect: with a user and a catalog, the plan (free when
      unset) selects the limits; `streamingEnabled` also needs an active
      subscription. Without a user, or when the catalog read fails, the gates
      stay as they were. */
  function LoadLimits(g: Gates, user: Option<UserMeta>, cfg: Result<PlanConfig>): (g': Gates)
    ensures user.None? || cfg.Err? ==> g' == g
    ensures user.Some? && cfg.Ok? ==>
      var lim := LimitsOf(cfg.value, PlanOrFree(user.value));
      && g'.durationLimitMs == Some(lim.maxDurationMin * 60000)
      && g'.unlimitedOneOnOne == lim.unlimitedOneOnOne
      && (g'.streamingEnabled <==> SubscriptionActive(user.value) && lim.streamingEnabled)
      && g'.isGroup == g.isGroup
  {
    if user.None? || cfg.Err? then g
    else
      var lim := LimitsOf(cfg.value, PlanOrFree(user.value));
      g.(durationLimitMs := Some(lim.maxDurationMin * 60000),
         unlimitedOneOnOne := lim.unlimitedOneOnOne,
         streamingEnabled := SubscriptionActive(user.value) && lim.streamingEnabled)
  }

  /** A call is a group call when it has more than two members. */
  predicate IsGroupCall(members: nat) {
    members > 2
  }

  /** The 3-second membership poll: refreshes `isGroup` when a call exists. */
  function MembersTick(g: Gates, hasCall: bool, members: nat): (g': Gates)
    ensures hasCall ==> (g'.isGroup <==> members > 2)
    ensures !hasCall ==> g' == g
    ensures g'.durationLimitMs == g.durationLimitMs && g'.streamingEnabled == g.streamingEnabled
  {
    if hasCall then g.(isGroup := IsGroupCall(members)) else g
  }

  /** Streaming is offered only to an active subscriber whose plan enables it;
      in particular a lapsed paid plan loses it. */
  lemma StreamingNeedsActive(g: Gates, user: UserMeta, cfg: PlanConfig)
    ensures LoadLimits(g, Some(user), Ok(cfg)).streamingEnabled ==>
      SubscriptionActive(user) && LimitsOf(cfg, PlanOrFree(user)).streamingEnabled
    ensures !SubscriptionActive(user) ==> !LoadLimits(g, Some(user), Ok(cfg)).streamingEnabled
  {
  }

  /** A user without a plan is treated as free: under the default catalog the
      limit is 40 minutes and streaming is off. */
  lemma UnsetPlanIsFree(g: Gates, user: UserMeta)
    requires user.sub.plan.None?
    ensures var g' := LoadLimits(g, Some(user), Ok(DefaultPlanConfig()));
      g'.durationLimitMs == Some(2_400_000) && !g'.streamingEnabled
  {
  }

  datatype GoLiveResult = UpgradeRequired | GoLiveSoon

  /** The "Go Live" button: only an upgrade prompt unless streaming is enabled. */
  function GoLive(g: Gates): (r: GoLiveResult)
    ensures r == GoLiveSoon <==> g.streamingEnabled
  {
    if g.streamingEnabled then GoLiveSoon else UpgradeRequired
  }

  // ----- the duration timer -----

  /** The timer effect arms a countdown only with a non-zero limit, and never
      for a one-on-one call that the plan exempts. */
  predicate TimerArmed(g: Gates) {
    g.durationLimitMs.Some? && g.durationLimitMs.value != 0 && (g.isGroup || !g.unlimitedOneOnOne)
  }

  /** Once armed, a tick at `elapsed` ms makes the user leave exactly when no
      time remains. */
  predicate LeaveAt(limitMs: int, elapsed: int) {
    limitMs - elapsed <= 0
  }

  /** The interval period of the countdown, in milliseconds. */
  const TickMs: int := 5000

  lemma ExemptOneOnOne(g: Gates)
    requires !g.isGroup && g.unlimitedOneOnOne
    ensures !TimerArmed(g)
  {
  }

  /** Under the default catalog every plan exempts one-on-one calls, so a call
      of at most two members is never timed, whatever the user's plan. */
  lemma DefaultCatalogNeverTimesOneOnOne(user: UserMeta, members: nat)
    requires members <= 2
    ensures !TimerArmed(MembersTick(LoadLimits(InitialGates(), Some(user), Ok(DefaultPlanConfig())), true, members))
  {
  }

  /** A free group call under the default catalog is timed at 40 minutes. */
  lemma FreeGroupCallTimed(user: UserMeta, members: nat)
    requires user.sub.plan.None? || user.sub.plan == Some(Free)
    requires members > 2
    ensures var g := MembersTick(LoadLimits(InitialGates(), Some(user), Ok(DefaultPlanConfig())), true, members);
      TimerArmed(g) && g.durationLimitMs == Some(40 * 60000)
  {
  }

  /** The tick (counting from 1) of the 5-second countdown at which the user
      is made to leave a call whose armed limit is `limitMs`. */
  method LeaveTick(limitMs: int) returns (k: nat)
    ensures k >= 1 && LeaveAt(limitMs, k * TickMs)
    ensures forall j :: 1 <= j < k ==> !LeaveAt(limitMs, j * TickMs)
  {
    k := 1;
    while !LeaveAt(limitMs, k * TickMs)
      invariant k >= 1
      invariant forall j :: 1 <= j < k ==> !LeaveAt(limitMs, j * TickMs)
      decreases limitMs - k * TickMs
    {
      k := k + 1;
    }
  }

  /** The countdown the timer effect keeps: no interval, an interval counting
      from `start` against the limit it was armed with, or an interval that
      made the user leave and cleared itself. */
  datatype Countdown = Idle | Counting(start: int, limitMs: int) | Fired

  /** The timer effect's dependencies agree: `durationLimitMs`, `isGroup` and
      `unlimitedOneOnOne`. */
  predicate SameTimerInputs(a: Gates, b: Gates) {
    a.durationLimitMs == b.durationLimitMs && a.isGroup == b.isGroup && a.unlimitedOneOnOne == b.unlimitedOneOnOne
  }

  /** One run of the timer effect at `now`: a fresh count when the gates arm
      the timer, otherwise no interval. */
  function Arm(g: Gates, now: int): (t: Countdown)
    ensures t.Counting? <==> TimerArmed(g)
    ensures t.Counting? ==> t.start == now && g.durationLimitMs == Some(t.limitMs)
    ensures !t.Counting? ==> t == Idle
  {
    if TimerArmed(g) then Counting(now, g.durationLimitMs.value) else Idle
  }

  /** A render that moves the gates from `before` to `after` at `now`. With
      the same timer inputs the running interval is kept; a change clears it
      and runs the effect again, so any count restarts. */
  function Rearm(before: Gates, after: Gates, t: Countdown, now: int): (t': Countdown)
    ensures SameTimerInputs(before, after) ==> t' == t
    ensures !SameTimerInputs(before, after) ==> t' == Arm(after, now)
  {
    if SameTimerInputs(before, after) then t else Arm(after, now)
  }

  datatype TickResult = TickResult(countdown: Countdown, leave: bool)

  /** One 5-second callback at `now`: the user leaves, and the interval
      stops, exactly when a running count has no time remaining. */
  function Tick(t: Countdown, now: int): (r: TickResult)
    ensures r.leave <==> t.Counting? && LeaveAt(t.limitMs, now - t.start)
    ensures r.leave ==> r.countdown == Fired
    ensures !r.leave ==> r.countdown == t
  {
    if t.Counting? && LeaveAt(t.limitMs, now - t.start) then TickResult(Fired, true) else TickResult(t, false)
  }

  /** After a change of the timer inputs that leaves the timer armed, the
      deadline is a full limit after the change, whatever was counted before. */
  lemma RearmRestartsCount(before: Gates, after: Gates, t: Countdown, now: int, elapsed: int)
    requires !SameTimerInputs(before, after) && TimerArmed(after)
    ensures Tick(Rearm(before, after, t, now), now + elapsed).leave <==> LeaveAt(after.durationLimitMs.value, elapsed)
  {
  }

  /** A timed group call that dips to two members and comes back is timed
      afresh: at the first arming's deadline the user is not made to leave,
      and the new deadline is a full limit after the return. */
  lemma GroupDipRestartsLimit(g: Gates, start: int, dipAt: int, backAt: int)
    requires g.isGroup && g.unlimitedOneOnOne && TimerArmed(g)
    requires start < dipAt < backAt
    ensures var g1 := MembersTick(g, true, 2);
      var t1 := Rearm(g, g1, Counting(start, g.durationLimitMs.value), dipAt);
      var g2 := MembersTick(g1, true, 3);
      var t2 := Rearm(g1, g2, t1, backAt);
      && t1 == Idle
      && t2 == Counting(backAt, g.durationLimitMs.value)
      && !Tick(t2, start + g.durationLimitMs.value).leave
      && Tick(t2, backAt + g.durationLimitMs.value).leave
  {
  }

  /** Loading the same plan again sets the same values, so the effect does
      not re-run and a running count keeps its start. */
  lemma SteadyReloadKeepsCount(g: Gates, user: Option<UserMeta>, cfg: Result<PlanConfig>, t: Countdown, now: int)
    ensures var g1 := LoadLimits(g, user, cfg);
      Rearm(g1, LoadLimits(g1, user, cfg), t, now) == t
  {
  }

  // ----- chat, unread counter and raised hands -----

  datatype Message = Message(id: string, userId: string, name: string, text: string, ts: int)

  datatype Hand = Hand(name: string, ts: int)

  datatype Chat = Chat(messages: seq<Message>, unread: nat, showChat: bool, hands: map<string, Hand>)

  function InitialChat(): Chat {
    Chat([], 0, false, map[])
  }

  /** A broadcast message arrives: appended in order, counted as unread while
      the chat panel is hidden. */
  function Receive(c: Chat, msg: Message): (c': Chat)
    ensures c'.messages == c.messages + [msg]
    ensures c'.unread == if c.showChat then c.unread else c.unread + 1
    ensures c'.showChat == c.showChat && c'.hands == c.hands
  {
    c.(messages := c.messages + [msg], unread := if c.showChat then c.unread else c.unread + 1)
  }

  /** The chat button toggles the panel; opening it clears the unread count. */
  function ToggleChat(c: Chat): (c': Chat)
    ensures c'.showChat == !c.showChat
    ensures !c.showChat ==> c'.unread == 0
    ensures c.showChat ==> c'.unread == c.unread
    ensures c'.messages == c.messages && c'.hands == c.hands
  {
    c.(showChat := !c.showChat, unread := if !c.showChat then 0 else c.unread)
  }

  /** A hand-raise broadcast: keyed by user id, so a repeat raise overwrites. */
  function RaiseHand(c: Chat, userId: string, name: string, ts: int): (c': Chat)
    ensures c'.hands.Keys == c.hands.Keys + {userId}
    ensures c'.hands[userId] == Hand(name, ts)
    ensures forall u :: u in c.hands && u != userId ==> c'.hands[u] == c.hands[u]
    ensures c'.messages == c.messages && c'.unread == c.unread && c'.showChat == c.showChat
  {
    c.(hands := c.hands[userId := Hand(name, ts)])
  }

  /** Events delivered to the chat panel. */
  datatype ChatEvent = Incoming(msg: Message) | Toggle | HandRaised(userId: string, name: string, ts: int)

  function Step(c: Chat, e: ChatEvent): Chat {
    match e
    case Incoming(m) => Receive(c, m)
    case Toggle => ToggleChat(c)
    case HandRaised(u, n, t) => RaiseHand(c, u, n, t)
  }

  function Run(c: Chat, es: seq<ChatEvent>): Chat
    decreases |es|
  {
    if |es| == 0 then c else Run(Step(c, es[0]), es[1..])
  }

  /** The incoming messages of an event sequence, in order. */
  function Incomings(es: seq<ChatEvent>): seq<Message>
    decreases |es|
  {
    if |es| == 0 then []
    else (if es[0].Incoming? then [es[0].msg] else []) + Incomings(es[1..])
  }

  /** The raising users of an event sequence. */
  function Raisers(es: seq<ChatEvent>): set<string>
    decreases |es|
  {
    if |es| == 0 then {}
    else (if es[0].HandRaised? then {es[0].userId} else {}) + Raisers(es[1..])
  }

  /** Whatever the interleaving of events, the message list is the previous list
      followed by every incoming message in arrival order, and the raised
      hands hold exactly one entry per raising user. */
  lemma {:induction false} RunKeepsOrderAndOneHandPerUser(c: Chat, es: seq<ChatEvent>)
    ensures Run(c, es).messages == c.messages + Incomings(es)
    ensures Run(c, es).hands.Keys == c.hands.Keys + Raisers(es)
    decreases |es|
  {
    if |es| > 0 {
      RunKeepsOrderAndOneHandPerUser(Step(c, es[0]), es[1..]);
      assert c.messages + Incomings(es) ==
        Step(c, es[0]).messages + Incomings(es[1..]);
    }
  }

  /** While the panel stays hidden every incoming message is counted. */
  lemma {:induction false} HiddenCountsEveryMessage(c: Chat, es: seq<ChatEvent>)
    requires !c.showChat
    requires forall i :: 0 <= i < |es| ==> !es[i].Toggle?
    ensures Run(c, es).unread == c.unread + |Incomings(es)|
    ensures !Run(c, es).showChat
    decreases |es|
  {
    if |es| > 0 {
      HiddenCountsEveryMessage(Step(c, es[0]), es[1..]);
    }
  }

  // ----- outgoing messages and hand raises -----

  /** The signed-in user, as far as the chat needs it. */
  datatype Sender = Sender(id: string, username: Option<string>, email: Option<string>)

  /** `username || email || 'Guest'` */
  function DisplayName(u: Sender): (n: string)
    ensures IsSet(u.username) ==> n == u.username.value
    ensures !IsSet(u.username) && IsSet(u.email) ==> n == u.email.value
    ensures !IsSet(u.username) && !IsSet(u.email) ==> n == "Guest"
    ensures |n| > 0
  {
    OrElse(u.username, OrElse(u.email, "Guest"))
  }

  /** `sendMessage`: the broadcast message, or nothing when the trimmed text is
      empty or there is no call or user. The clock is read twice: `idNow` for
      the id `${user.id}-${idNow}` and `tsNow` for the timestamp, and the two
      readings may differ. */
  function SendMessage(text: string, hasCall: bool, user: Option<Sender>, idNow: nat, tsNow: nat): (r: Option<Message>)
    ensures r.Some? <==> Trim(text) != "" && hasCall && user.Some?
    ensures r.Some? ==> (
      && r.value.text == Trim(text) && r.value.userId == user.value.id
      && r.value.name == DisplayName(user.value) && r.value.ts == tsNow
      && r.value.id == user.value.id + "-" + NatToString(idNow))
  {
    var t := Trim(text);
    if t == "" || !hasCall || user.None? then None
    else Some(Message(user.value.id + "-" + NatToString(idNow), user.value.id, DisplayName(user.value), t, tsNow))
  }

  /** Text made only of white space is never sent. */
  lemma BlankNotSent(text: string, hasCall: bool, user: Option<Sender>, idNow: nat, tsNow: nat)
    requires forall i :: 0 <= i < |text| ==> IsTrimmable(text[i])
    ensures SendMessage(text, hasCall, user, idNow, tsNow).None?
  {
    TrimEmptyIff(text);
  }

  datatype HandPayload = HandPayload(userId: string, name: string, ts: int)

  /** `raiseHand`: the broadcast payload, or nothing without a call or user. */
  function RaiseHandPayload(hasCall: bool, user: Option<Sender>, now: int): (r: Option<HandPayload>)
    ensures r.Some? <==> hasCall && user.Some?
    ensures r.Some? ==> r.value == HandPayload(user.value.id, DisplayName(user.value), now)
  {
    if !hasCall || user.None? then None else Some(HandPayload(user.value.id, DisplayName(user.value), now))
  }

  // ----- network quality sampling -----

  datatype QualitySample = QualitySample(meetingId: string, rttMs: Option<real>, downlinkMbps: Option<real>, jitterMs: Option<real>)

  function Abs(x: real): real {
    if x < 0.0 then -x else x
  }

  /** Jitter is the change of round-trip time since the previous sample, known
      only when both samples have one. */
  function Jitter(prevRtt: Option<real>, rtt: Option<real>): (j: Option<real>)
    ensures j.Some? <==> prevRtt.Some? && rtt.Some?
    ensures j.Some? ==> j.value >= 0.0 && (j.value == rtt.value - prevRtt.value || j.value == prevRtt.value - rtt.value)
  {
    if prevRtt.Some? && rtt.Some? then Some(Abs(rtt.value - prevRtt.value)) else None
  }

  /** One 10-second sample: the payload posted and the remembered round-trip
      time, which only a present reading replaces. */
  function Sample(callId: string, prevRtt: Option<real>, rtt: Option<real>, downlink: Option<real>): (r: (QualitySample, Option<real>))
    ensures r.0.meetingId == callId && r.0.rttMs == rtt && r.0.downlinkMbps == downlink
    ensures r.0.jitterMs == Jitter(prevRtt, rtt)
    ensures rtt.Some? ==> r.1 == rtt
    ensures rtt.None? ==> r.1 == prevRtt
  {
    (QualitySample(callId, rtt, downlink, Jitter(prevRtt, rtt)), if rtt.Some? then rtt else prevRtt)
  }
}

=== FILE: meeting_routes.dfy ===
/** The meeting write routes: `POST /api/meetings/create` (video call plus
    table row), `POST /api/meetings/create-db` (table row only) and
    `POST /api/meetings/quality` (a network-quality sample). The caller, the
    request body, the generated id, the clock and the video-service result are
    inputs; the writes are returned with the response. */
module MeetingRoutes {
  import opened Basics
  import opened Accounts
  import opened Meetings

  // ----- the user table and its upsert -----

  datatype UserRow = UserRow(id: string, email: string, username: Option<string>)

  /** `user.upsert` with an empty update: an existing row stays as it is. */
  function UpsertUser(users: map<string, UserRow>, u: AuthUser): (r: map<string, UserRow>)
    ensures u.id in users ==> r == users
    ensures u.id !in users ==> (
      && r.Keys == users.Keys + {u.id}
      && r[u.id] == UserRow(u.id, u.email.GetOr(""), if IsSet(u.meta.username) then u.meta.username else None))
    ensures forall k :: k in users ==> k in r && r[k] == users[k]
  {
    if u.id in users then users
    else users[u.id := UserRow(u.id, u.email.GetOr(""), if IsSet(u.meta.username) then u.meta.username else None)]
  }

  lemma UpsertIdempotent(users: map<string, UserRow>, u: AuthUser)
    ensures UpsertUser(UpsertUser(users, u), u) == UpsertUser(users, u)
  {
  }

  // ----- placeholder credentials -----

  predicate IsLineTerminator(c: char) {
    c == '\n' || c == '\r' || c == '\U{2028}' || c == '\U{2029}'
  }

  /** "your" at `i` and `word` at `j`, case-insensitively, with no line
      terminator between them: one match of `/your.*word/i`. */
  predicate PlaceholderAt(s: string, word: string, i: nat, j: nat)
    requires i + 4 <= j && j + |word| <= |s|
  {
    && Lower(s[i..i + 4]) == "your"
    && Lower(s[j..j + |word|]) == word
    && forall k :: i + 4 <= k < j ==> !IsLineTerminator(s[k])
  }

  /** `/your.*word/i.test(s)` for a lower-case `word`. */
  predicate LooksPlaceholder(s: string, word: string) {
    exists i: nat, j: nat :: i + 4 <= j && j + |word| <= |s| && PlaceholderAt(s, word, i, j)
  }

  /** The video-service credentials are usable: both non-empty after trimming
      and neither shaped like a template placeholder. */
  predicate CredentialsUsable(apiKey: Option<string>, apiSecret: Option<string>) {
    var key := Trim(apiKey.GetOr(""));
    var secret := Trim(apiSecret.GetOr(""));
    key != "" && secret != "" && !LooksPlaceholder(key, "key") && !LooksPlaceholder(secret, "secret")
  }

  /** The template value 'your_stream_api_key' is refused. */
  lemma TemplateKeyRefused(apiSecret: Option<string>)
    ensures !CredentialsUsable(Some("your_stream_api_key"), apiSecret)
  {
    var s := "your_stream_api_key";
    assert !IsTrimmable(s[0]) && !IsTrimmable(s[|s| - 1]);
    TrimIdentity(s);
    TemplateKeyMatches();
  }

  lemma TemplateKeyMatches()
    ensures LooksPlaceholder("your_stream_api_key", "key")
  {
    var s := "your_stream_api_key";
    assert s[0..4] == "your" && s[16..19] == "key";
    LowerKeepsLowerCase("your");
    LowerKeepsLowerCase("key");
    assert forall k :: 4 <= k < 16 ==> !IsLineTerminator(s[k]);
    assert PlaceholderAt(s, "key", 0, 16);
  }

  lemma LowerKeepsLowerCase(t: string)
    requires forall k :: 0 <= k < |t| ==> !('A' <= t[k] <= 'Z')
    ensures Lower(t) == t
  {
  }

  /** A key with no 'y' cannot look like a placeholder. */
  lemma NoYNoPlaceholder(s: string, word: string)
    requires forall k :: 0 <= k < |s| ==> s[k] != 'y' && s[k] != 'Y'
    ensures !LooksPlaceholder(s, word)
  {
    forall i: nat, j: nat | i + 4 <= j && j + |word| <= |s|
      ensures !PlaceholderAt(s, word, i, j)
    {
      assert Lower(s[i..i + 4])[0] == LowerChar(s[i]) != 'y';
    }
  }

  // ----- POST /api/meetings/create -----

  const DefaultBaseUrl := "http://localhost:3000"

  /** The JSON body; a `None` field was absent, or falsy for a string. */
  datatype CreateBody = Unparseable | CreateBody(description: Option<string>, startsAt: Option<int>, instant: bool)

  /** `!startsAt` on a parsed body: absent, or the falsy number 0. An empty
      string arrives as `None`. */
  predicate StartMissing(startsAt: Option<int>) {
    startsAt.None? || startsAt.value == 0
  }

  /** `startsAt ? new Date(startsAt) : new Date()` */
  function StartOrNow(startsAt: Option<int>, now: int): (t: int)
    ensures StartMissing(startsAt) ==> t == now
    ensures !StartMissing(startsAt) ==> t == startsAt.value
  {
    if StartMissing(startsAt) then now else startsAt.value
  }

  /** The video call requested from the service. */
  datatype VideoCall = VideoCall(id: string, startsAt: int, description: string)

  datatype CreateResponse =
    | Created(id: string, startsAt: int, title: string, meetingLink: string)
    | CreateError(error: string)

  datatype CreateOutcome = CreateOutcome(
    status: int,
    body: CreateResponse,
    call: Option<VideoCall>,
    users: map<string, UserRow>,
    db: Db)

  /** `description || (instant ? 'Instant Meeting' : 'Scheduled Meeting')` */
  function MeetingTitle(description: Option<string>, instant: bool): (t: string)
    ensures IsSet(description) ==> t == description.value
    ensures !IsSet(description) ==> t == if instant then "Instant Meeting" else "Scheduled Meeting"
    ensures t != ""
  {
    OrElse(description, if instant then "Instant Meeting" else "Scheduled Meeting")
  }

  /** The route. `videoError` is the video service's failure message, if it
      failed (an empty message reads as the route's default). */
  function PostCreate(apiKey: Option<string>, apiSecret: Option<string>, baseUrl: Option<string>,
    user: Option<AuthUser>, body: CreateBody, id: string, now: int,
    videoError: Option<string>, users: map<string, UserRow>, db: Db): (o: CreateOutcome)
    ensures !CredentialsUsable(apiKey, apiSecret) ==> o == CreateOutcome(500, CreateError("Missing Stream config"), None, users, db)
    ensures CredentialsUsable(apiKey, apiSecret) && user.None? ==>
      o == CreateOutcome(401, CreateError("User not authenticated"), None, users, db)
    ensures CredentialsUsable(apiKey, apiSecret) && user.Some? && body.Unparseable? ==>
      o == CreateOutcome(500, CreateError("Failed to create meeting"), None, users, db)
    ensures CredentialsUsable(apiKey, apiSecret) && user.Some? && body.CreateBody? && videoError.Some? ==>
      o == CreateOutcome(500, CreateError(OrElse(videoError, "Failed to create meeting")), None, users, db)
    ensures CredentialsUsable(apiKey, apiSecret) && user.Some? && body.CreateBody? && videoError.None? && IdTaken(db, id) ==>
      o.status == 500 && o.body == CreateError("Failed to create meeting") && o.db == db && o.users == UpsertUser(users, user.value)
    ensures CredentialsUsable(apiKey, apiSecret) && user.Some? && body.CreateBody? && videoError.None? && !IdTaken(db, id) ==>
      o.status == 200
    ensures o.status == 200 <==> o.body.Created?
    ensures o.status == 200 ==> (
      && user.Some? && body.CreateBody? && o.call.Some?
      && var start := StartOrNow(body.startsAt, now);
      var title := MeetingTitle(body.description, body.instant);
      && o.body == Created(id, start, title, OrElse(baseUrl, DefaultBaseUrl) + "/meeting/" + id)
      && o.call.value == VideoCall(id, start, title)
      && o.users == UpsertUser(users, user.value)
      && o.db == db + [Meeting(id, title, start, id, user.value.id, None)])
    ensures o.db != db ==> o.status == 200
  {
    if !CredentialsUsable(apiKey, apiSecret) then CreateOutcome(500, CreateError("Missing Stream config"), None, users, db)
    else if user.None? then CreateOutcome(401, CreateError("User not authenticated"), None, users, db)
    else if body.Unparseable? then CreateOutcome(500, CreateError("Failed to create meeting"), None, users, db)
    else
      var start := StartOrNow(body.startsAt, now);
      var title := MeetingTitle(body.description, body.instant);
      var call := VideoCall(id, start, title);
      if videoError.Some? then CreateOutcome(500, CreateError(OrElse(videoError, "Failed to create meeting")), None, users, db)
      else
        var users' := UpsertUser(users, user.value);
        if IdTaken(db, id) then CreateOutcome(500, CreateError("Failed to create meeting"), Some(call), users', db)
        else CreateOutcome(200, Created(id, start, title, OrElse(baseUrl, DefaultBaseUrl) + "/meeting/" + id),
          Some(call), users', db + [Meeting(id, title, start, id, user.value.id, None)])
  }

  /** The row the route writes is the caller's and is found by
      `deleteStreamCall` as their own, so its creator may later delete it. */
  lemma CreatedRowDeletableByCreator(apiKey: Option<string>, apiSecret: Option<string>, baseUrl: Option<string>,
    user: Option<AuthUser>, body: CreateBody, id: string, now: int,
    videoError: Option<string>, users: map<string, UserRow>, db: Db)
    requires PostCreate(apiKey, apiSecret, baseUrl, user, body, id, now, videoError, users, db).status == 200
    requires forall k :: 0 <= k < |db| ==> db[k].streamCallId != id
    ensures DeleteStreamCall(Some(user.value.id), true, id,
      PostCreate(apiKey, apiSecret, baseUrl, user, body, id, now, videoError, users, db).db).Ok?
  {
    var db' := PostCreate(apiKey, apiSecret, baseUrl, user, body, id, now, videoError, users, db).db;
    assert db'[|db|].streamCallId == id;
    var k := FirstOfCall(db', id).value;
    assert k == |db|;
  }

  /** The home page's request leads to the same title everywhere: the title the
      route answers, names the video call and stores is the description the
      page sent. */
  lemma TitleFromPageRequest(apiKey: Option<string>, apiSecret: Option<string>, baseUrl: Option<string>,
    user: Option<AuthUser>, description: string, startsAt: int, instant: bool, id: string, now: int,
    users: map<string, UserRow>, db: Db)
    requires description != ""
    requires PostCreate(apiKey, apiSecret, baseUrl, user, CreateBody(Some(description), Some(startsAt), instant), id, now, None, users, db).status == 200
    ensures var o := PostCreate(apiKey, apiSecret, baseUrl, user, CreateBody(Some(description), Some(startsAt), instant), id, now, None, users, db);
      o.body.title == description && o.call.value.description == description && o.db[|db|].title == description
  {
  }

  // ----- POST /api/meetings/create-db -----

  datatype RowBody = RowUnparseable | RowBody(id: Option<string>, title: Option<string>, startsAt: Option<int>, streamCallId: Option<string>)

  datatype RowOutcome = RowOutcome(status: int, error: Option<string>, users: map<string, UserRow>, db: Db)

  function PostCreateDb(user: Option<AuthUser>, body: RowBody, users: map<string, UserRow>, db: Db): (o: RowOutcome)
    ensures user.None? ==> o == RowOutcome(401, Some("User not authenticated"), users, db)
    ensures user.Some? && body.RowBody? && (!IsSet(body.id) || StartMissing(body.startsAt) || !IsSet(body.streamCallId)) ==>
      o == RowOutcome(400, Some("Missing id/startsAt/streamCallId"), users, db)
    ensures user.Some? && body.RowUnparseable? ==> o == RowOutcome(500, Some("Failed to write meeting to DB"), users, db)
    ensures user.Some? && body.RowBody? && IsSet(body.id) && !StartMissing(body.startsAt) && IsSet(body.streamCallId) ==>
      (o.status == 200 <==> !IdTaken(db, body.id.value))
    ensures o.status == 200 <==> o.error.None?
    ensures o.status == 200 ==> (
      && user.Some? && body.RowBody? && !IdTaken(db, body.id.value)
      && o.db == db + [Meeting(body.id.value, OrElse(body.title, "Meeting"), body.startsAt.value,
           body.streamCallId.value, user.value.id, None)]
      && o.users == UpsertUser(users, user.value))
    ensures o.status != 200 ==> o.db == db
    ensures o.status == 500 ==> o.error == Some("Failed to write meeting to DB")
  {
    if user.None? then RowOutcome(401, Some("User not authenticated"), users, db)
    else if body.RowUnparseable? then RowOutcome(500, Some("Failed to write meeting to DB"), users, db)
    else if !IsSet(body.id) || StartMissing(body.startsAt) || !IsSet(body.streamCallId) then
      RowOutcome(400, Some("Missing id/startsAt/streamCallId"), users, db)
    else
      var users' := UpsertUser(users, user.value);
      if IdTaken(db, body.id.value) then RowOutcome(500, Some("Failed to write meeting to DB"), users', db)
      else RowOutcome(200, None, users',
        db + [Meeting(body.id.value, OrElse(body.title, "Meeting"), body.startsAt.value, body.streamCallId.value, user.value.id, None)])
  }

  /** An insert that fails on a taken id still leaves the user row upserted
      before it. */
  lemma FailedInsertKeepsUpsert(user: AuthUser, body: RowBody, users: map<string, UserRow>, db: Db)
    requires body.RowBody? && IsSet(body.id) && !StartMissing(body.startsAt) && IsSet(body.streamCallId)
    requires IdTaken(db, body.id.value)
    ensures var o := PostCreateDb(Some(user), body, users, db);
      o.status == 500 && o.db == db && user.id in o.users
  {
  }

  /** The route and the server action write the same row for the same inputs,
      except that the route refuses a start of 0, which the action accepts. */
  lemma CreateDbAgreesWithAction(user: AuthUser, id: string, title: string, startsAt: int, streamCallId: string,
    users: map<string, UserRow>, db: Db)
    requires id != "" && title != "" && streamCallId != ""
    ensures var o := PostCreateDb(Some(user), RowBody(Some(id), Some(title), Some(startsAt), Some(streamCallId)), users, db);
      var a := CreateMeeting(Some(user.id), Some(id), "", title, startsAt, streamCallId, db);
      (o.status == 200 <==> a.Ok? && startsAt != 0) && (o.status == 200 ==> o.db == a.value)
  {
  }

  // ----- POST /api/meetings/quality -----

  /** The JSON values a payload field can hold. */
  datatype Json = JNull | JBool(b: bool) | JNum(n: real) | JStr(s: string) | JComposite

  /** JavaScript truthiness of a present field (NaN is not modelled). */
  predicate JsonTruthy(v: Json) {
    match v
    case JNull => false
    case JBool(b) => b
    case JNum(n) => n != 0.0
    case JStr(s) => s != ""
    case JComposite => true
  }

  /** The request body: unparseable, an object, or any other JSON value (whose
      fields all read as absent). */
  datatype QualityPayload = QUnparseable | QObject(fields: map<string, Json>) | QOther

  datatype QualityRow = QualityRow(meetingId: Json, rttMs: Option<real>, downlinkMbps: Option<real>, jitterMs: Option<real>)

  datatype QualityOutcome = QualityOutcome(status: int, error: Option<string>, rows: seq<QualityRow>)

  function Field(p: QualityPayload, k: string): Option<Json> {
    if p.QObject? && k in p.fields then Some(p.fields[k]) else None
  }

  /** A field kept only when it is a number. */
  function NumberOrNull(v: Option<Json>): (r: Option<real>)
    ensures r.Some? <==> v.Some? && v.value.JNum?
    ensures r.Some? ==> r.value == v.value.n
  {
    if v.Some? && v.value.JNum? then Some(v.value.n) else None
  }

  /** The route; `stored` says whether the table accepted the row. Its failure
      is swallowed. */
  function PostQuality(p: QualityPayload, stored: bool, rows: seq<QualityRow>): (o: QualityOutcome)
    ensures p.QUnparseable? ==> o == QualityOutcome(400, Some("Invalid payload"), rows)
    ensures !p.QUnparseable? && (Field(p, "meetingId").None? || !JsonTruthy(Field(p, "meetingId").value)) ==>
      o == QualityOutcome(400, Some("Missing meetingId"), rows)
    ensures o.status == 200 <==> !p.QUnparseable? && Field(p, "meetingId").Some? && JsonTruthy(Field(p, "meetingId").value)
    ensures o.status == 200 ==> o.error.None?
    ensures o.status == 200 && stored ==> o.rows == rows + [QualityRow(Field(p, "meetingId").value,
      NumberOrNull(Field(p, "rttMs")), NumberOrNull(Field(p, "downlinkMbps")), NumberOrNull(Field(p, "jitterMs")))]
    ensures !stored || o.status != 200 ==> o.rows == rows
  {
    if p.QUnparseable? then QualityOutcome(400, Some("Invalid payload"), rows)
    else
      var id := Field(p, "meetingId");
      if id.None? || !JsonTruthy(id.value) then QualityOutcome(400, Some("Missing meetingId"), rows)
      else if !stored then QualityOutcome(200, None, rows)
      else QualityOutcome(200, None, rows + [QualityRow(id.value,
        NumberOrNull(Field(p, "rttMs")), NumberOrNull(Field(p, "downlinkMbps")), NumberOrNull(Field(p, "jitterMs")))])
  }

  /** A string where a number is expected is stored as null, not rejected. */
  lemma NonNumericStoredAsNull(meetingId: string, rows: seq<QualityRow>)
    requires meetingId != ""
    ensures var o := PostQuality(QObject(map["meetingId" := JStr(meetingId), "rttMs" := JStr("12")]), true, rows);
      o.status == 200 && o.rows[|rows|].rttMs.None?
  {
  }
}

=== FILE: meeting_setup.dfy ===
/** The pre-join screen of `components/MeetingSetup.tsx`: which screen is shown
    for a call snapshot and viewer, and the device clean-up on unmount. The call
    state hooks, the clock and the media-device probe are inputs. */
module MeetingSetup {
  import opened Basics

  /** What the pre-join component reads. `creatorId` is the id of
      `call.state.createdBy` when there is one; `mediaAccess` is `None` until
      the probe has run. */
  datatype SetupInput = SetupInput(
    startsAt: Option<int>,
    endedAt: Option<int>,
    participantCount: nat,
    creatorId: Option<string>,
    userId: Option<string>,
    mediaAccess: Option<bool>,
    now: int)

  datatype Screen = Waiting(scheduledFor: int) | CallEnded | DeviceError | Setup

  const OutsideCall := "useStreamCall must be used within a StreamCall component."

  /** The viewer created the call. */
  predicate IsHost(s: SetupInput) {
    s.creatorId.Some? && s.userId == s.creatorId
  }

  /** The scheduled start is still in the future. */
  predicate CallTimeNotArrived(s: SetupInput) {
    s.startsAt.Some? && s.startsAt.value > s.now
  }

  /** The screen, checked in the component's order: waiting for the host, call
      ended, device error, set-up. Without a call or a client the component
      throws. */
  function SelectScreen(hasCall: bool, hasClient: bool, s: SetupInput): (r: Result<Screen>)
    ensures !hasCall || !hasClient ==> r == Err(OutsideCall)
    ensures hasCall && hasClient ==> r.Ok?
    ensures r.Ok? ==> (r.value.Waiting? <==> CallTimeNotArrived(s) && !IsHost(s) && s.participantCount == 0)
    ensures r.Ok? && r.value.Waiting? ==> r.value.scheduledFor == s.startsAt.value
    ensures r.Ok? ==> (r.value == CallEnded <==> !r.value.Waiting? && s.endedAt.Some?)
    ensures r.Ok? ==> (r.value == DeviceError <==> !r.value.Waiting? && s.endedAt.None? && s.mediaAccess == Some(false))
  {
    if !hasCall || !hasClient then Err(OutsideCall)
    else if CallTimeNotArrived(s) && !IsHost(s) && s.participantCount == 0 then Ok(Waiting(s.startsAt.value))
    else if s.endedAt.Some? then Ok(CallEnded)
    else if s.mediaAccess == Some(false) then Ok(DeviceError)
    else Ok(Setup)
  }

  /** The host is never made to wait, whatever the time or the room. */
  lemma HostNeverWaits(s: SetupInput)
    requires IsHost(s)
    ensures !SelectScreen(true, true, s).value.Waiting?
  {
  }

  /** The waiting check comes first: a guest early for an empty call waits
      even when the call has already ended. */
  lemma WaitingBeatsEnded(s: SetupInput)
    requires CallTimeNotArrived(s) && !IsHost(s) && s.participantCount == 0 && s.endedAt.Some?
    ensures SelectScreen(true, true, s).value.Waiting?
  {
  }

  /** A signed-out viewer is never the host, even of a call whose creator is
      unknown. */
  lemma SignedOutNeverHost(s: SetupInput)
    requires s.userId.None?
    ensures !IsHost(s)
  {
  }

  /** The set-up screen with its join button is reached exactly when no earlier
      screen applies. */
  lemma SetupReachable(s: SetupInput)
    ensures SelectScreen(true, true, s).value == Setup <==>
      !(CallTimeNotArrived(s) && !IsHost(s) && s.participantCount == 0)
      && s.endedAt.None? && s.mediaAccess != Some(false)
  {
  }

  // ----- devices -----

  /** What the device effect asks of camera and microphone: nothing while
      access is denied, otherwise off when "join with mic and camera off" is
      ticked and on when it is not. */
  function DeviceRequest(mediaAccess: Option<bool>, micCamOff: bool): (r: Option<bool>)
    ensures r.None? <==> mediaAccess == Some(false)
    ensures r.Some? ==> (r.value <==> !micCamOff)
  {
    if mediaAccess == Some(false) then None else Some(!micCamOff)
  }

  /** The component's lifecycle state that matters for clean-up. */
  datatype Lifecycle = Lifecycle(isJoining: bool, setupComplete: bool)

  function Join(l: Lifecycle): (l': Lifecycle)
    ensures l'.isJoining && l'.setupComplete
  {
    Lifecycle(true, true)
  }

  /** On unmount the devices are switched off unless the user is joining. */
  predicate UnmountDisablesDevices(l: Lifecycle) {
    !l.isJoining
  }

  /** Leaving through the join button keeps the devices as they are. */
  lemma JoinKeepsDevices(l: Lifecycle)
    ensures !UnmountDisablesDevices(Join(l))
    ensures UnmountDisablesDevices(Lifecycle(false, l.setupComplete))
  {
  }
}

=== FILE: meeting_type_list.dfy ===
/** The home-page rules of `components/MeetingTypeList.tsx`: the plan-derived
    feature flags (with their fallback when the catalog cannot be read), the
    recordings gate and the guards and defaults of `createMeetingHandler`.
    The catalog read, the clock and the create response are inputs. */
module MeetingTypeList {
  import opened Basics
  import opened PlanCatalog
  import opened Accounts

  /** The feature flags kept by the component; `None` until the catalog read
      finishes. */
  datatype Features = Features(recordingsEnabled: bool, streamingEnabled: bool, unlimitedOneOnOne: bool)

  /** The flags loaded for `plan`: the catalog's, or when the read throws,
      every paid feature for a paid plan and the one-on-one exemption. */
  function LoadFeatures(cfg: Result<PlanConfig>, plan: Plan): (f: Features)
    ensures cfg.Ok? ==>
      var lim := LimitsOf(cfg.value, plan);
      f == Features(lim.recordingsEnabled, lim.streamingEnabled, lim.unlimitedOneOnOne)
    ensures cfg.Err? ==>
      (f.recordingsEnabled <==> plan != Free) && (f.streamingEnabled <==> plan != Free) && f.unlimitedOneOnOne
  {
    match cfg
    case Ok(c) =>
      var lim := LimitsOf(c, plan);
      Features(lim.recordingsEnabled, lim.streamingEnabled, lim.unlimitedOneOnOne)
    case Err(_) => Features(plan != Free, plan != Free, true)
  }

  /** The plan of an optional signed-in user, free when there is none. */
  function UserPlan(user: Option<UserMeta>): (p: Plan)
    ensures user.Some? ==> p == PlanOrFree(user.value)
    ensures user.None? ==> p == Free
  {
    if user.Some? then PlanOrFree(user.value) else Free
  }

  /** The subscription flag of an optional user, false when there is none. */
  predicate UserActive(user: Option<UserMeta>) {
    user.Some? && SubscriptionActive(user.value)
  }

  /** Where the "View Recordings" card leads. */
  function RecordingsDestination(active: bool, config: Option<Features>): (path: string)
    ensures path == "/recordings" <==> active && config.Some? && config.value.recordingsEnabled
    ensures path != "/recordings" ==> path == "/pricing"
  {
    if !active || config.None? || !config.value.recordingsEnabled then "/pricing" else "/recordings"
  }

  /** The fallback flags agree with the default catalog on recordings and
      streaming for every plan, so a failed read changes no gate that the
      defaults would decide. */
  lemma FallbackMatchesDefaults(plan: Plan)
    ensures LoadFeatures(Err(""), plan) == LoadFeatures(Ok(DefaultPlanConfig()), plan)
  {
  }

  /** A user without an active subscription never reaches the recordings page,
      whatever the catalog says, and neither does anyone before it loads. */
  lemma RecordingsNeedActive(user: Option<UserMeta>, config: Option<Features>)
    requires !UserActive(user) || config.None?
    ensures RecordingsDestination(UserActive(user), config) == "/pricing"
  {
  }

  /** The free-plan hint under the date picker. */
  predicate FreePlanHint(plan: Plan) {
    plan == Free
  }

  lemma FreeHintIffFree(user: Option<UserMeta>)
    ensures FreePlanHint(UserPlan(user)) <==> user.None? || user.value.sub.plan.None? || user.value.sub.plan == Some(Free)
  {
  }

  // ----- creating a meeting -----

  /** The JSON body posted to `/api/meetings/create`. */
  datatype CreateBody = CreateBody(description: string, startsAt: int, instant: bool)

  /** The request made by `createMeetingHandler`, or none when there is no
      signed-in user or a scheduled meeting has no date. An empty description
      becomes the mode's default; an instant meeting starts now. */
  function CreateRequest(signedIn: bool, instant: bool, description: string, dateTime: Option<int>, now: int): (r: Option<CreateBody>)
    ensures r.Some? <==> signedIn && (instant || dateTime.Some?)
    ensures r.Some? ==> r.value.instant == instant
    ensures r.Some? && description != "" ==> r.value.description == description
    ensures r.Some? && description == "" ==>
      r.value.description == if instant then "Instant Meeting" else "Scheduled Meeting"
    ensures r.Some? ==> r.value.startsAt == if instant then now else dateTime.value
  {
    if !signedIn then None
    else if !instant && dateTime.None? then None
    else Some(CreateBody(
      if description != "" then description else if instant then "Instant Meeting" else "Scheduled Meeting",
      if instant then now else dateTime.value,
      instant))
  }

  /** The description sent is never empty. */
  lemma RequestDescriptionNonEmpty(signedIn: bool, instant: bool, description: string, dateTime: Option<int>, now: int)
    requires CreateRequest(signedIn, instant, description, dateTime, now).Some?
    ensures CreateRequest(signedIn, instant, description, dateTime, now).value.description != ""
  {
  }

  /** The parsed create response. */
  datatype CreateReply = CreateReply(ok: bool, id: string, error: Option<string>)

  /** What the handler does with the response. */
  datatype AfterCreate = Navigate(path: string) | Created(id: string) | Failed(message: string)

  function HandleReply(instant: bool, reply: CreateReply): (a: AfterCreate)
    ensures !reply.ok ==> a == Failed(OrElse(reply.error, "Failed to create meeting"))
    ensures reply.ok && instant ==> a == Navigate("/meeting/" + reply.id)
    ensures reply.ok && !instant ==> a == Created(reply.id)
  {
    if !reply.ok then Failed(OrElse(reply.error, "Failed to create meeting"))
    else if instant then Navigate("/meeting/" + reply.id)
    else Created(reply.id)
  }
}

=== FILE: meetings.dfy ===
/** The meeting table and the owner-checked server actions of
    `actions/meeting.actions.ts`. The table is a sequence of rows in storage
    order; a Prisma `where` is a row predicate and `deleteMany` / `updateMany`
    are a filter and a map over the sequence. The row id is the table's
    primary key, so inserting a row whose id is taken fails. */
module Meetings {
  import opened Basics

  datatype Meeting = Meeting(
    id: string,
    title: string,
    startsAt: int,
    streamCallId: string,
    createdBy: string,
    endedAt: Option<int>)

  type Db = seq<Meeting>

  const NotAuthenticated := "User not authenticated"

  /** Some row already carries `id`. */
  predicate IdTaken(db: Db, id: string) {
    exists i :: 0 <= i < |db| && db[i].id == id
  }

  /** The rows an owner-checked action addresses: the call's rows created by
      the caller. */
  predicate Addressed(m: Meeting, streamCallId: string, owner: string) {
    m.streamCallId == streamCallId && m.createdBy == owner
  }

  // ----- createMeeting -----

  /** `createMeeting`: appends one row owned by the caller. Without an id the
      store generates one (`freshId`). A taken id is the insert failure the
      action reports as 'Failed to create meeting'. */
  function CreateMeeting(user: Option<string>, id: Option<string>, freshId: string,
    title: string, startsAt: int, streamCallId: string, db: Db): (r: Result<Db>)
    ensures user.None? ==> r == Err(NotAuthenticated)
    ensures user.Some? && IdTaken(db, id.GetOr(freshId)) ==> r == Err("Failed to create meeting")
    ensures r.Ok? <==> user.Some? && !IdTaken(db, id.GetOr(freshId))
    ensures r.Ok? ==> (
      && |r.value| == |db| + 1 && r.value[..|db|] == db
      && r.value[|db|] == Meeting(id.GetOr(freshId), title, startsAt, streamCallId, user.value, None))
  {
    if user.None? then Err(NotAuthenticated)
    else if IdTaken(db, id.GetOr(freshId)) then Err("Failed to create meeting")
    else Ok(db + [Meeting(id.GetOr(freshId), title, startsAt, streamCallId, user.value, None)])
  }

  // ----- deleteMeeting -----

  /** The rows left by `deleteMany` on the addressed rows, in storage order. */
  function Remove(db: Db, streamCallId: string, owner: string): (r: Db)
    ensures |r| <= |db|
    decreases |db|
  {
    if |db| == 0 then []
    else
      var rest := Remove(db[1..], streamCallId, owner);
      if Addressed(db[0], streamCallId, owner) then rest else [db[0]] + rest
  }

  /** A row survives removal exactly when it is not addressed, and every
      unaddressed row keeps its multiplicity. */
  lemma {:induction false} RemoveSpec(db: Db, streamCallId: string, owner: string, m: Meeting)
    ensures m in Remove(db, streamCallId, owner) <==> m in db && !Addressed(m, streamCallId, owner)
    ensures !Addressed(m, streamCallId, owner) ==>
      multiset(Remove(db, streamCallId, owner))[m] == multiset(db)[m]
    decreases |db|
  {
    if |db| > 0 {
      RemoveSpec(db[1..], streamCallId, owner, m);
      assert db == [db[0]] + db[1..];
      assert multiset(db) == multiset{db[0]} + multiset(db[1..]);
    }
  }

  /** `deleteMeeting`: removes exactly the caller's rows of that call. A caller
      who owns none of them removes nothing and still succeeds. `storeFails`
      is a `deleteMany` that throws; the action reports it with a fixed
      message and the table is left as it was. */
  function DeleteMeeting(user: Option<string>, storeFails: bool, streamCallId: string, db: Db): (r: Result<Db>)
    ensures user.None? ==> r == Err(NotAuthenticated)
    ensures user.Some? && storeFails ==> r == Err("Failed to delete meeting")
    ensures r.Ok? <==> user.Some? && !storeFails
    ensures r.Ok? ==> r.value == Remove(db, streamCallId, user.value)
  {
    if user.None? then Err(NotAuthenticated)
    else if storeFails then Err("Failed to delete meeting")
    else Ok(Remove(db, streamCallId, user.value))
  }

  /** Rows are only ever removed by their owner: another user's rows, and the
      caller's rows of other calls, keep their multiplicity. */
  lemma DeleteOnlyOwnRows(user: string, streamCallId: string, db: Db, m: Meeting)
    requires m.createdBy != user || m.streamCallId != streamCallId
    ensures multiset(DeleteMeeting(Some(user), false, streamCallId, db).value)[m] == multiset(db)[m]
  {
    RemoveSpec(db, streamCallId, user, m);
  }

  /** A caller who owns no row of the call leaves the table as it was. */
  lemma {:induction false} NonOwnerDeleteIsNoop(streamCallId: string, owner: string, db: Db)
    requires forall i :: 0 <= i < |db| ==> !Addressed(db[i], streamCallId, owner)
    ensures Remove(db, streamCallId, owner) == db
    decreases |db|
  {
    if |db| > 0 {
      NonOwnerDeleteIsNoop(streamCallId, owner, db[1..]);
      assert db == [db[0]] + db[1..];
    }
  }

  /** Deleting twice is deleting once. */
  lemma DeleteIdempotent(streamCallId: string, owner: string, db: Db)
    ensures Remove(Remove(db, streamCallId, owner), streamCallId, owner) == Remove(db, streamCallId, owner)
  {
    var r := Remove(db, streamCallId, owner);
    forall i | 0 <= i < |r|
      ensures !Addressed(r[i], streamCallId, owner)
    {
      RemoveSpec(db, streamCallId, owner, r[i]);
    }
    NonOwnerDeleteIsNoop(streamCallId, owner, r);
  }

  /** Removal distributes over appending rows. */
  lemma {:induction false} RemoveAppend(a: Db, b: Db, streamCallId: string, owner: string)
    ensures Remove(a + b, streamCallId, owner) == Remove(a, streamCallId, owner) + Remove(b, streamCallId, owner)
    decreases |a|
  {
    if |a| == 0 {
      assert a + b == b;
    } else {
      RemoveAppend(a[1..], b, streamCallId, owner);
      assert (a + b)[0] == a[0] && (a + b)[1..] == a[1..] + b;
      var ra := Remove(a[1..], streamCallId, owner);
      var rb := Remove(b, streamCallId, owner);
      if !Addressed(a[0], streamCallId, owner) {
        assert [a[0]] + (ra + rb) == ([a[0]] + ra) + rb;
      }
    }
  }

  /** A meeting the caller creates and then deletes leaves the table as a delete
      alone would have. */
  lemma CreateThenDelete(user: string, id: Option<string>, freshId: string,
    title: string, startsAt: int, streamCallId: string, db: Db)
    requires CreateMeeting(Some(user), id, freshId, title, startsAt, streamCallId, db).Ok?
    ensures DeleteMeeting(Some(user), false, streamCallId, CreateMeeting(Some(user), id, freshId, title, startsAt, streamCallId, db).value)
         == DeleteMeeting(Some(user), false, streamCallId, db)
  {
    var row := Meeting(id.GetOr(freshId), title, startsAt, streamCallId, user, None);
    assert CreateMeeting(Some(user), id, freshId, title, startsAt, streamCallId, db).value == db + [row];
    RemoveAppend(db, [row], streamCallId, user);
    assert [row][1..] == [];
    assert Remove([row], streamCallId, user) == Remove([], streamCallId, user) == [];
    assert Remove(db, streamCallId, user) + [] == Remove(db, streamCallId, user);
  }

  // ----- updateMeeting -----

  /** `updateMany` on the addressed rows: title and start change, nothing else. */
  function Retitle(db: Db, streamCallId: string, owner: string, title: string, startsAt: int): (r: Db)
    ensures |r| == |db|
    ensures forall i :: 0 <= i < |db| && !Addressed(db[i], streamCallId, owner) ==> r[i] == db[i]
    ensures forall i :: 0 <= i < |db| && Addressed(db[i], streamCallId, owner) ==>
      r[i] == db[i].(title := title, startsAt := startsAt)
    decreases |db|
  {
    if |db| == 0 then []
    else
      var head := if Addressed(db[0], streamCallId, owner) then db[0].(title := title, startsAt := startsAt) else db[0];
      [head] + Retitle(db[1..], streamCallId, owner, title, startsAt)
  }

  /** `updateMeeting`; `storeFails` is an `updateMany` that throws. */
  function UpdateMeeting(user: Option<string>, storeFails: bool, streamCallId: string, title: string, startsAt: int, db: Db): (r: Result<Db>)
    ensures user.None? ==> r == Err(NotAuthenticated)
    ensures user.Some? && storeFails ==> r == Err("Failed to update meeting")
    ensures r.Ok? <==> user.Some? && !storeFails
    ensures r.Ok? ==> r.value == Retitle(db, streamCallId, user.value, title, startsAt)
  {
    if user.None? then Err(NotAuthenticated)
    else if storeFails then Err("Failed to update meeting")
    else Ok(Retitle(db, streamCallId, user.value, title, startsAt))
  }

  /** An update keeps every row's identity, call, owner and end. */
  lemma UpdateKeepsIdentity(user: string, streamCallId: string, title: string, startsAt: int, db: Db)
    ensures var r := UpdateMeeting(Some(user), false, streamCallId, title, startsAt, db).value;
      && |r| == |db|
      && forall i :: 0 <= i < |db| ==>
           r[i].id == db[i].id && r[i].streamCallId == db[i].streamCallId
           && r[i].createdBy == db[i].createdBy && r[i].endedAt == db[i].endedAt
  {
  }

  /** An update touches only rows a delete by the same caller removes, so a
      delete after it leaves the same table as a delete alone. */
  lemma {:induction false} UpdateThenDelete(streamCallId: string, owner: string, title: string, startsAt: int, db: Db)
    ensures Remove(Retitle(db, streamCallId, owner, title, startsAt), streamCallId, owner) == Remove(db, streamCallId, owner)
    decreases |db|
  {
    if |db| > 0 {
      UpdateThenDelete(streamCallId, owner, title, startsAt, db[1..]);
      var r := Retitle(db, streamCallId, owner, title, startsAt);
      assert r[1..] == Retitle(db[1..], streamCallId, owner, title, startsAt);
      assert Addressed(r[0], streamCallId, owner) <==> Addressed(db[0], streamCallId, owner);
    }
  }

  // ----- deleteStreamCall -----

  /** The index of the first row of the call, as `findFirst` returns it. With
      no `orderBy` the store picks the order; the table's sequence stands for it. */
  function FirstOfCall(db: Db, streamCallId: string): (r: Option<nat>)
    ensures r.Some? ==> r.value < |db| && db[r.value].streamCallId == streamCallId
    ensures r.Some? ==> forall j :: 0 <= j < r.value ==> db[j].streamCallId != streamCallId
    ensures r.None? ==> forall j :: 0 <= j < |db| ==> db[j].streamCallId != streamCallId
    decreases |db|
  {
    if |db| == 0 then None
    else if db[0].streamCallId == streamCallId then Some(0)
    else match FirstOfCall(db[1..], streamCallId)
      case None => None
      case Some(k) => Some(k + 1)
  }

  /** `deleteStreamCall`: the call to delete at the video service, after the
      sign-in, credential and ownership checks in that order. */
  function DeleteStreamCall(user: Option<string>, credentials: bool, streamCallId: string, db: Db): (r: Result<string>)
    ensures user.None? ==> r == Err(NotAuthenticated)
    ensures user.Some? && !credentials ==> r == Err("Stream credentials missing")
    ensures r.Ok? <==> (
      && user.Some? && credentials && FirstOfCall(db, streamCallId).Some?
      && db[FirstOfCall(db, streamCallId).value].createdBy == user.value)
    ensures r.Ok? ==> r.value == streamCallId
    ensures user.Some? && credentials && r.Err? ==> r.error == "Not authorized to delete this meeting"
  {
    if user.None? then Err(NotAuthenticated)
    else if !credentials then Err("Stream credentials missing")
    else match FirstOfCall(db, streamCallId)
      case None => Err("Not authorized to delete this meeting")
      case Some(k) =>
        if db[k].createdBy != user.value then Err("Not authorized to delete this meeting")
        else Ok(streamCallId)
  }

  /** A caller allowed to delete the video call owns at least one row of it, so
      the matching `deleteMeeting` removes something. */
  lemma StreamDeleteImpliesRowDelete(user: string, streamCallId: string, db: Db)
    requires DeleteStreamCall(Some(user), true, streamCallId, db).Ok?
    ensures |DeleteMeeting(Some(user), false, streamCallId, db).value| < |db|
  {
    var k := FirstOfCall(db, streamCallId).value;
    RemoveShrinks(db, streamCallId, user, k);
  }

  lemma {:induction false} RemoveShrinks(db: Db, streamCallId: string, owner: string, k: nat)
    requires k < |db| && Addressed(db[k], streamCallId, owner)
    ensures |Remove(db, streamCallId, owner)| < |db|
    decreases |db|
  {
    if k > 0 {
      RemoveShrinks(db[1..], streamCallId, owner, k - 1);
    }
  }

  /** Only the first row of the call decides: a later row owned by the caller
      does not authorise deleting a call whose first row another user owns. */
  lemma FirstRowDecides(user: string, other: string, streamCallId: string, a: Meeting, b: Meeting)
    requires user != other
    requires a.streamCallId == streamCallId && a.createdBy == other
    requires b.streamCallId == streamCallId && b.createdBy == user
    ensures DeleteStreamCall(Some(user), true, streamCallId, [a, b]).Err?
  {
  }
}

=== FILE: middleware.dfy ===
/** The routing decision of `updateSession` in `utils/supabase/middleware.ts`:
    sign-in for protected pages, admin-only pages, and keeping signed-in users
    off the auth pages; and the `proxy.ts` matcher that decides which requests
    reach it at all. Cookie refreshing is not part of this model; the user
    (after `getUser`) is an input. */
module Middleware {
  import opened Basics

  datatype Decision = Pass | Redirect(path: string)

  /** The exact protected paths. */
  const ProtectedPaths: seq<string> := ["/upcoming", "/previous", "/recordings", "/personal-room"]

  predicate IsProtected(path: string) {
    path in ProtectedPaths || StartsWith(path, "/meeting")
  }

  /** The signed-in user's role, `None` for a signed-out request. */
  datatype Viewer = SignedOut | SignedIn(role: Option<string>)

  function Route(path: string, v: Viewer): (d: Decision)
    ensures IsProtected(path) && v.SignedOut? ==> d == Redirect("/sign-in")
    ensures !IsProtected(path) && StartsWith(path, "/admin") && (v.SignedOut? || v.role != Some("admin")) ==>
      d == Redirect("/")
    ensures v.SignedIn? && (StartsWith(path, "/sign-in") || StartsWith(path, "/sign-up")) ==> d == Redirect("/")
    ensures d == Pass <==> (
      && !(IsProtected(path) && v.SignedOut?)
      && !(StartsWith(path, "/admin") && (v.SignedOut? || v.role != Some("admin")))
      && !(v.SignedIn? && (StartsWith(path, "/sign-in") || StartsWith(path, "/sign-up"))))
  {
    if IsProtected(path) && v.SignedOut? then Redirect("/sign-in")
    else if StartsWith(path, "/admin") && (v.SignedOut? || v.role != Some("admin")) then Redirect("/")
    else if v.SignedIn? && (StartsWith(path, "/sign-in") || StartsWith(path, "/sign-up")) then Redirect("/")
    else Pass
  }

  /** A signed-out request for an admin page goes home, not to sign-in: the
      admin pages are not among the protected ones. */
  lemma AnonymousAdminGoesHome(path: string)
    requires StartsWith(path, "/admin")
    ensures Route(path, SignedOut) == Redirect("/")
  {
    assert !StartsWith(path, "/meeting") by {
      assert path[1] == 'a';
    }
  }

  /** Only an admin passes an admin page. */
  lemma AdminPagesNeedAdmin(path: string, v: Viewer)
    requires StartsWith(path, "/admin")
    ensures Route(path, v) == Pass ==> v == SignedIn(Some("admin"))
  {
  }

  /** Inside `updateSession` the meeting test is a bare prefix test: any path
      starting with '/meeting' (so '/meetings' too) sends a signed-out request
      to sign-in, once the request reaches it. */
  lemma MeetingPagesNeedSignIn(path: string)
    requires StartsWith(path, "/meeting")
    ensures Route(path, SignedOut) == Redirect("/sign-in")
  {
  }

  /** Exact matching: a sub-path of a listed page is not protected by the list. */
  lemma ProtectedListIsExact()
    ensures !IsProtected("/upcoming/x")
  {
    assert "/upcoming/x" !in ProtectedPaths;
    assert "/upcoming/x"[2] != "/meeting"[2];
  }

  // ----- the proxy matcher -----

  /** `base` itself or a path below it: what `base + '/:path*'` matches. */
  predicate UnderSegment(path: string, base: string) {
    path == base || StartsWith(path, base + "/")
  }

  /** The pages the matcher lists without a parameter. */
  const ExactMatched: seq<string> := ["/upcoming", "/previous", "/recordings", "/personal-room", "/sign-in", "/sign-up"]

  /** The requests the matcher hands to `updateSession`. */
  predicate Matched(path: string) {
    UnderSegment(path, "/admin") || UnderSegment(path, "/meeting") || path in ExactMatched
  }

  /** A matched path under '/meeting' passes the middleware's prefix test. */
  lemma UnderMeetingIsProtected(path: string)
    ensures UnderSegment(path, "/meeting") ==> IsProtected(path)
  {
    if UnderSegment(path, "/meeting") && path != "/meeting" {
      assert path[..|"/meeting"|] == (path[..|"/meeting/"|])[..|"/meeting"|];
    }
  }

  /** `proxy`: unmatched requests are not routed at all; matched ones get
      `updateSession`'s decision. */
  function Proxy(path: string, v: Viewer): (d: Decision)
    ensures !Matched(path) ==> d == Pass
    ensures v.SignedOut? && (path in ProtectedPaths || UnderSegment(path, "/meeting")) ==> d == Redirect("/sign-in")
    ensures UnderSegment(path, "/admin") ==> (d == Pass <==> v == SignedIn(Some("admin")))
    ensures v.SignedIn? && (path == "/sign-in" || path == "/sign-up") ==> d == Redirect("/")
  {
    UnderMeetingIsProtected(path);
    AdminNotProtected(path);
    if Matched(path) then Route(path, v) else Pass
  }

  /** A path under '/admin' starts with '/admin' and is not a protected page. */
  lemma AdminNotProtected(path: string)
    ensures UnderSegment(path, "/admin") ==> StartsWith(path, "/admin") && !IsProtected(path)
    ensures UnderSegment(path, "/admin") ==> !StartsWith(path, "/sign-in") && !StartsWith(path, "/sign-up")
  {
    if UnderSegment(path, "/admin") {
      if path != "/admin" {
        assert path[..|"/admin"|] == (path[..|"/admin/"|])[..|"/admin"|];
      }
      assert path[1] == 'a';
      assert "/sign-in"[1] == 's' && "/sign-up"[1] == 's';
    }
  }

  /** '/meetings' is not matched, so the prefix test never sees it and a
      signed-out request goes through. */
  lemma MeetingsPathNotGuarded()
    ensures !Matched("/meetings")
    ensures Proxy("/meetings", SignedOut) == Pass
  {
    assert "/meetings" != "/meeting";
    assert !StartsWith("/meetings", "/meeting/") by {
      assert "/meetings"[8] != "/meeting/"[8];
    }
    assert "/meetings" !in ExactMatched;
    assert !StartsWith("/meetings", "/admin/") by {
      assert "/meetings"[1] != "/admin/"[1];
    }
  }

  /** A sub-path of a listed page is neither matched nor guarded. */
  lemma UpcomingSubpathNotGuarded()
    ensures !Matched("/upcoming/x")
    ensures Proxy("/upcoming/x", SignedOut) == Pass
  {
    assert "/upcoming/x" !in ExactMatched;
    assert !StartsWith("/upcoming/x", "/meeting/") by {
      assert "/upcoming/x"[1] != "/meeting/"[1];
    }
    assert !StartsWith("/upcoming/x", "/admin/") by {
      assert "/upcoming/x"[1] != "/admin/"[1];
    }
  }
}

=== FILE: paystack_verify.dfy ===
/** `GET /api/paystack/verify?reference=…` (app/api/paystack/verify/route.ts):
    asks the provider about a payment and activates the signed-in user's
    subscription when it succeeded. The provider reply is an input; `None`
    stands for a request or JSON decoding that threw. */
module PaystackVerify {
  import opened Basics
  import opened PlanCatalog
  import opened Accounts
  import opened Billing
  import PaystackWebhook

  datatype Body = Success(plan: Plan) | Error(message: string)

  /** The response and, when the user is activated, the user's new metadata. */
  datatype Outcome = Outcome(status: int, body: Body, meta: Option<UserMeta>)

  function Get(secret: Option<string>, reference: Option<string>, user: Option<AuthUser>,
    reply: Option<VerifyReply>, now: int): (o: Outcome)
    ensures !IsSet(secret) ==> o == Outcome(500, Error("Missing PAYSTACK_SECRET_KEY"), None)
    ensures IsSet(secret) && !IsSet(reference) ==> o == Outcome(400, Error("Missing reference"), None)
    ensures IsSet(secret) && IsSet(reference) && user.None? ==> o == Outcome(401, Error("User not authenticated"), None)
    ensures o.meta.Some? <==> o.status == 200
    ensures o.meta.Some? ==> user.Some? && reply.Some? && reply.value.paymentStatus == "success"
    ensures o.meta.Some? ==> o.body == Success(VerifiedPlan(reply.value))
    ensures o.meta.Some? ==> o.meta.value == ActivationWrite(user.value.meta, VerifiedPlan(reply.value), reference.value, now)
  {
    if !IsSet(secret) then Outcome(500, Error("Missing PAYSTACK_SECRET_KEY"), None)
    else if !IsSet(reference) then Outcome(400, Error("Missing reference"), None)
    else if user.None? then Outcome(401, Error("User not authenticated"), None)
    else match reply
      case None => Outcome(500, Error("Verification error"), None)
      case Some(r) =>
        if !r.ok || !r.status then Outcome(500, Error(OrElse(r.message, "Verification failed")), None)
        else if r.paymentStatus == "success" then
          var p := VerifiedPlan(r);
          Outcome(200, Success(p), Some(ActivationWrite(user.value.meta, p, reference.value, now)))
        else Outcome(400, Error("Payment not successful"), None)
  }

  /** A provider failure, or a payment that did not succeed, writes nothing. */
  lemma FailuresWriteNothing(secret: Option<string>, reference: Option<string>, user: Option<AuthUser>,
    reply: Option<VerifyReply>, now: int)
    requires IsSet(secret) && IsSet(reference) && user.Some? && reply.Some?
    ensures !reply.value.ok || !reply.value.status ==> Get(secret, reference, user, reply, now).status == 500
    ensures reply.value.ok && reply.value.status && reply.value.paymentStatus != "success" ==>
      Get(secret, reference, user, reply, now) == Outcome(400, Error("Payment not successful"), None)
    ensures reply.value.paymentStatus != "success" ==> Get(secret, reference, user, reply, now).meta.None?
  {
  }

  /** The route and the `verifyPaystackPayment` action agree: one activates
      exactly when the other does, with the same plan and the same write. */
  lemma RouteAgreesWithAction(secret: Option<string>, reference: string, user: Option<AuthUser>,
    reply: VerifyReply, now: int)
    requires reference != ""
    ensures var o := Get(secret, Some(reference), user, Some(reply), now);
      var a := VerifyPaystackPayment(secret, user, reference, reply, now);
      (o.meta.Some? <==> a.Ok?) && (a.Ok? ==> o.meta.value == a.value.meta && o.body == Success(a.value.plan))
  {
  }

  /** For a paid plan in the metadata the verify route and the webhook write the
      same subscription for the same payment at the same time. */
  lemma AgreesWithWebhook(m: UserMeta, userPlan: Plan, reference: string, now: int)
    requires userPlan != Free
    ensures ActivationWrite(m, userPlan, reference, now)
         == PaystackWebhook.ApplyWrite(PaystackWebhook.Activated("", PaystackWebhook.FloorPlan(userPlan), reference, now), m)
  {
  }

  /** The verify route applies no free-to-pro floor: a metadata plan of free
      activates the user on free, where the webhook would write pro. */
  lemma NoFreeFloor(user: AuthUser, reference: string, now: int)
    requires reference != ""
    ensures var o := Get(Some("sk"), Some(reference), Some(user),
        Some(VerifyReply(true, true, None, "success", Some(Free))), now);
      o.meta.Some? && PlanOrFree(o.meta.value) == Free && SubscriptionActive(o.meta.value)
      && PaystackWebhook.FloorPlan(Free) == Pro
  {
  }
}

=== FILE: paystack_webhook.dfy ===
/** `POST /api/paystack/webhook` (app/api/paystack/webhook/route.ts): a signed
    payment notification becomes at most one metadata write on the user named
    in the payment metadata. The HMAC-SHA512 hex digest and the JSON parser are
    inputs (function parameters); the write is returned as data and applied by
    `ApplyWrite`. */
module PaystackWebhook {
  import opened Basics
  import opened PlanCatalog
  import opened Accounts
  import opened Billing

  datatype ChargeData = ChargeData(
    status: Option<string>,
    metadata: Option<PaymentMetadata>,
    reference: string,
    amountKobo: int)

  datatype WebhookEvent = WebhookEvent(event: string, data: Option<ChargeData>)

  /** The metadata write a delivery asks for, on user `userId`. */
  datatype MetaWrite =
    | FeePaid(userId: string, reference: string, amountKobo: int)
    | Activated(userId: string, plan: Plan, reference: string, at: int)
  {
    function Target(): string {
      match this
      case FeePaid(u, _, _) => u
      case Activated(u, _, _, _) => u
    }
  }

  function ApplyWrite(w: MetaWrite, m: UserMeta): UserMeta {
    match w
    case FeePaid(_, reference, amount) => TrialFeeWrite(m, reference, amount)
    case Activated(_, p, reference, at) => ActivationWrite(m, p, reference, at)
  }

  datatype Body = Received | Error(message: string)

  datatype Outcome = Outcome(status: int, body: Body, write: Option<MetaWrite>)

  function NoMetadata(): PaymentMetadata {
    PaymentMetadata(None, None, None, None, None)
  }

  /** `metadata.type || 'subscription'` */
  function PaymentKind(md: PaymentMetadata): string {
    OrElse(md.kind, "subscription")
  }

  /** `plan === 'free' ? 'pro' : plan` */
  function FloorPlan(p: Plan): (q: Plan)
    ensures q != Free
    ensures p != Free ==> q == p
  {
    if p == Free then Pro else p
  }

  /** The signature check passes. */
  predicate SignatureMatches(secret: string, rawBody: string, header: Option<string>, hmacHex: (string, string) -> string) {
    OrElse(header, "") == hmacHex(secret, rawBody)
  }

  /** The delivery reports a successful charge. */
  predicate IsChargeSuccess(ev: WebhookEvent) {
    ev.event == "charge.success" && ev.data.Some? && ev.data.value.status == Some("success")
  }

  /** The write a successful charge asks for, or none when the metadata lacks
      the user id or the plan. */
  function WriteFor(data: ChargeData, now: int): (w: Option<MetaWrite>)
    ensures var md := data.metadata.GetOr(NoMetadata());
      w.Some? <==> IsSet(md.userId) && md.plan.Some?
  {
    var md := data.metadata.GetOr(NoMetadata());
    if IsSet(md.userId) && md.plan.Some? then
      if PaymentKind(md) == "trial_fee" then Some(FeePaid(md.userId.value, data.reference, data.amountKobo))
      else Some(Activated(md.userId.value, FloorPlan(md.plan.value), data.reference, now))
    else None
  }

  function Post(
    secret: Option<string>, serviceEnv: bool, rawBody: string, header: Option<string>,
    hmacHex: (string, string) -> string, parse: string -> Option<WebhookEvent>, now: int): (o: Outcome)
    ensures o.write.Some? ==> o.status == 200 && o.body == Received
    ensures o.status == 401 <==> IsSet(secret) && !SignatureMatches(secret.value, rawBody, header, hmacHex)
    ensures o.status == 200 <==> o.body == Received
  {
    if !IsSet(secret) then Outcome(500, Error("Missing PAYSTACK_SECRET_KEY"), None)
    else if !SignatureMatches(secret.value, rawBody, header, hmacHex) then Outcome(401, Error("Invalid signature"), None)
    else match parse(rawBody)
      case None => Outcome(500, Error("Webhook error"), None)
      case Some(ev) =>
        if !IsChargeSuccess(ev) then Outcome(200, Received, None)
        else match WriteFor(ev.data.value, now)
          case None => Outcome(200, Received, None)
          case Some(w) =>
            if !serviceEnv then Outcome(500, Error("Missing supabase service role env"), None)
            else Outcome(200, Received, Some(w))
  }

  /** Without a secret the route answers 500 and writes nothing. */
  lemma MissingSecret(secret: Option<string>, serviceEnv: bool, rawBody: string, header: Option<string>,
    hmacHex: (string, string) -> string, parse: string -> Option<WebhookEvent>, now: int)
    requires !IsSet(secret)
    ensures Post(secret, serviceEnv, rawBody, header, hmacHex, parse, now) ==
      Outcome(500, Error("Missing PAYSTACK_SECRET_KEY"), None)
  {
  }

  /** A signature header that differs from the digest of the raw body is
      rejected with 401 before the body is parsed, and nothing is written. */
  lemma BadSignatureRejected(secret: Option<string>, serviceEnv: bool, rawBody: string, header: Option<string>,
    hmacHex: (string, string) -> string, parse: string -> Option<WebhookEvent>, now: int)
    requires IsSet(secret) && OrElse(header, "") != hmacHex(secret.value, rawBody)
    ensures Post(secret, serviceEnv, rawBody, header, hmacHex, parse, now) ==
      Outcome(401, Error("Invalid signature"), None)
  {
  }

  /** A write happens only for a correctly signed `charge.success` delivery
      whose data status is `success` and whose metadata names a user and a plan. */
  lemma WriteRequiresChargeSuccess(secret: Option<string>, serviceEnv: bool, rawBody: string, header: Option<string>,
    hmacHex: (string, string) -> string, parse: string -> Option<WebhookEvent>, now: int)
    requires Post(secret, serviceEnv, rawBody, header, hmacHex, parse, now).write.Some?
    ensures IsSet(secret) && SignatureMatches(secret.value, rawBody, header, hmacHex) && serviceEnv
    ensures parse(rawBody).Some? && IsChargeSuccess(parse(rawBody).value)
    ensures var md := parse(rawBody).value.data.value.metadata.GetOr(NoMetadata());
      IsSet(md.userId) && md.plan.Some?
      && Post(secret, serviceEnv, rawBody, header, hmacHex, parse, now).write.value.Target() == md.userId.value
  {
  }

  /** A correctly signed `charge.success` delivery whose metadata names a user
      and a plan is acknowledged and asks for exactly the write its payment
      type calls for, provided the service configuration is present. */
  lemma ValidChargeWritten(secret: Option<string>, serviceEnv: bool, rawBody: string, header: Option<string>,
    hmacHex: (string, string) -> string, parse: string -> Option<WebhookEvent>, now: int)
    requires IsSet(secret) && SignatureMatches(secret.value, rawBody, header, hmacHex) && serviceEnv
    requires parse(rawBody).Some? && IsChargeSuccess(parse(rawBody).value)
    requires WriteFor(parse(rawBody).value.data.value, now).Some?
    ensures Post(secret, serviceEnv, rawBody, header, hmacHex, parse, now) ==
      Outcome(200, Received, WriteFor(parse(rawBody).value.data.value, now))
  {
  }

  /** A correctly signed body that does not parse lands in the route's catch:
      500 with the generic message, and nothing is written. */
  lemma UnparsableBodyFails(secret: Option<string>, serviceEnv: bool, rawBody: string, header: Option<string>,
    hmacHex: (string, string) -> string, parse: string -> Option<WebhookEvent>, now: int)
    requires IsSet(secret) && SignatureMatches(secret.value, rawBody, header, hmacHex)
    requires parse(rawBody).None?
    ensures Post(secret, serviceEnv, rawBody, header, hmacHex, parse, now) == Outcome(500, Error("Webhook error"), None)
  {
  }

  /** A charge that would be written, arriving while the service configuration
      is missing, is answered 500 and nothing is written. */
  lemma MissingServiceEnvFails(secret: Option<string>, rawBody: string, header: Option<string>,
    hmacHex: (string, string) -> string, parse: string -> Option<WebhookEvent>, now: int)
    requires IsSet(secret) && SignatureMatches(secret.value, rawBody, header, hmacHex)
    requires parse(rawBody).Some? && IsChargeSuccess(parse(rawBody).value)
    requires WriteFor(parse(rawBody).value.data.value, now).Some?
    ensures Post(secret, false, rawBody, header, hmacHex, parse, now) ==
      Outcome(500, Error("Missing supabase service role env"), None)
  {
  }

  /** Every other correctly signed, parseable delivery is acknowledged with
      `{received: true}` and writes nothing. */
  lemma OtherEventsAcknowledged(secret: Option<string>, serviceEnv: bool, rawBody: string, header: Option<string>,
    hmacHex: (string, string) -> string, parse: string -> Option<WebhookEvent>, now: int)
    requires IsSet(secret) && SignatureMatches(secret.value, rawBody, header, hmacHex)
    requires parse(rawBody).Some? && !IsChargeSuccess(parse(rawBody).value)
    ensures Post(secret, serviceEnv, rawBody, header, hmacHex, parse, now) == Outcome(200, Received, None)
  {
  }

  /** A charge whose metadata lacks the user id or the plan is acknowledged
      without a write. */
  lemma IncompleteMetadataAcknowledged(secret: Option<string>, serviceEnv: bool, rawBody: string, header: Option<string>,
    hmacHex: (string, string) -> string, parse: string -> Option<WebhookEvent>, now: int)
    requires IsSet(secret) && SignatureMatches(secret.value, rawBody, header, hmacHex)
    requires parse(rawBody).Some? && IsChargeSuccess(parse(rawBody).value)
    requires var md := parse(rawBody).value.data.value.metadata.GetOr(NoMetadata());
      !IsSet(md.userId) || md.plan.None?
    ensures Post(secret, serviceEnv, rawBody, header, hmacHex, parse, now) == Outcome(200, Received, None)
  {
  }

  /** A `trial_fee` payment records the fee and leaves the subscription (plan,
      active flag and the rest) untouched; any other type activates the
      subscription. */
  lemma TrialFeeRouting(data: ChargeData, now: int, m: UserMeta)
    requires WriteFor(data, now).Some?
    ensures var md := data.metadata.GetOr(NoMetadata());
      WriteFor(data, now).value.FeePaid? <==> PaymentKind(md) == "trial_fee"
    ensures var m' := ApplyWrite(WriteFor(data, now).value, m);
      WriteFor(data, now).value.FeePaid? ==>
        SameExceptFee(m, m') && m'.fee.paid == Some(true)
        && m'.fee.amountNgn == Some(data.amountKobo as real / 100.0)
  {
  }

  /** A subscription payment activates the user on the paid plan: a metadata
      plan of free is raised to pro, any other plan is kept. */
  lemma SubscriptionActivation(data: ChargeData, now: int, m: UserMeta)
    requires WriteFor(data, now).Some? && WriteFor(data, now).value.Activated?
    ensures var md := data.metadata.GetOr(NoMetadata());
      var m' := ApplyWrite(WriteFor(data, now).value, m);
      && SubscriptionActive(m') && m'.sub.pending == Some(false)
      && m'.sub.provider == Some("paystack") && m'.sub.reference == Some(data.reference)
      && PlanOrFree(m') == FloorPlan(md.plan.value) && PlanOrFree(m') != Free
      && m'.trial == m.trial && m'.fee == m.fee
  {
  }

  /** Replaying the same delivery later rewrites the same values except the
      activation time, which becomes the later time. */
  lemma Replay(secret: Option<string>, serviceEnv: bool, rawBody: string, header: Option<string>,
    hmacHex: (string, string) -> string, parse: string -> Option<WebhookEvent>, t1: int, t2: int, m: UserMeta)
    requires Post(secret, serviceEnv, rawBody, header, hmacHex, parse, t1).write.Some?
    ensures var w1 := Post(secret, serviceEnv, rawBody, header, hmacHex, parse, t1).write;
      var w2 := Post(secret, serviceEnv, rawBody, header, hmacHex, parse, t2).write;
      && w2.Some? && w1.value.Target() == w2.value.Target()
      && ApplyWrite(w2.value, ApplyWrite(w1.value, m)) == ApplyWrite(w2.value, m)
      && ApplyWrite(w1.value, m).sub.(activatedAt := None) == ApplyWrite(w2.value, m).sub.(activatedAt := None)
      && ApplyWrite(w1.value, m).fee == ApplyWrite(w2.value, m).fee
  {
  }
}

=== FILE: plan_catalog.dfy ===
/** The plan catalog of `actions/billing.actions.ts`: the three plan records,
    the hard-coded default catalog, and how a stored override is read back
    (a shallow merge over the defaults, one top-level key at a time). */
module PlanCatalog {
  import opened Basics

  datatype Plan = Free | Pro | Business

  /** The limits every plan record carries. */
  datatype PlanLimits = PlanLimits(
    maxDurationMin: int,
    maxParticipants: int,
    recordingsEnabled: bool,
    streamingEnabled: bool,
    unlimitedOneOnOne: bool)

  /** The pro record: the common limits plus the optional trial settings. */
  datatype ProLimits = ProLimits(
    limits: PlanLimits,
    trialDays: Option<int>,
    trialChargeEnabled: Option<bool>,
    trialChargeNgn: Option<real>)

  datatype PlanConfig = PlanConfig(free: PlanLimits, pro: ProLimits, business: PlanLimits)

  /** `cfg[plan]` restricted to the common limit fields. */
  function LimitsOf(cfg: PlanConfig, plan: Plan): PlanLimits {
    match plan
    case Free => cfg.free
    case Pro => cfg.pro.limits
    case Business => cfg.business
  }

  /** The catalog used when no override is stored. */
  function DefaultPlanConfig(): (c: PlanConfig)
    ensures c.free == PlanLimits(40, 100, false, false, true)
    ensures c.pro.limits == PlanLimits(1440, 300, true, true, true)
    ensures c.business == PlanLimits(1440, 1000, true, true, true)
    ensures c.pro.trialDays == Some(14) && c.pro.trialChargeEnabled == Some(false)
    ensures c.pro.trialChargeNgn == Some(0.0)
    ensures forall p :: LimitsOf(c, p).unlimitedOneOnOne
    ensures forall p :: LimitsOf(c, p).recordingsEnabled <==> p != Free
    ensures forall p :: LimitsOf(c, p).streamingEnabled <==> p != Free
  {
    PlanConfig(
      PlanLimits(40, 100, false, false, true),
      ProLimits(PlanLimits(1440, 300, true, true, true), Some(14), Some(false), Some(0.0)),
      PlanLimits(1440, 1000, true, true, true))
  }

  /** The override object as stored in the admin's metadata: any of the three
      top-level keys may be missing. */
  datatype StoredConfig = StoredConfig(
    free: Option<PlanLimits>,
    pro: Option<ProLimits>,
    business: Option<PlanLimits>)

  /** `{ ...defaultPlanConfig, ...cfg }` when a stored object exists, else the
      defaults. A `None` blob stands for "absent or not an object". */
  function MergeOverDefaults(stored: Option<StoredConfig>): (c: PlanConfig)
    ensures stored.None? ==> c == DefaultPlanConfig()
    ensures stored.Some? ==> c.free == stored.value.free.GetOr(DefaultPlanConfig().free)
    ensures stored.Some? ==> c.pro == stored.value.pro.GetOr(DefaultPlanConfig().pro)
    ensures stored.Some? ==> c.business == stored.value.business.GetOr(DefaultPlanConfig().business)
  {
    var d := DefaultPlanConfig();
    match stored
    case None => d
    case Some(s) => PlanConfig(s.free.GetOr(d.free), s.pro.GetOr(d.pro), s.business.GetOr(d.business))
  }

  /** The whole-object write: a full catalog becomes a stored object with all
      three keys present. */
  function Store(cfg: PlanConfig): (s: StoredConfig)
    ensures s.free.Some? && s.pro.Some? && s.business.Some?
  {
    StoredConfig(Some(cfg.free), Some(cfg.pro), Some(cfg.business))
  }

  /** Reading back a stored full catalog gives exactly that catalog: no field is
      coerced and no default leaks in, trial settings included. */
  lemma StoreThenMerge(cfg: PlanConfig)
    ensures MergeOverDefaults(Some(Store(cfg))) == cfg
  {
  }

  /** An empty stored object reads back as the defaults. */
  lemma EmptyStoredIsDefault()
    ensures MergeOverDefaults(Some(StoredConfig(None, None, None))) == DefaultPlanConfig()
  {
  }

  /** A stored plan record replaces the whole default record of that plan and
      nothing else: the other plans keep their defaults. */
  lemma PartialOverride(p: PlanLimits)
    ensures var c := MergeOverDefaults(Some(StoredConfig(None, None, Some(p))));
      c.business == p && c.free == DefaultPlanConfig().free && c.pro == DefaultPlanConfig().pro
  {
  }

  /** `cfg.pro.trialDays ?? 14` */
  function TrialDays(cfg: PlanConfig): int {
    cfg.pro.trialDays.GetOr(14)
  }

  /** `cfg.pro.trialChargeEnabled ?? false` */
  function TrialChargeEnabled(cfg: PlanConfig): bool {
    cfg.pro.trialChargeEnabled.GetOr(false)
  }

  /** `cfg.pro.trialChargeNgn ?? 0` */
  function TrialChargeNgn(cfg: PlanConfig): real {
    cfg.pro.trialChargeNgn.GetOr(0.0)
  }

  /** The trial settings fall back to 14 days, charging off and 0 NGN when the
      stored pro record leaves them out. */
  lemma TrialSettingDefaults(cfg: PlanConfig)
    requires cfg.pro.trialDays.None? && cfg.pro.trialChargeEnabled.None? && cfg.pro.trialChargeNgn.None?
    ensures TrialDays(cfg) == 14 && !TrialChargeEnabled(cfg) && TrialChargeNgn(cfg) == 0.0
  {
  }
}

=== FILE: radio_group.dfy ===
/** The radio group of `components/ui/radio-group.tsx`: an internal value that
    starts from `defaultValue`, is overwritten by a defined controlled `value`,
    and is changed by items whose input reports a checked change. */
module RadioGroup {
  import opened Basics

  /** The group's internal value and the last controlled prop the effect saw. */
  datatype State = State(value: Option<string>, controlled: Option<string>)

  /** Mounting: the state starts at `defaultValue`, then the effect copies a
      defined controlled value over it. */
  function Mount(defaultValue: Option<string>, controlled: Option<string>): (s: State)
    ensures controlled.Some? ==> s.value == controlled
    ensures controlled.None? ==> s.value == defaultValue
    ensures s.controlled == controlled
  {
    State(if controlled.Some? then controlled else defaultValue, controlled)
  }

  /** A new controlled prop: when it changed and is defined it replaces the
      value; becoming `undefined` leaves the value untouched. */
  function PropChange(s: State, controlled: Option<string>): (r: State)
    ensures r.controlled == controlled
    ensures controlled != s.controlled && controlled.Some? ==> r.value == controlled
    ensures controlled.None? || controlled == s.controlled ==> r.value == s.value
  {
    if controlled != s.controlled && controlled.Some? then State(controlled, controlled)
    else s.(controlled := controlled)
  }

  /** `checked` of an item: the group value equals the item's value. */
  predicate Checked(s: State, item: string) {
    s.value == Some(item)
  }

  /** Two items with different values are never both checked. */
  lemma AtMostOneChecked(s: State, a: string, b: string)
    requires a != b
    ensures !(Checked(s, a) && Checked(s, b))
  {
  }

  /** `handleChange(next)`: set the value and report it. */
  function HandleChange(s: State, next: string): (r: (State, Option<string>))
    ensures Checked(r.0, next) && r.1 == Some(next) && r.0.controlled == s.controlled
  {
    (s.(value := Some(next)), Some(next))
  }

  /** An item's `onChange`: only a change that leaves the input checked selects
      the item. */
  function ItemChange(s: State, item: string, targetChecked: bool): (r: (State, Option<string>))
    ensures targetChecked ==> r == HandleChange(s, item)
    ensures !targetChecked ==> r == (s, None)
  {
    if targetChecked then HandleChange(s, item) else (s, None)
  }

  /** After a checked change exactly the changed item is checked, and it is the
      value reported. */
  lemma ChangeChecksOnlyThatItem(s: State, item: string, other: string)
    ensures Checked(ItemChange(s, item, true).0, other) <==> other == item
    ensures ItemChange(s, item, true).1 == Some(item)
  {
  }

  /** A defined controlled value decides which item is checked. */
  lemma ControlledDecides(s: State, c: string, item: string)
    requires Some(c) != s.controlled
    ensures Checked(PropChange(s, Some(c)), item) <==> item == c
  {
  }

  /** Without a controlled value, an uncontrolled group starts on its default. */
  lemma DefaultChecked(defaultValue: string, item: string)
    ensures Checked(Mount(Some(defaultValue), None), item) <==> item == defaultValue
  {
  }
}

=== FILE: select.dfy ===
/** The drop-down select of `components/ui/select.tsx`: the root keeps the
    chosen value and a registry from item values to their labels, items
    register themselves and report clicks, and the value slot resolves the text
    to show. */
module Select {
  import opened Basics

  /** `labels`: item value to item label. */
  type Labels = map<string, string>

  /** `register(v, label)`: the same map when `v` already has that label,
      otherwise the map with only key `v` changed. */
  function Register(labels: Labels, v: string, l: string): (r: Labels)
    ensures v in r && r[v] == l
    ensures r.Keys == labels.Keys + {v}
    ensures forall k :: k in labels && k != v ==> r[k] == labels[k]
    ensures v in labels && labels[v] == l ==> r == labels
  {
    if v in labels && labels[v] == l then labels else labels[v := l]
  }

  /** Registering the same pair twice is the same as registering it once. */
  lemma RegisterIdempotent(labels: Labels, v: string, l: string)
    ensures Register(Register(labels, v, l), v, l) == Register(labels, v, l)
  {
  }

  /** Items with different values can register in either order. */
  lemma RegisterCommutes(labels: Labels, v: string, l: string, w: string, m: string)
    requires v != w
    ensures Register(Register(labels, v, l), w, m) == Register(Register(labels, w, m), v, l)
  {
  }

  /** What an item registers as its label: the child text when the child is a
      string, otherwise its `String(...)` rendering. */
  datatype Child = Text(text: string) | Element(rendered: string)

  function ItemLabel(c: Child): (l: string)
    ensures c.Text? ==> l == c.text
    ensures c.Element? ==> l == c.rendered
  {
    match c
    case Text(t) => t
    case Element(s) => s
  }

  /** The root's state: `val` and `labels`, plus the last `value` prop seen by
      the effect that copies it into `val`. */
  datatype State = State(val: Option<string>, labels: Labels, prop: Option<string>)

  function Init(value: Option<string>): (s: State)
    ensures s.val == value && s.labels == map[] && s.prop == value
  {
    State(value, map[], value)
  }

  datatype Event =
    | ValueProp(value: Option<string>)
    | Registered(v: string, child: Child)
    | Clicked(v: string)

  datatype Stepped = Stepped(state: State, notified: seq<string>)

  /** `handleChange(v)`: set the value and call `onValueChange` once with it. */
  function HandleChange(s: State, v: string): (r: Stepped)
    ensures r.state.val == Some(v) && r.notified == [v]
    ensures r.state.labels == s.labels && r.state.prop == s.prop
  {
    Stepped(s.(val := Some(v)), [v])
  }

  /** One event. The value effect runs only when the prop changes, and then
      copies it, `undefined` included. */
  function Step(s: State, e: Event): (r: Stepped)
    ensures e.Clicked? ==> r.state.val == Some(e.v) && r.notified == [e.v]
    ensures !e.Clicked? ==> r.notified == []
    ensures e.ValueProp? && e.value != s.prop ==> r.state.val == e.value
    ensures e.ValueProp? && e.value == s.prop ==> r.state == s
    ensures e.Registered? ==> r.state.val == s.val && r.state.labels == Register(s.labels, e.v, ItemLabel(e.child))
    ensures !e.Registered? ==> r.state.labels == s.labels
  {
    match e
    case ValueProp(v) => if v == s.prop then Stepped(s, []) else Stepped(s.(val := v, prop := v), [])
    case Registered(v, c) => Stepped(s.(labels := Register(s.labels, v, ItemLabel(c))), [])
    case Clicked(v) => HandleChange(s, v)
  }

  /** The text of `SelectValue`: for a non-empty value its registered label,
      or the value itself when none is registered; then, if that is empty, the
      placeholder, else the empty string. */
  function Shown(val: Option<string>, labels: Labels, placeholder: Option<string>): (r: string)
    ensures IsSet(val) && val.value in labels && labels[val.value] != "" ==> r == labels[val.value]
    ensures IsSet(val) && val.value !in labels ==> r == val.value
    ensures !IsSet(val) ==> r == OrElse(placeholder, "")
    ensures IsSet(val) && val.value in labels && labels[val.value] == "" ==> r == OrElse(placeholder, "")
    ensures r == "" <==> !IsSet(placeholder) && (!IsSet(val) || (val.value in labels && labels[val.value] == ""))
  {
    var first := if IsSet(val) then (if val.value in labels then labels[val.value] else val.value) else "";
    if first != "" then first else OrElse(placeholder, "")
  }

  /** Once an item has registered a non-empty label, choosing it shows that
      label rather than the raw value. */
  lemma ChosenItemShowsItsLabel(s: State, v: string, c: Child, placeholder: Option<string>)
    requires v != "" && ItemLabel(c) != ""
    ensures var s1 := Step(s, Registered(v, c)).state;
      Shown(Step(s1, Clicked(v)).state.val, Step(s1, Clicked(v)).state.labels, placeholder) == ItemLabel(c)
  {
  }

  /** A click reports the item's value once and leaves the registry alone. */
  lemma ClickNotifiesOnce(s: State, v: string)
    ensures |Step(s, Clicked(v)).notified| == 1
    ensures Step(s, Clicked(v)).state.labels == s.labels
  {
  }

  /** As written, a click in a parent-controlled select changes the shown value
      even when the parent keeps its prop: the effect only copies the prop when
      the prop itself changes. */
  lemma ClickOverridesUnchangedProp(s: State, v: string)
    requires s.val == s.prop && Some(v) != s.prop
    ensures var s1 := Step(s, Clicked(v)).state;
      Step(s1, ValueProp(s.prop)).state.val == Some(v) && Some(v) != s.prop
  {
  }
}
